=== FILE: README.md ===
# Bible study tool: streaming analyses, caches and page state in Dafny

This project models the logic at the core of the bible-study tool. The tool
has a Python back end and two React front ends.

The centre of it is a "generate, then cache" pipeline for Strong's word
analyses, in four parts:

- **Back-end generators.** `get_chapter_intro_stream` and
  `get_strongs_analysis_stream` re-parse the language model's growing output
  after every chunk. They send each paragraph section as the new suffix of
  its text, and send header sections whole when they change. Each stream
  closes with one `complete` or `error` frame.
- **Front-end client.** `StrongsAnalysisModal` frames the response into
  lines and dispatches each line's envelope. It accumulates the sections,
  and stores a finished analysis in a two-tier cache with an expiry time.
- **Bare caches.** Three other modals keep unexpiring caches in
  localStorage. One of them writes under the same keys as the expiring
  cache.
- **Page state.** The highlight store of the chapter view, the book and
  chapter picker, the weather-stream test page, the verse-text normaliser
  and the study chat of the older front end.

Everything is modelled as immutable data and pure functions:

- localStorage is a map from keys to the parsed form of their values
  (`Storage.Stored`: a wrapped record, a bare document, unparseable text, or
  a blank value).
- Time is an integer parameter.
- Response bodies are sequences of decoded text chunks.
- The language model's output is a sequence of content deltas, plus an
  optional exception.
- `JSON.parse` followed by the envelope's `type` test is an abstract
  classification of each line (`StrongsClient.Context.classify`).

Modules follow the source:

| module | models |
|---|---|
| `Text`, `Wrappers` | JavaScript and Python whitespace, trim and strip, ASCII lower-casing, search, split and join, decimal rendering |
| `Storage`, `TtlCache` | localStorage, and the two-tier expiring cache of `StrongsAnalysisModal.tsx` |
| `Framing`, `StrongsClient`, `StrongsParsers` | the client's line framer, its read loop and envelope dispatch, and its pure parsers |
| `Sections`, `DeltaEmitter` | the back end's marker parsers, delta and header emission, final assembly and validation |
| `EndToEnd` | the back end's Strong's stream, as bytes, read by the client |
| `BareCache` | `StrongsInfoModal.tsx`, `StrongsInfoModal_.tsx`, `ContextInfoModal.tsx` |
| `Highlights` | the highlight store and helpers of `BibleChapter.tsx` |
| `ReadHeader`, `WeatherStream` | `ReadHeader.tsx` and `TestStream.tsx` |
| `VerseText`, `Chat` | `BibleChapter.jsx` and `BibleStudyMain.jsx` of the older front end |

Four behaviours of the client are modelled as the code has them, although a reader might expect otherwise:

- A cached document without an `expiry` field is deleted on read, not migrated to a wrapped record (bible-study-fe-2/src/modals/StrongsAnalysisModal.tsx:110-116).
- Unparseable cached text is left in place, because the parse error is caught before the removal (bible-study-fe-2/src/modals/StrongsAnalysisModal.tsx:107-121).
- A clean end of stream without `complete` leaves the modal streaming with no error (bible-study-fe-2/src/modals/StrongsAnalysisModal.tsx:186-188).
- An `error` envelope is swallowed rather than failing the request (bible-study-fe-2/src/modals/StrongsAnalysisModal.tsx:224-231; the second finding below).

## Model

| member | source | states |
|---|---|---|
| Storage.GetItem | bible-study-fe-2/src/modals/StrongsAnalysisModal.tsx:107 | a key's value is found exactly when the key is present, and it is the stored value |
| Storage.RemoveItem | bible-study-fe-2/src/modals/StrongsAnalysisModal.tsx:115 | the named key is gone and every other key keeps its value |
| TtlCache.CacheKey | bible-study-fe-2/src/modals/StrongsAnalysisModal.tsx:64-71 | the key is the `strongs-book-chapter-verse-` prefix followed by the lower-cased, trimmed word |
| TtlCache.CacheKeyIdentifiesWord | bible-study-fe-2/src/modals/StrongsAnalysisModal.tsx:64-71 | at one verse, two words share a key exactly when they normalise alike |
| TtlCache.CaseAndPaddingShareKey | bible-study-fe-2/src/modals/StrongsAnalysisModal.tsx:70 | words that differ only in letter case, or in surrounding whitespace, share a key |
| TtlCache.NormalizeIgnoresPadding | bible-study-fe-2/src/modals/StrongsAnalysisModal.tsx:70 | whitespace around a word does not change its normalised form |
| Text.LowerIdempotent | bible-study-fe-2/src/modals/StrongsAnalysisModal.tsx:70 | lower-casing an already lower-cased word changes nothing |
| TtlCache.MakeEntry | bible-study-fe-2/src/modals/StrongsAnalysisModal.tsx:79-83 | the record keeps the data and the save time; it lives exactly `expiryDays` days in milliseconds, so it expires after the save time whenever `expiryDays > 0` |
| TtlCache.Save | bible-study-fe-2/src/modals/StrongsAnalysisModal.tsx:73-94 | the same record goes to the memory tier (created if absent) and to localStorage under the key; every other key of either tier is unchanged |
| TtlCache.TrySave | bible-study-fe-2/src/modals/StrongsAnalysisModal.tsx:78-93 | the memory write comes first and always lands; when `setItem` throws, the error is caught and localStorage keeps exactly what it had; when it succeeds, localStorage gets the same record under the key and every other key is unchanged |
| TtlCache.Lookup | bible-study-fe-2/src/modals/StrongsAnalysisModal.tsx:96-122 | data is found exactly when memory or localStorage holds an unexpired record, and memory wins; localStorage loses the key exactly when its value is bare, expired or has expiry 0; memory changes only by restoring a live stored record, and only when the memory object exists |
| TtlCache.SaveThenLookup | bible-study-fe-2/src/modals/StrongsAnalysisModal.tsx:73-113 | a saved record is returned by every lookup before it expires |
| TtlCache.SurvivesReload | bible-study-fe-2/src/modals/StrongsAnalysisModal.tsx:106-113 | after a page reload drops the memory tier, the record is still returned, now from localStorage |
| TtlCache.ExpiredNeverReturned | bible-study-fe-2/src/modals/StrongsAnalysisModal.tsx:102-116 | from its expiry time on, a record is never returned, and a lookup removes it from localStorage |
| TtlCache.BareEntryDeleted | bible-study-fe-2/src/modals/StrongsAnalysisModal.tsx:110-116 | a document stored without an `expiry` is deleted on sight, not migrated |
| TtlCache.CorruptEntryKept | bible-study-fe-2/src/modals/StrongsAnalysisModal.tsx:107-121 | unparseable text yields null and is left in localStorage, because the parse error skips the removal |
| TtlCache.LookupStable | bible-study-fe-2/src/modals/StrongsAnalysisModal.tsx:96-122 | a second lookup at the same time returns what the first returned |
| Framing.Feed | bible-study-fe-2/src/modals/StrongsAnalysisModal.tsx:190-192 | the complete lines, each with its line feed, followed by the new buffer, spell the old buffer plus the chunk; no line and not the buffer holds a line feed |
| Framing.TerminatedUnique | bible-study-fe-2/src/modals/StrongsAnalysisModal.tsx:191-192 | a text has one reading as complete lines plus an unterminated fragment, so the framer's split is determined by the text |
| Framing.FeedAll | bible-study-fe-2/src/modals/StrongsAnalysisModal.tsx:186-192 | between chunks the carried buffer never holds a line feed, and no delivered line does |
| Framing.FeedAllSpellsInput | bible-study-fe-2/src/modals/StrongsAnalysisModal.tsx:186-192 | over all chunks nothing is lost or duplicated: the lines delivered in order, then the buffer, spell the whole transfer |
| Framing.ChunkingIrrelevant | bible-study-fe-2/src/modals/StrongsAnalysisModal.tsx:186-192 | where the chunk boundaries fall does not change the lines delivered or the leftover |
| Framing.NothingLeftAfterLineFeed | bible-study-fe-2/src/modals/StrongsAnalysisModal.tsx:186-192 | a transfer that ends with a line feed leaves an empty buffer |
| Framing.Clean | bible-study-fe-2/src/modals/StrongsAnalysisModal.tsx:195-197 | a line is skipped exactly when it is blank; otherwise a leading `data: ` is removed and nothing else changes |
| Framing.CleanInvertsFraming | bible-study-fe-2/src/modals/StrongsAnalysisModal.tsx:195-197 | the line `data: <payload>` yields the payload, and the empty line after each frame is skipped |
| StrongsClient.OnLine | bible-study-fe-2/src/modals/StrongsAnalysisModal.tsx:194-231 | the line loop stops exactly on a `complete` envelope, which shows the document, stops streaming and caches it for 7 days; a `section_update` appends its content to its own section only; blank, malformed, unknown and `error` lines change nothing (the error is swallowed) |
| StrongsClient.OnLines | bible-study-fe-2/src/modals/StrongsAnalysisModal.tsx:194-232 | the line loop never sets the error, and keeps a shown analysis cached |
| StrongsClient.OnChunk | bible-study-fe-2/src/modals/StrongsAnalysisModal.tsx:186-233 | after each read the buffer has no line feed; the error is untouched |
| StrongsClient.OnChunks | bible-study-fe-2/src/modals/StrongsAnalysisModal.tsx:186-233 | the read loop keeps the buffer free of line feeds, never sets the error, and keeps a shown analysis cached |
| StrongsClient.Fail | bible-study-fe-2/src/modals/StrongsAnalysisModal.tsx:236-244 | the outer `catch` stops streaming and shows the error's message, or the fallback when it is empty, leaving the rest of the state |
| StrongsClient.ReadBody | bible-study-fe-2/src/modals/StrongsAnalysisModal.tsx:186-244 | reading a body shows an error exactly when the read itself fails |
| StrongsClient.IsFromCacheStaysFalse | bible-study-fe-2/src/modals/StrongsAnalysisModal.tsx:216-221 | reading a response never marks the view as coming from the cache |
| StrongsClient.Request | bible-study-fe-2/src/modals/StrongsAnalysisModal.tsx:154-245 | after a cache miss an error shows exactly when the request fails; a rejected fetch, a non-ok status and a missing reader each give their message; an abort changes nothing |
| StrongsClient.Fetch | bible-study-fe-2/src/modals/StrongsAnalysisModal.tsx:125-152 | a closed modal resets to idle; an open one shows a live cached analysis as from the cache, and otherwise makes the request |
| StrongsClient.FromCacheIffLive | bible-study-fe-2/src/modals/StrongsAnalysisModal.tsx:139-152 | an open modal's view is marked as coming from the cache exactly when either tier held a live record for the key |
| StrongsClient.GetCurrentData | bible-study-fe-2/src/modals/StrongsAnalysisModal.tsx:257-274 | the finished document wins; otherwise each field is its streamed section, or `""` |
| StrongsClient.AccumulateConcatenates | bible-study-fe-2/src/modals/StrongsAnalysisModal.tsx:202-211 | after any sequence of section updates each section is its earlier text followed by its own updates' contents in arrival order |
| StrongsClient.LinesWithoutComplete | bible-study-fe-2/src/modals/StrongsAnalysisModal.tsx:194-232 | without a `complete` line the line loop is exactly the fold of its section updates |
| StrongsClient.InertLines | bible-study-fe-2/src/modals/StrongsAnalysisModal.tsx:194-231 | blank, malformed, unknown and `error` lines leave the session as it was |
| StrongsClient.ChunksAsOneRead | bible-study-fe-2/src/modals/StrongsAnalysisModal.tsx:186-233 | without a `complete` line the chunk-by-chunk read handles exactly the framer's lines, in order |
| StrongsClient.ChunkBoundariesIrrelevant | bible-study-fe-2/src/modals/StrongsAnalysisModal.tsx:186-233 | without a `complete` line, how the transfer is cut into chunks does not change the outcome |
| StrongsClient.CleanEndWithoutComplete | bible-study-fe-2/src/modals/StrongsAnalysisModal.tsx:186-188 | a transfer that ends cleanly without `complete` leaves the modal streaming, with no error and only the accumulated sections |
| StrongsClient.LeftoverNeverParsed | bible-study-fe-2/src/modals/StrongsAnalysisModal.tsx:186-192 | text after the last line feed of a transfer is never dispatched |
| StrongsClient.LinesAsFold | bible-study-fe-2/src/modals/StrongsAnalysisModal.tsx:223 | when only ignored lines follow a `complete` line, the `break` makes no difference to the line loop |
| StrongsClient.ChunksAsFold | bible-study-fe-2/src/modals/StrongsAnalysisModal.tsx:186-233 | under the same condition the chunk-by-chunk read equals a fold over all framed lines |
| StrongsClient.ReadAsFold | bible-study-fe-2/src/modals/StrongsAnalysisModal.tsx:186-233 | a clean transfer, read chunk by chunk, equals the fold over the lines of the whole text |
| StrongsClient.BreakEndsOnlyCurrentChunk | bible-study-fe-2/src/modals/StrongsAnalysisModal.tsx:223 | illustration on one concrete two-chunk stream (not a general law): `break` ends only the current chunk's loop, so an update after `complete` in the same chunk is dropped, and one in the next chunk is applied |
| StrongsClient.CompletedAnalysisCached | bible-study-fe-2/src/modals/StrongsAnalysisModal.tsx:212-222 | a finished analysis is returned from memory until 7 days after the clock reading taken at completion; when `setItem` succeeded it is also returned after a reload; the next opening shows it from the cache |
| StrongsClient.SurfacingLines | bible-study-fe-2/src/modals/StrongsAnalysisModal.tsx:224-225 | the intended line loop: with no error line it is the line loop as written; an error line ends the read with its message |
| StrongsClient.ErrorEndsStream | bible-study-fe-2/src/modals/StrongsAnalysisModal.tsx:224-244 | with the intended dispatch an error envelope after any updates stops streaming and shows its message, whatever follows |
| StrongsParsers.ParseWordHeader | bible-study-fe-2/src/modals/StrongsAnalysisModal.tsx:276-283 | the word and number are the trimmed first and second `\|` parts, the number `""` when there is no second part |
| StrongsParsers.WordHeaderRoundTrip | bible-study-fe-2/src/modals/StrongsAnalysisModal.tsx:276-283 | a header written `word \| number`, with any whitespace around the bar, reads back as that word and number |
| StrongsParsers.KeepNonEmpty | bible-study-fe-2/src/modals/StrongsAnalysisModal.tsx:290 | exactly the non-empty pieces are kept, in their original order and each as often as it occurs; a list with no empty piece is kept whole |
| StrongsParsers.ParseRootMeanings | bible-study-fe-2/src/modals/StrongsAnalysisModal.tsx:285-291 | exactly the non-empty trimmed `\|`-pieces of the text, in order and with their multiplicities; each is non-empty, trimmed and free of `\|`; an empty text has none |
| StrongsParsers.RootMeaningsOfJoin | bible-study-fe-2/src/modals/StrongsAnalysisModal.tsx:285-291 | parsing `\|`-joined bar-free pieces gives back exactly the pieces that are non-empty once trimmed, trimmed, in order |
| StrongsParsers.RootMeaningsRoundTrip | bible-study-fe-2/src/modals/StrongsAnalysisModal.tsx:285-291 | non-empty, trimmed meanings joined with `\|` parse back into the same list |
| StrongsParsers.SplitBefore | bible-study-fe-2/src/modals/StrongsAnalysisModal.tsx:329 | the pieces of the split before each `**Reference:**` concatenate back to the text |
| StrongsParsers.CutsAtMarker | bible-study-fe-2/src/modals/StrongsAnalysisModal.tsx:329 | from every piece after the first, the rest of the text starts with the marker, so each cut is made just before a `**Reference:**` |
| StrongsParsers.WithReference | bible-study-fe-2/src/modals/StrongsAnalysisModal.tsx:354 | exactly the entries with a non-empty reference are kept, in their original order and each as often as it occurs |
| StrongsParsers.ParseOtherUses | bible-study-fe-2/src/modals/StrongsAnalysisModal.tsx:325-356 | at most 8 entries, each with a reference, forming the first of the referenced entries (all of them when there are 8 or fewer); none for an empty text |
| Sections.SectionEnd | bible-study-be-2/services/bible_service.py:186-191 | a section ends at its earliest terminator, or at the end of the text |
| Sections.Capture | bible-study-be-2/services/bible_service.py:196-202 | a section is found only when its opening marker occurs, and what is kept is non-empty and stripped |
| Sections.ParseSections | bible-study-be-2/services/bible_service.py:180-204 | the sections found appear in pattern order, each at most once, with non-empty stripped content |
| Sections.Get | bible-study-be-2/services/bible_service.py:146-147 | a name's value comes from a section found under that name; a name never found has none |
| Sections.ParseFindsCaptures | bible-study-be-2/services/bible_service.py:196-202 | the parse records a section exactly when its own pattern captures something, and records that capture |
| Sections.NotFoundWhenAbsent | bible-study-be-2/services/bible_service.py:196-204 | a name no pattern has is never in the parse |
| Sections.CaptureReadsWrittenSection | bible-study-be-2/services/bible_service.py:186-191 | a section written as `<open> body <terminator>` reads back as exactly its body |
| Sections.CaptureReadsOpenSection | bible-study-be-2/services/bible_service.py:397-404 | a section still being written, with no terminator yet, reads back as its body so far |
| Sections.Title | bible-study-be-2/services/bible_service.py:207-215 | names outside the four mapped paragraph sections are their own titles |
| Sections.TitlesDistinct | bible-study-be-2/services/bible_service.py:207-215 | the four paragraph sections get four different titles, none of them a section name |
| DeltaEmitter.OnParagraph | bible-study-be-2/services/bible_service.py:113-126 | a paragraph is sent exactly when it is longer than what was sent and the new suffix has no bracket; the frame carries that suffix and the text becomes the sent text; otherwise nothing changes |
| DeltaEmitter.OnHeader | bible-study-be-2/services/bible_service.py:128-132 | a header is sent whole exactly when it differs from what was last sent |
| DeltaEmitter.OnParse | bible-study-be-2/services/bible_service.py:112-132 | handling one parse never emits a closing frame |
| DeltaEmitter.OnUpstream | bible-study-be-2/services/bible_service.py:103-109 | each upstream chunk only appends frames, none of them closing |
| DeltaEmitter.Consume | bible-study-be-2/services/bible_service.py:103-132 | the incremental phase only appends frames, none of them closing |
| DeltaEmitter.Missing | bible-study-be-2/models/schemas.py:33-41 | exactly the required fields that are not supplied, in schema order |
| DeltaEmitter.FinalParas | bible-study-be-2/services/bible_service.py:150-155 | the paragraph titles follow the fixed section order, skipping absent sections |
| DeltaEmitter.ParaPresentIffFound | bible-study-be-2/services/bible_service.py:150-155 | a paragraph section is in `Paras` under its title exactly when the last parse found it, with that content |
| DeltaEmitter.TitleAbsent | bible-study-be-2/services/bible_service.py:150-155 | no paragraph carries a title that no paragraph section maps to |
| DeltaEmitter.Document | bible-study-be-2/services/bible_service.py:357-366 | the validated document has exactly the schema's fields |
| DeltaEmitter.Finish | bible-study-be-2/services/bible_service.py:353-386 | a chapter introduction always completes; a Strong's analysis completes exactly when no required field is missing, and otherwise the error is `Validation error: ` followed by the missing field names, standing in for Pydantic's message |
| DeltaEmitter.Run | bible-study-be-2/services/bible_service.py:103-178 | a generator run ends with exactly one closing frame, the last; an upstream exception closes it with an API error |
| DeltaEmitter.IntroCompletes | bible-study-be-2/services/bible_service.py:142-172 | a chapter introduction whose upstream finishes closes with `complete` |
| DeltaEmitter.MissingLiteralMeaning | bible-study-be-2/models/schemas.py:38 | of the required Strong's fields, exactly `LiteralMeaning` is never supplied |
| DeltaEmitter.FailedValidationNeverCompletes | bible-study-be-2/services/bible_service.py:369-386 | with a required field the generator never supplies, no frame is `complete`, and a finished upstream closes with the validation error |
| DeltaEmitter.StrongsNeverCompletesAsWritten | bible-study-be-2/models/schemas.py:33-41 | as written, a Strong's stream never sends `complete`; a finished upstream closes with `Validation error: LiteralMeaning` |
| DeltaEmitter.StrongsCompletes | bible-study-be-2/services/bible_service.py:353-383 | with the schema the rest of the system uses, a finished upstream closes with `complete` carrying the last parse's fields |
| DeltaEmitter.ParagraphTitlesDistinct | bible-study-be-2/services/bible_service.py:207-215 | the four paragraph titles are distinct |
| DeltaEmitter.PatternNamesDistinct | bible-study-be-2/services/bible_service.py:185-192 | no two section patterns of a format share a name |
| DeltaEmitter.ParseNamesDistinct | bible-study-be-2/services/bible_service.py:196-204 | a parse never reports a section twice |
| DeltaEmitter.ParagraphExtends | bible-study-be-2/services/bible_service.py:115-124 | when a section's text extends what was sent, the delta sent (or none) completes the old sent text to the new sent text |
| DeltaEmitter.OtherSectionUntouched | bible-study-be-2/services/bible_service.py:112-132 | handling a section changes neither the sent text nor the deltas of any other section |
| DeltaEmitter.ParseReconstructs | bible-study-be-2/services/bible_service.py:112-126 | within one parse, each paragraph section's deltas complete its old sent text to its new sent text |
| DeltaEmitter.DeltasReconstructSent | bible-study-be-2/services/bible_service.py:103-126 | while every parse extends the text sent before, the concatenated deltas of a section equal its last-sent text |
| DeltaEmitter.WithheldNotLost | bible-study-be-2/services/bible_service.py:119-121 | a withheld delta is not lost: the next delta sent covers it, and completes the old sent text to the new text |
| EndToEnd.WireIsTerminated | bible-study-be-2/services/bible_service.py:383-389 | the bytes of a stream are its frame lines, each followed by a line feed |
| EndToEnd.WireLinesAppend | bible-study-be-2/services/bible_service.py:343 | the lines of two streams in a row are the lines of each, in order |
| EndToEnd.ClientSeesWireLines | bible-study-fe-2/src/modals/StrongsAnalysisModal.tsx:186-192 | however the transfer is cut into chunks, the framer yields exactly the frames' lines and leaves nothing behind |
| EndToEnd.FrameLines | bible-study-fe-2/src/modals/StrongsAnalysisModal.tsx:195-200 | each frame's `data:` line reaches the dispatcher as that frame, and the blank line after it is skipped |
| EndToEnd.WireUpdates | bible-study-fe-2/src/modals/StrongsAnalysisModal.tsx:202-211 | the client's updates for a section carry exactly the back end's deltas for it |
| EndToEnd.WireWithoutComplete | bible-study-fe-2/src/modals/StrongsAnalysisModal.tsx:212 | a stream with no `complete` frame has no line the client completes on |
| EndToEnd.WireOnlyUpdates | bible-study-fe-2/src/modals/StrongsAnalysisModal.tsx:212-225 | incremental frames produce neither completion nor error lines |
| EndToEnd.ReadWithoutComplete | bible-study-fe-2/src/modals/StrongsAnalysisModal.tsx:186-233 | a stream without `complete`, however chunked, leaves the client streaming with an untouched cache, and each section is the concatenation of the back end's deltas |
| EndToEnd.ReadEndingInComplete | bible-study-fe-2/src/modals/StrongsAnalysisModal.tsx:212-223 | a stream closed by `complete`, however chunked, ends with that document shown, streaming stopped, no error, and the document cached |
| EndToEnd.SurfacesError | bible-study-fe-2/src/modals/StrongsAnalysisModal.tsx:224-244 | with the intended dispatch, a stream closed by an `error` frame ends the read showing its message |
| EndToEnd.StreamShape | bible-study-be-2/services/bible_service.py:103-178 | a run is its incremental frames followed by one closing frame |
| EndToEnd.Rebuilt | bible-study-be-2/services/bible_service.py:115-126 | the closing frame carries no section text, so a run's deltas for a section still spell its last-sent text |
| EndToEnd.AsWrittenStrongsNeverCompletes | bible-study-be-2/services/bible_service.py:369-386 | as written, a Strong's stream leaves the client streaming forever with no error and nothing cached, showing only the streamed sections |
| EndToEnd.CorrectedStrongsCompletes | bible-study-be-2/services/bible_service.py:353-383 | with the corrected schema, the client ends with the validated document shown and cached |
| EndToEnd.ValidationErrorSurfaces | bible-study-fe-2/src/modals/StrongsAnalysisModal.tsx:224-244 | with the intended dispatch, the as-written stream ends showing `Validation error: LiteralMeaning` |
| BareCache.Request | bible-study-fe-2/src/modals/StrongsInfoModal.tsx:90-110 | a fetched document is shown and written under the key; a non-ok response or a thrown error shows its message and writes nothing; loading ends false |
| BareCache.CacheThenFetch | bible-study-fe-2/src/modals/StrongsInfoModal.tsx:79-110 | a parseable cached value is shown with no fetch; a corrupt one is removed before fetching; an absent or blank one leads straight to the fetch |
| BareCache.OtherKeysUntouched | bible-study-fe-2/src/modals/StrongsInfoModal.tsx:79-110 | a run writes or removes only its own key |
| BareCache.FetchedThenCached | bible-study-fe-2/src/modals/StrongsInfoModal.tsx:79-105 | after a successful fetch, the next run under the same key is served from the cache with no fetch |
| BareCache.FailureWritesNothing | bible-study-fe-2/src/modals/StrongsInfoModal.tsx:98-107 | a failed fetch leaves storage as it was, except that a corrupt value was removed |
| BareCache.InfoKey | bible-study-fe-2/src/modals/StrongsInfoModal.tsx:76 | the key is the same `strongs-book-chapter-verse-` prefix followed by the lower-cased, untrimmed word |
| BareCache.StrongsData | bible-study-fe-2/src/modals/StrongsInfoModal.tsx:71-116 | the effect does nothing unless open with a word that is not whitespace only; then it is cache-then-fetch under the verse key |
| BareCache.VerseChangeKeepsStaleData | bible-study-fe-2/src/modals/StrongsInfoModal.tsx:116 | changing only the verse does not re-run the effect, although the key it would use changes |
| BareCache.BareWritesDeletedByTtlReader | bible-study-fe-2/src/modals/StrongsInfoModal.tsx:76-104 | this modal writes under the expiring cache's key, and the expiring cache's reader returns nothing there and deletes the value |
| BareCache.TtlRecordShownWhole | bible-study-fe-2/src/modals/StrongsInfoModal.tsx:79-83 | a record saved by the expiring cache is shown by this modal as the whole wrapper |
| BareCache.InfoKeyNoVerse | bible-study-fe-2/src/modals/StrongsInfoModal_.tsx:73 | the key is `strongs-book-chapter-` followed by the lower-cased word, with no verse |
| BareCache.StrongsInfo | bible-study-fe-2/src/modals/StrongsInfoModal_.tsx:70-120 | the effect runs only while open with a non-empty word, as cache-then-fetch under the verse-free key |
| BareCache.VersesShareOneDocument | bible-study-fe-2/src/modals/StrongsInfoModal_.tsx:73 | every verse of a chapter shares one cached document for a word |
| BareCache.Context | bible-study-fe-2/src/modals/ContextInfoModal.tsx:32-75 | the effect runs only while open, as cache-then-fetch under `chapter-context-book-chapter` |
| BareCache.ContextKeysApart | bible-study-fe-2/src/modals/ContextInfoModal.tsx:35 | chapter explanations never share a key with Strong's documents |
| BareCache.Candidates | bible-study-fe-2/src/modals/StrongsInfoModal.tsx:122-130 | seven candidate forms, the word itself and its lower-cased form first |
| BareCache.LongerThanTwo | bible-study-fe-2/src/modals/StrongsInfoModal.tsx:131 | `.filter((v) => v.length > 2)` keeps exactly the forms longer than two characters, in their original order (a subsequence) |
| BareCache.LongerThanTwoOrder | bible-study-fe-2/src/modals/StrongsInfoModal.tsx:131 | two forms that survive the length filter first occur in it in the same order as in the unfiltered list |
| BareCache.Variations | bible-study-fe-2/src/modals/StrongsInfoModal.tsx:121-133 | the distinct candidate forms longer than two characters, no more and no fewer, each placed where it first occurs among the candidates, as a `Set` keeps insertion order; this is the order of the regex alternation |
| BareCache.HighlightForms | bible-study-fe-2/src/modals/StrongsInfoModal.tsx:118-138 | the verse is shown unmarked exactly when the word is empty or no form is longer than two characters; otherwise there is one marked form per variation, in order, and each escapes exactly that variation |
| BareCache.LongWordHighlighted | bible-study-fe-2/src/modals/StrongsInfoModal.tsx:131 | a word of three or more characters is always marked |
| BareCache.Escape | bible-study-fe-2/src/modals/StrongsInfoModal.tsx:134-136 | escaping only adds characters, and a text with no special character is unchanged |
| BareCache.EscapeRoundTrip | bible-study-fe-2/src/modals/StrongsInfoModal.tsx:134-136 | escaping loses nothing: the escaped text reads back as the original |
| Highlights.AddHighlight | bible-study-fe-2/src/components/BibleChapter.tsx:372-385 | the text is appended to the verse's list (created if absent), duplicates kept; other verses unchanged |
| Highlights.Without | bible-study-fe-2/src/components/BibleChapter.tsx:396-398 | every copy of the text goes and every other text keeps its count |
| Highlights.RemoveHighlight | bible-study-fe-2/src/components/BibleChapter.tsx:388-407 | every copy of the text is removed from the verse, whose entry goes when its list empties; an unknown verse is a no-op; other verses unchanged |
| Highlights.EditsKeepListsNonEmpty | bible-study-fe-2/src/components/BibleChapter.tsx:399-402 | adding and removing keep every stored list non-empty |
| Highlights.AddThenRemoveRestores | bible-study-fe-2/src/components/BibleChapter.tsx:372-407 | adding a text the verse lacked and removing it again restores the store |
| Highlights.HighlightKeyRoundTrip | bible-study-fe-2/src/components/BibleChapter.tsx:265-266 | a highlight key reads back as its verse and text when the verse id has no `:` |
| Highlights.HighlightKeyInjective | bible-study-fe-2/src/components/BibleChapter.tsx:265-266 | two highlight keys are equal exactly when verse and text are |
| Highlights.NoteId | bible-study-fe-2/src/components/BibleChapter.tsx:91-93 | the note id is the verse id and `-`, followed by text with no whitespace |
| Highlights.NoteIdIgnoresSpacing | bible-study-fe-2/src/components/BibleChapter.tsx:92 | selections that differ only in whitespace share a note |
| Highlights.LoadHighlights | bible-study-fe-2/src/components/BibleChapter.tsx:245-253 | the stored map when one parses, otherwise `{}` |
| Highlights.SaveHighlights | bible-study-fe-2/src/components/BibleChapter.tsx:256-262 | a successful `setItem` stores the chapter's map under its key; a throwing one is caught and leaves localStorage exactly as it was; no other key changes either way |
| Highlights.SaveThenLoad | bible-study-fe-2/src/components/BibleChapter.tsx:241-262 | what is saved for a chapter loads back when the write succeeds, a failed write leaves the chapter loading what it loaded before, and other chapters are unaffected in both cases |
| Highlights.SplitFirst | bible-study-fe-2/src/components/BibleChapter.tsx:336-343 | before, target and after spell the text, and `before` holds no earlier occurrence; no split exactly when the target does not occur |
| Highlights.SplitFindsFirst | bible-study-fe-2/src/components/BibleChapter.tsx:337-342 | a target whose first occurrence is after `before` is split there |
| Highlights.NormalizeRange | bible-study-fe-2/src/components/BibleChapter.tsx:666-673 | the range runs from the smaller verse to the larger, whichever way it was dragged |
| Highlights.NormalizeSymmetric | bible-study-fe-2/src/components/BibleChapter.tsx:669-673 | swapping the ends of a selection gives the same range |
| Highlights.Clamp | bible-study-fe-2/src/components/BibleChapter.tsx:691 | the result lies between the bounds when they are ordered, equals `x` when `x` already does, and is the upper bound when they are not ordered |
| Highlights.TooltipInside | bible-study-fe-2/src/components/BibleChapter.tsx:681-691 | on a viewport at least 312 wide the tooltip centre stays 156 from both edges; on a narrower one it sits at the upper bound |
| Highlights.ClampIdempotent | bible-study-fe-2/src/components/BibleChapter.tsx:691 | clamping twice is clamping once |
| Highlights.Runs | bible-study-fe-2/src/components/BibleChapter.tsx:820 | each run is a non-empty sequence of word characters; RunsSplitAt, RunsOfWord and RunsOfGap pin down which |
| Highlights.RunsSplitAt | bible-study-fe-2/src/components/BibleChapter.tsx:820 | a character outside `[A-Za-z0-9_]` separates runs: the runs of `a + [c] + b` are those of `a` followed by those of `b` |
| Highlights.RunsOfWord | bible-study-fe-2/src/components/BibleChapter.tsx:820 | a non-empty text of word characters is exactly one run, the whole text |
| Highlights.RunsOfGap | bible-study-fe-2/src/components/BibleChapter.tsx:820 | a text with no word character has no runs |
| Highlights.RunsOfSpacedWords | bible-study-fe-2/src/components/BibleChapter.tsx:820 | words separated by single spaces are found again as the runs |
| Highlights.LetterWords | bible-study-fe-2/src/components/BibleChapter.tsx:820 | the matches are the runs made only of letters, in text order (a subsequence of the runs), each letter word as often as it occurs among the runs |
| Highlights.LetterWordsOfLetters | bible-study-fe-2/src/components/BibleChapter.tsx:820 | when every run is made of letters, every run is a match, in order |
| Highlights.VerseWords | bible-study-fe-2/src/components/BibleChapter.tsx:818-830 | only letter words of the string items are candidates |
| Highlights.VerseWordsAppend | bible-study-fe-2/src/components/BibleChapter.tsx:818-830 | the items are visited in order: the words of `a + b` are those of `a` followed by those of `b` |
| Highlights.VerseWordsOfItem | bible-study-fe-2/src/components/BibleChapter.tsx:819-821 | a string item contributes exactly its regex matches; any other item contributes none |
| Highlights.SpacedLetterWords | bible-study-fe-2/src/components/BibleChapter.tsx:820 | a string of letter words separated by single spaces yields those words, in order and with their repeats |
| Highlights.WithData | bible-study-fe-2/src/components/BibleChapter.tsx:801-809 | a word is kept exactly when a value is stored under its bare-cache key |
| Highlights.StrongsWordsForVerse | bible-study-fe-2/src/components/BibleChapter.tsx:810-833 | distinct lower-case words, each with a stored key, exactly the lower-cased verse words that have data, in the order of their first occurrence in the verse |
| Highlights.WithDataOrder | bible-study-fe-2/src/components/BibleChapter.tsx:801-809 | filtering the verse words by stored data keeps the order of first occurrences: two kept words come in the same order in the lower-cased verse words |
| Highlights.DedupedOrder | bible-study-fe-2/src/components/BibleChapter.tsx:810-833 | deduplicating the lower-cased words that have data lists them in the order of their first occurrence in the lower-cased verse words |
| ReadHeader.FindBook | bible-study-fe-2/src/components/ReadHeader.tsx:80 | the first book with the name, or none exactly when no book has it |
| ReadHeader.FilteredBooks | bible-study-fe-2/src/components/ReadHeader.tsx:96-98 | the books, in order, whose lower-cased name contains the lower-cased term, and no others |
| ReadHeader.EmptySearchKeepsAll | bible-study-fe-2/src/components/ReadHeader.tsx:96-98 | the empty search keeps every book |
| ReadHeader.SearchIgnoresCase | bible-study-fe-2/src/components/ReadHeader.tsx:96-98 | searching is blind to letter case |
| ReadHeader.ChapterGrid | bible-study-fe-2/src/components/ReadHeader.tsx:126-132 | the grid is exactly 1 to the selected book's chapter count, in order, and empty when the book is unknown |
| ReadHeader.OneTo | bible-study-fe-2/src/components/ReadHeader.tsx:128-131 | `1, 2, ..., n`, and empty for a negative `n` |
| ReadHeader.LoadBooks | bible-study-fe-2/src/components/ReadHeader.tsx:53-74 | the list is stored; a non-empty list selects its first book at chapter 1; an empty one changes nothing else |
| ReadHeader.SelectBook | bible-study-fe-2/src/components/ReadHeader.tsx:102-107 | the book is set, chapter 1, chapter step, search cleared; nothing else changes |
| ReadHeader.SelectChapter | bible-study-fe-2/src/components/ReadHeader.tsx:109-113 | the chapter is set, the modal closed and the step back to books; the search and the book are kept |
| ReadHeader.CloseModal | bible-study-fe-2/src/components/ReadHeader.tsx:115-119 | closed, book step, search cleared; the book list, version, selected book and chapter are kept |
| ReadHeader.BackToBooks | bible-study-fe-2/src/components/ReadHeader.tsx:121-124 | book step, search cleared, modal left as it was; the book list, version, selected book and chapter are kept |
| ReadHeader.CloseIsBackAndShut | bible-study-fe-2/src/components/ReadHeader.tsx:115-124 | closing differs from going back only in closing the modal |
| ReadHeader.Notify | bible-study-fe-2/src/components/ReadHeader.tsx:77-94 | the parent hears exactly when a callback and version exist and a non-empty selected name is in the list, and it hears that book's id, the chapter and the version |
| ReadHeader.PickReported | bible-study-fe-2/src/components/ReadHeader.tsx:77-113 | picking a listed book and then a chapter reports that book's id and chapter, with the modal closed |
| ReadHeader.FirstBookReported | bible-study-fe-2/src/components/ReadHeader.tsx:46-87 | once the list arrives the parent hears of its first book, chapter 1, in BSB |
| ReadHeader.PickedBookGrid | bible-study-fe-2/src/components/ReadHeader.tsx:100-132 | the grid of a picked book lists exactly its chapters |
| WeatherStream.OnEvent | bible-study-fe-2/src/pages/TestStream.tsx:55-85 | `[DONE]` clears the three flags only; `comment` sets only the message; `field_update` replaces the partial data and records the field; `complete` sets final and partial data and clears flags and message; invalid and unknown events change nothing |
| WeatherStream.Settle | bible-study-fe-2/src/pages/TestStream.tsx:97-101 | after the read loop the three flags are cleared and the data are kept |
| WeatherStream.FetchStream | bible-study-fe-2/src/pages/TestStream.tsx:35-102 | a rejected `fetch` leaves the page reset and still loading, because it is raised before the `try`; without a body only loading stops; a body ends not loading and not streaming, with no streaming field |
| WeatherStream.FinalDataFromLastComplete | bible-study-fe-2/src/pages/TestStream.tsx:74-76 | the final data is that of the last `complete` event, or the earlier value if there is none |
| WeatherStream.NoCompleteNoData | bible-study-fe-2/src/pages/TestStream.tsx:36-101 | a stream with no `complete` event leaves no final data |
| WeatherStream.CompletedStreamShowsData | bible-study-fe-2/src/pages/TestStream.tsx:74-101 | a body carrying any `complete` event ends showing final data |
| WeatherStream.FieldStatus | bible-study-fe-2/src/pages/TestStream.tsx:104-108 | complete exactly when the final data has the field, else streaming exactly when the partial data has it, else waiting |
| WeatherStream.ValueFollowsStatus | bible-study-fe-2/src/pages/TestStream.tsx:110-122 | the value shown is the final value when complete, the partial one when streaming, and `Loading...` when waiting |
| WeatherStream.UnitOnlyOnTemperature | bible-study-fe-2/src/pages/TestStream.tsx:112-118 | only a temperature is followed by `°C` |
| WeatherStream.CompleteWinsOverLaterUpdates | bible-study-fe-2/src/pages/TestStream.tsx:68-81 | after `complete`, a field it carried stays complete with that value whatever non-complete events follow |
| WeatherStream.UpdateReplacesPartial | bible-study-fe-2/src/pages/TestStream.tsx:70-73 | a `field_update` replaces rather than merges: a field it does not carry goes back to waiting |
| VerseText.ItemTexts | bible-study-fe/src/components/BibleChapter.jsx:12-16 | a string item contributes itself; an object its `text`, or `""` |
| VerseText.Collapse | bible-study-fe/src/components/BibleChapter.jsx:18 | the result has only plain spaces as whitespace, never two in a row |
| VerseText.CollapseKeepsText | bible-study-fe/src/components/BibleChapter.jsx:18 | collapsing keeps every non-whitespace character, in order |
| VerseText.CollapseFixesCollapsed | bible-study-fe/src/components/BibleChapter.jsx:18 | an already collapsed text is left unchanged |
| VerseText.Normalize | bible-study-fe/src/components/BibleChapter.jsx:18-19 | the result is the text's words joined by single spaces: trimmed, collapsed, and with the text's non-whitespace characters |
| VerseText.NormalizeIdempotent | bible-study-fe/src/components/BibleChapter.jsx:18-19 | normalising twice is normalising once |
| VerseText.WordsShape | bible-study-fe/src/components/BibleChapter.jsx:18 | every word is non-empty and holds no whitespace |
| VerseText.WordsNone | bible-study-fe/src/components/BibleChapter.jsx:18 | a text has no words exactly when it is all whitespace |
| VerseText.WordsSep | bible-study-fe/src/components/BibleChapter.jsx:17-18 | a space between two texts separates their words: the words of the whole are those of the first followed by those of the second |
| VerseText.WordsOfJoin | bible-study-fe/src/components/BibleChapter.jsx:17 | the words of the space-joined item texts are the items' words, item by item |
| VerseText.WordsRoundTrip | bible-study-fe/src/components/BibleChapter.jsx:17-19 | words joined by single spaces read back as those words |
| VerseText.CollapseWords | bible-study-fe/src/components/BibleChapter.jsx:18 | collapsing yields the words joined by single spaces, with one space added at an end exactly where the text had whitespace there; an all-whitespace text collapses to one space or nothing |
| VerseText.NormalForm | bible-study-fe/src/components/BibleChapter.jsx:18-19 | trimming the collapsed text yields exactly its words joined by single spaces |
| VerseText.JoinKeepsText | bible-study-fe/src/components/BibleChapter.jsx:17 | joining with spaces keeps the pieces' non-whitespace characters, in order |
| VerseText.VerseText | bible-study-fe/src/components/BibleChapter.jsx:10-19 | the items' words, in order, joined by single spaces, and reading its words back gives exactly those; no whitespace at either end, none doubled, only plain spaces, and exactly the items' non-whitespace characters in order |
| VerseText.VerseTextStable | bible-study-fe/src/components/BibleChapter.jsx:10-19 | the verse text is already normal |
| VerseText.Render | bible-study-fe/src/components/BibleChapter.jsx:36-51 | strings first, then a truthy `lineBreak`, then a non-zero `poem` indented 1.5 rem per level, else nothing |
| VerseText.ShownTextIsItemText | bible-study-fe/src/components/BibleChapter.jsx:38-49 | the text displayed for an item is what it contributes to the verse text |
| Chat.ToggleChat | bible-study-fe/src/pages/BibleStudyMain.jsx:27 | only the open flag flips |
| Chat.ToggleTwice | bible-study-fe/src/pages/BibleStudyMain.jsx:27 | toggling twice restores the state |
| Chat.SendMessage | bible-study-fe/src/pages/BibleStudyMain.jsx:29-56 | a whitespace-only input is a no-op; otherwise the untrimmed text is appended as the user's, numbered one past the length, the input is cleared and a reply is scheduled numbered two past |
| Chat.HandleKeyPress | bible-study-fe/src/pages/BibleStudyMain.jsx:58-63 | Enter without Shift sends; any other key, or Shift+Enter, does nothing |
| Chat.ReplyAsWritten | bible-study-fe/src/pages/BibleStudyMain.jsx:43-54 | the oldest pending reply is appended with the id fixed when its message was sent |
| Chat.DuplicateIdAsWritten | bible-study-fe/src/pages/BibleStudyMain.jsx:32-45 | two sends within a second give the second message and the first reply the same id, 4 |
| Chat.ReplyNumbered | bible-study-fe/src/pages/BibleStudyMain.jsx:43-54 | the intended reply is numbered one past the list it joins |
| Chat.NumberedRunKeepsIds | bible-study-fe/src/pages/BibleStudyMain.jsx:29-56 | with replies numbered on arrival the ids stay 1, 2, ... and distinct, whatever the user does |
| Chat.InitialRunDistinct | bible-study-fe/src/pages/BibleStudyMain.jsx:12-56 | from the opening conversation, ids stay distinct |
| Chat.SingleExchangeAgrees | bible-study-fe/src/pages/BibleStudyMain.jsx:29-54 | one send followed by its reply numbers the same either way |
| Text.Trim | bible-study-fe-2/src/modals/StrongsAnalysisModal.tsx:195 | the trim is empty exactly for whitespace-only text, and has no whitespace at either end |
| Text.TrimUnique | bible-study-be-2/services/bible_service.py:199 | a trimmed core padded with whitespace trims back to that core |
| Text.Split | bible-study-fe-2/src/modals/StrongsAnalysisModal.tsx:278 | the pieces have no separator and join back to the text |
| Text.SplitJoin | bible-study-fe-2/src/modals/StrongsAnalysisModal.tsx:288 | splitting a join of separator-free pieces gives the pieces back |
| Text.IndexOf | bible-study-fe-2/src/components/BibleChapter.tsx:337 | the first occurrence, or none exactly when the pattern never occurs |
| Text.Dedupe | bible-study-fe-2/src/components/BibleChapter.tsx:832 | the same strings without repeats, in the order of their first occurrence |

## Left out

- HTTP fetch, `response.body.getReader`, `TextDecoder` and UTF-8 boundaries: chunks are already-decoded strings, and each fetch outcome (rejected, no body, a body) is an input.
- AbortController and React effect scheduling: an abort is an input ending (`FetchAborted`, `ReadAborted`), and state updates apply in order, one request at a time.
- JSON parsing and serialisation. The client's reading of a line is an abstract classification. The back end's `json.dumps` is an abstract encoder that never emits a raw line feed.
- The `eventsource-parser` library of the weather page: the events it emits are the input.
- Regex-heavy extractors are not modelled: `parseContextualMeaning`, the field matches inside `parseOtherUses`, `HighlightedVerse`, and the regex replacement of `highlightWord` (bible-study-fe-2/src/modals/StrongsInfoModal_.tsx:124-132) and `renderHighlightedVerse`. Each is a parameter or stops at the list of forms to mark.
- All DOM work is not modelled: tree walking, ranges, geometry, sticky notes, mouse handlers, JSX and styling.
- The language-model calls, prompts, token-usage logging and cost computation are not modelled; the model's output is an input.
- FastAPI wiring is not modelled. Pydantic validation is modelled only as a check for missing required fields.
- Message timestamps (`toLocaleTimeString`) and `window.innerWidth` are parameters or not modelled.
- StrongsParsers.ParseOtherUses: reading the fields of one entry is a parameter `extract`. Only the split, the filters and the bound of 8 are modelled.
- Sections.Capture: the case-insensitive, DOTALL, lazy regex is modelled as a marker search. The search ignores ASCII case, starts at the first opening marker and ends at the earliest terminator or the end of the text. The result is then stripped. This is weaker than the regex only where a marker is itself written with non-ASCII case variants.
- Text.Lower: lower-casing covers ASCII letters only; other characters are left alone.
- TtlCache.Save: the two `Date.now()` readings of one save are one clock reading `now`. A throwing `setItem` is covered by `TtlCache.TrySave`.
- StrongsClient.OnLine: the clock reading of the save is one per request (`Context.savedAt`), taken when `complete` is handled. This suffices because the back end closes each stream with at most one `complete` frame (bible-study-be-2/services/bible_service.py:383).
- WeatherStream.FetchStream: the unhandled rejection of a rejected `fetch` (bible-study-fe-2/src/pages/TestStream.tsx:43) is not modelled beyond the page it leaves behind.
- DeltaEmitter.Finish: the text after `Validation error: ` stands in for Pydantic's multi-line `str(e)` (bible-study-be-2/services/bible_service.py:386). It is the missing field names joined by commas. Which fields are missing is modelled; the wording of Pydantic's message is not.
- DeltaEmitter.StrongsNeverCompletesAsWritten: the message `Validation error: LiteralMeaning` is the same stand-in for Pydantic's message.
- EndToEnd.ValidationErrorSurfaces: the message shown, `Validation error: LiteralMeaning`, is the same stand-in for Pydantic's message.
- Highlights.TooltipInside: positions are exact reals, not floating point.
- WeatherStream.OnEvent: field values are strings or integers; fractional temperatures are not modelled.
- VerseText.Render: poem levels are integers.

## Findings

| source | as written | input that shows it | evidently intended | confidence | as-written member | corrected member |
|---|---|---|---|---|---|---|
| bible-study-be-2/models/schemas.py:38 | `StrongsAnalysis` requires `LiteralMeaning`, but the generator's final dict (bible_service.py:357-366) supplies `RootMeanings` in its place | any Strong's upstream that finishes, even one with no chunks: validation raises and the stream closes with `Validation error: ...LiteralMeaning...` | the fifth field is `RootMeanings`, as in the generator, its patterns and the client's `StrongsInfo` | not executed; high | DeltaEmitter.StrongsNeverCompletesAsWritten | DeltaEmitter.StrongsCompletes |
| bible-study-fe-2/src/modals/StrongsAnalysisModal.tsx:225 | the `throw` for an `error` envelope is caught by the per-line `catch` at line 227 and only logged | a stream whose frames are `section_update`s followed by `{"type":"error","message":"m"}`: the modal stays streaming with no error shown | the error reaches the outer `catch`, stops streaming and shows `m` | not executed; high | EndToEnd.AsWrittenStrongsNeverCompletes | EndToEnd.ValidationErrorSurfaces |
| bible-study-fe/src/pages/BibleStudyMain.jsx:45 | the reply id `messages.length + 2` is fixed when the message is sent | type `a`, send, type `b`, send within one second: the second user message and the first reply both get id 4 | every message id is distinct | not executed; medium | Chat.DuplicateIdAsWritten | Chat.NumberedRunKeepsIds |

=== FILE: bare_cache.dfy ===
/** The three unexpiring caches of the side modals: `fetchStrongsData`
    (bible-study-fe-2/src/modals/StrongsInfoModal.tsx:71-116),
    `fetchStrongsInfo` (bible-study-fe-2/src/modals/StrongsInfoModal_.tsx:
    70-120) and `fetchContext`
    (bible-study-fe-2/src/modals/ContextInfoModal.tsx:32-75). Each reads
    localStorage first and otherwise fetches, writing the document as-is on
    success. The network's answer is an input (`Response`). */
module BareCache {
  import opened Wrappers
  import opened Text
  import opened Storage
  import opened TtlCache

  /** How the request ends: a document read from `json.result`, a response
      that is not ok, or an exception (network failure or unparseable
      body) with its message, `""` for none. */
  datatype Response<T> = Fetched(doc: T) | NotOk | Threw(message: string)

  /** The modal's `data`, `loading` and `error` states. `data` is whatever
      `JSON.parse` returned, so a time-limited record stored under the same
      key is shown as the record itself. */
  datatype View<T> = View(data: Option<Stored<T>>, loading: bool, error: Option<string>)

  /** The view and localStorage after one run of the effect, and whether a
      request went out. */
  datatype Run<T> = Run(view: View<T>, storage: LocalStorage<T>, fetched: bool)

  const GenericError: string := "Something went wrong."

  /** `JSON.parse` succeeds on the stored text, and `if (cachedData)` saw a
      non-empty string. */
  predicate Usable<T>(s: LocalStorage<T>, key: string) {
    key in s && (s[key].Wrapped? || s[key].Bare?)
  }

  /** The request and its `try`/`catch`/`finally`, after the cache missed. */
  function Request<T>(v: View<T>, s: LocalStorage<T>, key: string, notOk: string, resp: Response<T>): (r: Run<T>)
    requires notOk != ""
    ensures r.fetched && !r.view.loading
    ensures resp.Fetched? <==> r.view.error.None?
    ensures resp.Fetched? ==> r.view.data == Some(Bare(resp.doc)) && r.storage == s[key := Bare(resp.doc)]
    ensures resp.NotOk? ==> r.view.error == Some(notOk)
    ensures resp.Threw? && resp.message != "" ==> r.view.error == Some(resp.message)
    ensures !resp.Fetched? ==> r.storage == s && r.view.data == v.data
  {
    match resp
    case Fetched(d) => Run(View(Some(Bare(d)), false, None), s[key := Bare(d)], true)
    case NotOk => Run(View(v.data, false, Some(notOk)), s, true)
    case Threw(m) => Run(View(v.data, false, Some(if m == "" then GenericError else m)), s, true)
  }

  /** Cache first, then the network. A parseable value is shown and nothing
      is fetched; an unparseable one is removed first; an empty one is
      treated as absent. */
  function CacheThenFetch<T>(v: View<T>, s: LocalStorage<T>, key: string, notOk: string, resp: Response<T>): (r: Run<T>)
    requires notOk != ""
    ensures Usable(s, key) ==> r == Run(v.(data := Some(s[key])), s, false)
    ensures !Usable(s, key) ==> r.fetched && !r.view.loading
    ensures key in s && s[key].Corrupt? ==> r == Request(v, RemoveItem(s, key), key, notOk, resp)
    ensures (key !in s || s[key].Blank?) ==> r == Request(v, s, key, notOk, resp)
  {
    match GetItem(s, key)
    case Some(Wrapped(e)) => Run(v.(data := Some(Wrapped(e))), s, false)
    case Some(Bare(d)) => Run(v.(data := Some(Bare(d))), s, false)
    case Some(Corrupt) => Request(v, RemoveItem(s, key), key, notOk, resp)
    case Some(Blank) => Request(v, s, key, notOk, resp)
    case None => Request(v, s, key, notOk, resp)
  }

  /** Only the run's own key is ever written or removed. */
  lemma OtherKeysUntouched<T>(v: View<T>, s: LocalStorage<T>, key: string, notOk: string, resp: Response<T>, k: string)
    requires notOk != "" && k != key
    ensures k in CacheThenFetch(v, s, key, notOk, resp).storage <==> k in s
    ensures k in s ==> CacheThenFetch(v, s, key, notOk, resp).storage[k] == s[k]
  {
  }

  /** After a successful fetch the next run under the same key is served
      from the cache, whatever the network would answer, and shows the same
      document. */
  lemma FetchedThenCached<T>(v: View<T>, s: LocalStorage<T>, key: string, notOk: string, d: T,
                             v2: View<T>, resp2: Response<T>)
    requires notOk != "" && !Usable(s, key)
    ensures var r := CacheThenFetch(v, s, key, notOk, Fetched(d));
            var r2 := CacheThenFetch(v2, r.storage, key, notOk, resp2);
            !r2.fetched && r2.storage == r.storage && r2.view.data == r.view.data
  {
  }

  /** A failed fetch writes nothing: the key is left as it was, except
      that an unparseable value is gone. */
  lemma FailureWritesNothing<T>(v: View<T>, s: LocalStorage<T>, key: string, notOk: string, resp: Response<T>)
    requires notOk != "" && !resp.Fetched?
    ensures CacheThenFetch(v, s, key, notOk, resp).storage
            == if key in s && s[key].Corrupt? then RemoveItem(s, key) else s
  {
  }

  // ---------------------------------------------------------------------
  // The three modals.

  datatype InfoProps = InfoProps(isOpen: bool, book: string, chapter: int, verse: int, word: string)

  const StrongsDataError: string := "Failed to fetch Strong's data."
  const StrongsInfoError: string := "Failed to fetch Strong's information."
  const ExplanationError: string := "Failed to fetch explanation."

  /** `strongs-<book>-<chapter>-<verse>-<lower-cased word>`, the word not
      trimmed. */
  function InfoKey(p: InfoProps): (k: string)
    ensures KeyPrefix(p.book, p.chapter, p.verse) <= k
    ensures k[|KeyPrefix(p.book, p.chapter, p.verse)|..] == Lower(p.word)
  {
    KeyPrefix(p.book, p.chapter, p.verse) + Lower(p.word)
  }

  /** One run of `StrongsInfoModal`'s effect. It runs only while open with a
      non-empty word, and a word of only whitespace returns at once. */
  function StrongsData<T>(p: InfoProps, v: View<T>, s: LocalStorage<T>, resp: Response<T>): (r: Run<T>)
    ensures !p.isOpen || AllSpace(Js, p.word) ==> r == Run(v, s, false)
    ensures p.isOpen && !AllSpace(Js, p.word) ==> r == CacheThenFetch(v, s, InfoKey(p), StrongsDataError, resp)
  {
    if !(p.isOpen && p.word != "") then Run(v, s, false)
    else if Trim(Js, p.word) == "" then Run(v, s, false)
    else CacheThenFetch(v, s, InfoKey(p), StrongsDataError, resp)
  }

  /** The values the effect depends on; `verse` is not among them. */
  datatype InfoDeps = InfoDeps(isOpen: bool, book: string, chapter: int, word: string)

  function Deps(p: InfoProps): InfoDeps {
    InfoDeps(p.isOpen, p.book, p.chapter, p.word)
  }

  /** Changing only the verse does not re-run the effect, although the
      key the effect would read then differs: the modal keeps showing the
      document fetched for the previous verse. */
  lemma VerseChangeKeepsStaleData(p: InfoProps, verse: int)
    requires verse != p.verse
    ensures Deps(p.(verse := verse)) == Deps(p)
    ensures InfoKey(p.(verse := verse)) != InfoKey(p)
  {
    var q := p.(verse := verse);
    IntToStringInjective(p.verse, verse);
    KeyPrefixIdentifiesVerse(p.book, p.chapter, p.verse, verse, Lower(p.word));
  }

  lemma KeyPrefixIdentifiesVerse(book: string, chapter: int, v1: int, v2: int, w: string)
    requires IntToString(v1) != IntToString(v2)
    ensures KeyPrefix(book, chapter, v1) + w != KeyPrefix(book, chapter, v2) + w
  {
    var head := "strongs-" + book + "-" + IntToString(chapter) + "-";
    var a, b := IntToString(v1), IntToString(v2);
    assert KeyPrefix(book, chapter, v1) + w == head + (a + "-" + w);
    assert KeyPrefix(book, chapter, v2) + w == head + (b + "-" + w);
    if head + (a + "-" + w) == head + (b + "-" + w) {
      assert (head + (a + "-" + w))[|head|..] == a + "-" + w;
      assert (head + (b + "-" + w))[|head|..] == b + "-" + w;
      DigitsBeforeDash(a, b, w);
    }
  }

  /** A rendered integer followed by `-` is read back unambiguously. */
  lemma DigitsBeforeDash(a: string, b: string, w: string)
    requires a != [] && b != []
    requires forall i :: 1 <= i < |a| ==> a[i] != '-'
    requires forall i :: 1 <= i < |b| ==> b[i] != '-'
    requires a + "-" + w == b + "-" + w
    ensures a == b
  {
    var s := a + "-" + w;
    assert a == s[..|a|] == b;
  }

  lemma IntToStringInjective(m: int, n: int)
    requires m != n
    ensures IntToString(m) != IntToString(n)
    ensures forall i :: 1 <= i < |IntToString(m)| ==> IntToString(m)[i] != '-'
    ensures forall i :: 1 <= i < |IntToString(n)| ==> IntToString(n)[i] != '-'
  {
    DigitsOnlyAfterSign(m);
    DigitsOnlyAfterSign(n);
    if m < 0 && n < 0 {
      NegativeInjective(m, n);
    } else if m >= 0 && n >= 0 {
      NatToStringInjective(m, n);
    }
  }

  lemma NegativeInjective(m: int, n: int)
    requires m < 0 && n < 0 && m != n
    ensures IntToString(m) != IntToString(n)
  {
    var x, y: nat := -m, -n;
    assert IntToString(m) == "-" + NatToString(x);
    assert IntToString(n) == "-" + NatToString(y);
    NatToStringInjective(x, y);
    SignDropped(NatToString(x));
    SignDropped(NatToString(y));
  }

  lemma SignDropped(t: string)
    ensures ("-" + t)[1..] == t
  {
  }

  lemma DigitDropped(t: string, d: char)
    ensures (t + [d])[..|t|] == t
  {
  }

  lemma DigitsOnlyAfterSign(n: int)
    ensures forall i :: 1 <= i < |IntToString(n)| ==> IntToString(n)[i] != '-'
  {
    if n < 0 {
      assert forall i :: 1 <= i < |IntToString(n)| ==> IntToString(n)[i] == NatToString(-n)[i - 1];
    }
  }

  lemma {:induction false} NatToStringInjective(m: nat, n: nat)
    requires m != n
    ensures NatToString(m) != NatToString(n)
    decreases m + n
  {
    var a, b := NatToString(m), NatToString(n);
    if m < 10 && n < 10 {
      assert a == [DigitChar(m)] && b == [DigitChar(n)];
    } else if m < 10 {
      assert |NatToString(n / 10)| >= 1;
      assert |a| == 1 && |b| >= 2;
    } else if n < 10 {
      assert |NatToString(m / 10)| >= 1;
      assert |b| == 1 && |a| >= 2;
    } else if m % 10 != n % 10 {
      assert a[|a| - 1] == DigitChar(m % 10) && b[|b| - 1] == DigitChar(n % 10);
    } else {
      assert m / 10 != n / 10;
      NatToStringInjective(m / 10, n / 10);
      DigitDropped(NatToString(m / 10), DigitChar(m % 10));
      DigitDropped(NatToString(n / 10), DigitChar(n % 10));
    }
  }

  /** For a word whose lower-cased form has no surrounding whitespace the
      key is the one the time-limited cache uses, so its documents, stored
      bare, are exactly what the time-limited reader deletes. */
  lemma BareWritesDeletedByTtlReader<T>(p: InfoProps, v: View<T>, s: LocalStorage<T>, d: T,
                                        mem: Option<map<string, Entry<T>>>, now: int)
    requires p.isOpen && !AllSpace(Js, p.word) && Trimmed(Js, Lower(p.word)) && !Usable(s, InfoKey(p))
    requires mem.None? || InfoKey(p) !in mem.value
    ensures InfoKey(p) == CacheKey(p.book, p.chapter, p.verse, p.word)
    ensures var written := StrongsData(p, v, s, Fetched(d)).storage;
            var read := Lookup(Cache(mem, written), InfoKey(p), now);
            read.found.None? && InfoKey(p) !in read.cache.storage
  {
    TrimKeepsTrimmed(Js, Lower(p.word));
  }

  /** A record written by the time-limited cache, read by the bare cache,
      is shown as the record itself rather than its document. */
  lemma TtlRecordShownWhole<T>(p: InfoProps, v: View<T>, c: Cache<T>, d: T, now: int, resp: Response<T>)
    requires p.isOpen && !AllSpace(Js, p.word) && Trimmed(Js, Lower(p.word))
    ensures var saved := Save(c, CacheKey(p.book, p.chapter, p.verse, p.word), d, now, DefaultExpiryDays);
            StrongsData(p, v, saved.storage, resp).view.data == Some(Wrapped(MakeEntry(d, now, DefaultExpiryDays)))
  {
    TrimKeepsTrimmed(Js, Lower(p.word));
  }

  /** `strongs-<book>-<chapter>-<lower-cased word>`, with no verse. */
  function InfoKeyNoVerse(p: InfoProps): (k: string)
    ensures ("strongs-" + p.book + "-" + IntToString(p.chapter) + "-") <= k
    ensures k[|"strongs-" + p.book + "-" + IntToString(p.chapter) + "-"|..] == Lower(p.word)
  {
    "strongs-" + p.book + "-" + IntToString(p.chapter) + "-" + Lower(p.word)
  }

  /** One run of the older `StrongsInfoModal_`'s effect: open and a non-empty
      word are the only guard. */
  function StrongsInfo<T>(p: InfoProps, v: View<T>, s: LocalStorage<T>, resp: Response<T>): (r: Run<T>)
    ensures !p.isOpen || p.word == "" ==> r == Run(v, s, false)
    ensures p.isOpen && p.word != "" ==> r == CacheThenFetch(v, s, InfoKeyNoVerse(p), StrongsInfoError, resp)
  {
    if p.isOpen && p.word != "" then CacheThenFetch(v, s, InfoKeyNoVerse(p), StrongsInfoError, resp)
    else Run(v, s, false)
  }

  /** Without a verse in the key, every verse of a chapter shares one
      cached document per word. */
  lemma VersesShareOneDocument(p: InfoProps, verse: int)
    ensures InfoKeyNoVerse(p.(verse := verse)) == InfoKeyNoVerse(p)
  {
  }

  datatype ContextProps = ContextProps(isOpen: bool, book: string, chapter: int)

  /** `chapter-context-<book>-<chapter>`. */
  function ContextKey(p: ContextProps): string {
    "chapter-context-" + p.book + "-" + IntToString(p.chapter)
  }

  /** One run of `ContextInfoModal`'s effect, which runs only while open. */
  function Context<T>(p: ContextProps, v: View<T>, s: LocalStorage<T>, resp: Response<T>): (r: Run<T>)
    ensures !p.isOpen ==> r == Run(v, s, false)
    ensures p.isOpen ==> r == CacheThenFetch(v, s, ContextKey(p), ExplanationError, resp)
  {
    if p.isOpen then CacheThenFetch(v, s, ContextKey(p), ExplanationError, resp) else Run(v, s, false)
  }

  /** Chapter explanations and Strong's documents never share a key. */
  lemma ContextKeysApart(c: ContextProps, p: InfoProps)
    ensures ContextKey(c) != InfoKey(p) && ContextKey(c) != InfoKeyNoVerse(p)
  {
    assert ContextKey(c)[0] == 'c';
    assert InfoKey(p)[0] == 's' && InfoKeyNoVerse(p)[0] == 's';
  }

  // ---------------------------------------------------------------------
  // `renderHighlightedVerse`: the forms of the translated word to mark.

  function EndsWith(s: string, c: char): bool {
    |s| > 0 && s[|s| - 1] == c
  }

  /** The seven candidate forms, before filtering. */
  function Candidates(t: string): (c: seq<string>)
    ensures |c| == 7 && c[0] == t && c[1] == Lower(t)
  {
    var b := Lower(t);
    [t, b, b + "s", b + "ed", b + "ing",
     if EndsWith(b, 'e') then b[..|b| - 1] + "ing" else "",
     if EndsWith(b, 'y') then b[..|b| - 1] + "ies" else ""]
  }

  /** The forms longer than two characters, kept in the order they came. */
  function LongerThanTwo(xs: seq<string>): (r: seq<string>)
    ensures forall x :: x in r <==> x in xs && |x| > 2
    ensures Subsequence(r, xs)
    decreases |xs|
  {
    if xs == [] then []
    else
      var rest := LongerThanTwo(xs[1..]);
      assert xs == [xs[0]] + xs[1..];
      SubsequenceCons(xs[0], rest, xs[1..]);
      SubsequenceSkip(xs[0], rest, xs[1..]);
      if |xs[0]| > 2 then [xs[0]] + rest else rest
  }

  /** Two forms kept by the length filter first occur in the filtered list
      in the order they first occur in the whole list. */
  lemma {:induction false} LongerThanTwoOrder(xs: seq<string>, x: string, y: string)
    requires x in LongerThanTwo(xs) && y in LongerThanTwo(xs)
    requires FirstIndex(LongerThanTwo(xs), x) < FirstIndex(LongerThanTwo(xs), y)
    ensures FirstIndex(xs, x) < FirstIndex(xs, y)
    decreases |xs|
  {
    var h, tl := xs[0], xs[1..];
    assert xs == [h] + tl;
    FirstIndexCons(h, tl, x);
    FirstIndexCons(h, tl, y);
    if |h| > 2 {
      assert LongerThanTwo(xs) == [h] + LongerThanTwo(tl);
      FirstIndexCons(h, LongerThanTwo(tl), x);
      FirstIndexCons(h, LongerThanTwo(tl), y);
      if x != h {
        LongerThanTwoOrder(tl, x, y);
      }
    } else {
      assert LongerThanTwo(xs) == LongerThanTwo(tl);
      LongerThanTwoOrder(tl, x, y);
    }
  }

  /** An order by first occurrence in the filtered list is one in the
      whole list. */
  lemma FilteredOrder(r: seq<string>, xs: seq<string>)
    requires InFirstOccurrenceOrder(r, LongerThanTwo(xs))
    ensures InFirstOccurrenceOrder(r, xs)
  {
    forall i, j | 0 <= i < j < |r|
      ensures FirstIndex(xs, r[i]) < FirstIndex(xs, r[j])
    {
      LongerThanTwoOrder(xs, r[i], r[j]);
    }
  }

  /** The distinct candidate forms longer than two characters, each where
      it first occurs among the candidates: `[...new Set(variations)]`
      keeps insertion order, and that order is the regex alternation's. */
  function Variations(t: string): (r: seq<string>)
    ensures forall i, j :: 0 <= i < j < |r| ==> r[i] != r[j]
    ensures forall x :: x in r <==> x in Candidates(t) && |x| > 2
    ensures InFirstOccurrenceOrder(r, LongerThanTwo(Candidates(t)))
    ensures InFirstOccurrenceOrder(r, Candidates(t))
  {
    var r := Dedupe(LongerThanTwo(Candidates(t)));
    FilteredOrder(r, Candidates(t));
    r
  }

  /** The escaped forms to mark, or `None` when the verse is shown as it is
      (no translated word, or no form long enough). */
  function HighlightForms(t: string): (r: Option<seq<string>>)
    ensures r.None? <==> t == "" || |Variations(t)| == 0
    ensures r.Some? ==> |r.value| == |Variations(t)| > 0
                        && forall i :: 0 <= i < |r.value| ==> Unescape(r.value[i]) == Some(Variations(t)[i])
  {
    if t == "" then None
    else
      var v := Variations(t);
      if |v| == 0 then None
      else
        var e := seq(|v|, i requires 0 <= i < |v| => Escape(v[i]));
        forall i | 0 <= i < |v| ensures Unescape(e[i]) == Some(v[i]) {
          EscapeRoundTrip(v[i]);
        }
        Some(e)
  }

  /** A form of three letters or more is always marked. */
  lemma LongWordHighlighted(t: string)
    requires |t| > 2
    ensures HighlightForms(t).Some? && t in Variations(t)
  {
  }

  /** The characters `/[.*+?^${}()|[\]\\]/` matches. */
  predicate Special(c: char) {
    c in {'.', '*', '+', '?', '^', '$', '{', '}', '(', ')', '|', '[', ']', '\\'}
  }

  /** `text.replace(/[.*+?^${}()|[\]\\]/g, "\\$&")`. */
  function Escape(s: string): (r: string)
    ensures |r| >= |s|
    ensures (forall i :: 0 <= i < |s| ==> !Special(s[i])) ==> r == s
    decreases |s|
  {
    if s == [] then []
    else (if Special(s[0]) then ['\\', s[0]] else [s[0]]) + Escape(s[1..])
  }

  /** Reads an escaped text back: a backslash must precede each special
      character, and nothing else. */
  function Unescape(r: string): Option<string>
    decreases |r|
  {
    if r == [] then Some([])
    else if r[0] == '\\' then
      if |r| >= 2 && Special(r[1]) then
        match Unescape(r[2..])
        case Some(t) => Some([r[1]] + t)
        case None => None
      else None
    else if Special(r[0]) then None
    else
      match Unescape(r[1..])
      case Some(t) => Some([r[0]] + t)
      case None => None
  }

  /** Escaping loses nothing. */
  lemma {:induction false} EscapeRoundTrip(s: string)
    ensures Unescape(Escape(s)) == Some(s)
    decreases |s|
  {
    if s != [] {
      EscapeRoundTrip(s[1..]);
      var rest := Escape(s[1..]);
      if Special(s[0]) {
        var e := ['\\', s[0]] + rest;
        assert Escape(s) == e;
        assert e[0] == '\\' && e[1] == s[0] && |e| >= 2;
        assert e[2..] == rest;
        assert [s[0]] + s[1..] == s;
      } else {
        var e := [s[0]] + rest;
        assert Escape(s) == e;
        assert e[0] == s[0] && s[0] != '\\';
        assert e[1..] == rest;
        assert [s[0]] + s[1..] == s;
      }
    }
  }
}

=== FILE: chat.dfy ===
/** The study chat of the first front end
    (bible-study-fe/src/pages/BibleStudyMain.jsx): sending a message, the
    canned reply that follows a second later, the Enter-key shortcut and
    the panel toggle. Timestamps come from the clock and are not modelled;
    the reply timers are a queue of pending replies, which fire in the order
    they were set because they share one delay. */
module Chat {
  import opened Text

  datatype Sender = User | Ai

  datatype Message = Message(id: int, text: string, sender: Sender)

  /** The page state. `pending` holds, per scheduled reply, the id its
      timer will use. */
  datatype Chat = Chat(messages: seq<Message>, input: string, isChatOpen: bool, pending: seq<int>)

  const Welcome: string := "Welcome! How can I help you with your Bible study today?"
  const Opening: string := "I'd like to understand more about this passage."
  const Reply: string := "That's a great question! Let me help you explore that passage."

  const Initial: Chat :=
    Chat([Message(1, Welcome, Ai), Message(2, Opening, User)], "", false, [])

  /** `toggleChat`. */
  function ToggleChat(c: Chat): (r: Chat)
    ensures r.isChatOpen == !c.isChatOpen
    ensures r.messages == c.messages && r.input == c.input && r.pending == c.pending
  {
    c.(isChatOpen := !c.isChatOpen)
  }

  /** `sendMessage`: a message that trims to nothing is ignored; otherwise
      the untrimmed text is appended as the user's, numbered one past the
      current length, the input is cleared and a reply is scheduled with
      the id one further on, fixed now. */
  function SendMessage(c: Chat): (r: Chat)
    ensures AllSpace(Js, c.input) ==> r == c
    ensures !AllSpace(Js, c.input) ==>
              r.messages == c.messages + [Message(|c.messages| + 1, c.input, User)]
              && r.input == "" && r.pending == c.pending + [|c.messages| + 2]
    ensures r.isChatOpen == c.isChatOpen
  {
    if Trim(Js, c.input) == "" then c
    else c.(messages := c.messages + [Message(|c.messages| + 1, c.input, User)],
            input := "",
            pending := c.pending + [|c.messages| + 2])
  }

  /** `handleKeyPress`: Enter without Shift sends, anything else is ignored. */
  function HandleKeyPress(c: Chat, key: string, shiftKey: bool): (r: Chat)
    ensures key == "Enter" && !shiftKey ==> r == SendMessage(c)
    ensures key != "Enter" || shiftKey ==> r == c
  {
    if key == "Enter" && !shiftKey then SendMessage(c) else c
  }

  /** The oldest reply timer fires, as written: the reply carries the id
      fixed when its message was sent. */
  function ReplyAsWritten(c: Chat): (r: Chat)
    ensures c.pending == [] ==> r == c
    ensures c.pending != [] ==>
              r.messages == c.messages + [Message(c.pending[0], Reply, Ai)] && r.pending == c.pending[1..]
  {
    if c.pending == [] then c
    else c.(messages := c.messages + [Message(c.pending[0], Reply, Ai)], pending := c.pending[1..])
  }

  /** The reply numbered from the list it is appended to. */
  function ReplyNumbered(c: Chat): (r: Chat)
    ensures c.pending == [] ==> r == c
    ensures c.pending != [] ==>
              r.messages == c.messages + [Message(|c.messages| + 1, Reply, Ai)] && r.pending == c.pending[1..]
  {
    if c.pending == [] then c
    else c.(messages := c.messages + [Message(|c.messages| + 1, Reply, Ai)], pending := c.pending[1..])
  }

  /** No two messages share an id. */
  predicate DistinctIds(ms: seq<Message>) {
    forall i, j :: 0 <= i < j < |ms| ==> ms[i].id != ms[j].id
  }

  /** The ids are 1, 2, ... in list order. */
  predicate Numbered(ms: seq<Message>) {
    forall i :: 0 <= i < |ms| ==> ms[i].id == i + 1
  }

  /** What the user can do, and the reply timer. */
  datatype Action = Type(text: string) | KeyPress(key: string, shiftKey: bool) | Send | Toggle | TimerFires

  function Apply(c: Chat, a: Action, numbered: bool): Chat {
    match a
    case Type(t) => c.(input := t)
    case KeyPress(k, shift) => HandleKeyPress(c, k, shift)
    case Send => SendMessage(c)
    case Toggle => ToggleChat(c)
    case TimerFires => if numbered then ReplyNumbered(c) else ReplyAsWritten(c)
  }

  function Run(c: Chat, actions: seq<Action>, numbered: bool): Chat
    decreases |actions|
  {
    if actions == [] then c else Run(Apply(c, actions[0], numbered), actions[1..], numbered)
  }

  /** Sending twice before the first reply arrives gives the second user
      message and the first reply the same id, 4. */
  lemma DuplicateIdAsWritten()
    ensures var r := Run(Initial, [Type("a"), Send, Type("b"), Send, TimerFires], false);
            |r.messages| == 5 && r.messages[3].id == 4 && r.messages[4].id == 4
            && !DistinctIds(r.messages)
  {
    var r := Run(Initial, [Type("a"), Send, Type("b"), Send, TimerFires], false);
    assert Trim(Js, "a") != "" by {
      assert !AllSpace(Js, "a") by { assert !IsSpace(Js, "a"[0]); }
    }
    assert Trim(Js, "b") != "" by {
      assert !AllSpace(Js, "b") by { assert !IsSpace(Js, "b"[0]); }
    }
    assert r.messages[3].id == 4 && r.messages[4].id == 4;
  }

  lemma NumberedDistinct(ms: seq<Message>)
    requires Numbered(ms)
    ensures DistinctIds(ms)
  {
  }

  /** With replies numbered on arrival every step keeps the ids 1, 2, ...,
      whatever the user does and however the replies interleave. */
  lemma {:induction false} NumberedRunKeepsIds(c: Chat, actions: seq<Action>)
    requires Numbered(c.messages)
    ensures Numbered(Run(c, actions, true).messages)
    ensures DistinctIds(Run(c, actions, true).messages)
    decreases |actions|
  {
    if actions == [] {
      NumberedDistinct(c.messages);
    } else {
      var next := Apply(c, actions[0], true);
      ApplyKeepsNumbered(c, actions[0]);
      NumberedRunKeepsIds(next, actions[1..]);
    }
  }

  lemma ApplyKeepsNumbered(c: Chat, a: Action)
    requires Numbered(c.messages)
    ensures Numbered(Apply(c, a, true).messages)
  {
    match a
    case Send => SendKeepsNumbered(c);
    case KeyPress(k, shift) => SendKeepsNumbered(c);
    case TimerFires =>
    case Type(_) =>
    case Toggle =>
  }

  lemma SendKeepsNumbered(c: Chat)
    requires Numbered(c.messages)
    ensures Numbered(SendMessage(c).messages)
  {
  }

  /** In particular from the opening conversation. */
  lemma InitialRunDistinct(actions: seq<Action>)
    ensures DistinctIds(Run(Initial, actions, true).messages)
  {
    NumberedRunKeepsIds(Initial, actions);
  }

  /** One send followed by its reply numbers the same either way. */
  lemma SingleExchangeAgrees(c: Chat)
    requires Numbered(c.messages) && c.pending == [] && !AllSpace(Js, c.input)
    ensures ReplyAsWritten(SendMessage(c)) == ReplyNumbered(SendMessage(c))
  {
  }

  lemma ToggleTwice(c: Chat)
    ensures ToggleChat(ToggleChat(c)) == c
  {
  }
}

=== FILE: delta_emitter.dfy ===
/** The back end's streaming generators (`get_chapter_intro_stream` and
    `get_strongs_analysis_stream`, bible-study-be-2/services/bible_service.py:
    103-178 and 315-389). After every upstream chunk the accumulated text is
    re-parsed; paragraph sections are sent as the new suffix of their text,
    header sections whole when they change. The stream ends with one
    `complete` frame carrying the validated document, or one `error` frame.
    The language model's output is an input (`Upstream`). */
module DeltaEmitter {
  import opened Wrappers
  import opened Text
  import opened Sections

  datatype Kind = ChapterIntro | StrongsAnalysis

  function Patterns(k: Kind): seq<Pattern> {
    match k
    case ChapterIntro => ChapterPatterns
    case StrongsAnalysis => StrongsPatterns
  }

  /** `MainHeading` and `TimelineInfo` of a chapter introduction are sent
      whole; every other section is sent as deltas. */
  predicate IsHeader(k: Kind, name: string) {
    k == ChapterIntro && (name == "MainHeading" || name == "TimelineInfo")
  }

  datatype Para = Para(title: string, content: string)

  /** The `data` of a `complete` frame: `ChapterIntro.model_dump()` or
      `StrongsAnalysis.model_dump()`. */
  datatype Payload =
    | Intro(mainHeading: string, timelineInfo: string, paras: seq<Para>)
    | Analysis(fields: map<string, string>)

  datatype Frame =
    | SectionUpdate(section: string, content: string)
    | HeaderUpdate(section: string, content: string)
    | Complete(payload: Payload)
    | Error(message: string)

  predicate Terminal(f: Frame) {
    f.Complete? || f.Error?
  }

  predicate NoBracket(s: string) {
    '[' !in s && ']' !in s
  }

  /** The last-sent texts after handling some sections, and the frames
      sent meanwhile. */
  datatype Emit = Emit(sent: map<string, string>, frames: seq<Frame>)

  /** The paragraph rule: send the part beyond the length already sent,
      unless that part still holds a bracket. */
  function OnParagraph(sent: map<string, string>, f: Found): (r: Emit)
    ensures var prev := Section(sent, f.name);
            r.frames != [] <==> |f.content| > |prev| && NoBracket(f.content[|prev|..])
    ensures r.frames != [] ==>
              r.frames == [SectionUpdate(f.name, f.content[|Section(sent, f.name)|..])]
              && r.sent == sent[f.name := f.content]
    ensures r.frames == [] ==> r.sent == sent
  {
    var prev := Section(sent, f.name);
    if |f.content| > |prev| then
      var delta := f.content[|prev|..];
      if !NoBracket(delta) then Emit(sent, [])
      else Emit(sent[f.name := f.content], [SectionUpdate(f.name, delta)])
    else Emit(sent, [])
  }

  /** The header rule: send the whole text when it differs from the last
      one sent. */
  function OnHeader(sent: map<string, string>, f: Found): (r: Emit)
    ensures r.frames != [] <==> f.content != Section(sent, f.name)
    ensures r.frames != [] ==>
              r.frames == [HeaderUpdate(f.name, f.content)] && r.sent == sent[f.name := f.content]
    ensures r.frames == [] ==> r.sent == sent
  {
    if f.content != Section(sent, f.name) then
      Emit(sent[f.name := f.content], [HeaderUpdate(f.name, f.content)])
    else Emit(sent, [])
  }

  function OnFound(k: Kind, sent: map<string, string>, f: Found): Emit {
    if IsHeader(k, f.name) then OnHeader(sent, f) else OnParagraph(sent, f)
  }

  /** The loop over one parse's sections, in pattern order. */
  function OnParse(k: Kind, sent: map<string, string>, found: seq<Found>): (r: Emit)
    ensures forall i :: 0 <= i < |r.frames| ==> !Terminal(r.frames[i])
    decreases |found|
  {
    if found == [] then Emit(sent, [])
    else
      var a := OnFound(k, sent, found[0]);
      var b := OnParse(k, a.sent, found[1..]);
      Emit(b.sent, a.frames + b.frames)
  }

  /** The generator's state between upstream chunks. The last-sent texts
      start out empty (`Section` reads a missing name as `""`, exactly like
      the source's table of empty strings). */
  datatype Emitter = Emitter(acc: string, sent: map<string, string>, frames: seq<Frame>)

  const Fresh: Emitter := Emitter("", map[], [])

  /** One upstream chunk; an empty delta is skipped. */
  function OnUpstream(k: Kind, e: Emitter, chunk: string): (r: Emitter)
    ensures e.frames <= r.frames
    ensures forall i :: |e.frames| <= i < |r.frames| ==> !Terminal(r.frames[i])
  {
    if chunk == "" then e
    else
      var acc := e.acc + chunk;
      var em := OnParse(k, e.sent, ParseSections(acc, Patterns(k)));
      Emitter(acc, em.sent, e.frames + em.frames)
  }

  function Consume(k: Kind, e: Emitter, chunks: seq<string>): (r: Emitter)
    ensures e.frames <= r.frames
    ensures forall i :: |e.frames| <= i < |r.frames| ==> !Terminal(r.frames[i])
    decreases |chunks|
  {
    if chunks == [] then e else Consume(k, OnUpstream(k, e, chunks[0]), chunks[1..])
  }

  /** The model's output: the content deltas received, and the exception
      that ended the request early, if any. */
  datatype Upstream = Upstream(chunks: seq<string>, failure: Option<string>)

  /** The fields the Strong's generator supplies (lines 357-366). */
  const StrongsFields: seq<string> := ["WordHeader", "LanguageInfo", "OriginalText", "Pronunciation",
                                       "RootMeanings", "ContextualMeaning", "OtherUses", "CulturalSignificance"]

  /** The required fields of `ChapterIntro` (bible-study-be-2/models/schemas.py:47-50). */
  const IntroSchema: seq<string> := ["MainHeading", "TimelineInfo", "Paras"]

  const ValidationPrefix: string := "Validation error: "
  const ApiPrefix: string := "API error: "

  /** The required fields of `schema` missing from `supplied`, in schema
      order. */
  function Missing(schema: seq<string>, supplied: seq<string>): (r: seq<string>)
    ensures forall i :: 0 <= i < |r| ==> r[i] in schema && r[i] !in supplied
    ensures forall x :: x in schema && x !in supplied ==> x in r
    decreases |schema|
  {
    if schema == [] then []
    else (if schema[0] in supplied then [] else [schema[0]]) + Missing(schema[1..], supplied)
  }

  function Titles(names: seq<string>): (r: seq<string>)
    ensures |r| == |names|
    ensures forall i :: 0 <= i < |names| ==> r[i] == Title(names[i])
  {
    seq(|names|, i requires 0 <= i < |names| => Title(names[i]))
  }

  function ParaTitles(paras: seq<Para>): (r: seq<string>)
    ensures |r| == |paras|
    ensures forall i :: 0 <= i < |paras| ==> r[i] == paras[i].title
  {
    seq(|paras|, i requires 0 <= i < |paras| => paras[i].title)
  }

  /** The `Paras` list: the paragraph sections present, in the fixed order,
      each with its display title. */
  function FinalParas(final: seq<Found>, names: seq<string>): (r: seq<Para>)
    ensures |r| <= |names|
    ensures Subsequence(ParaTitles(r), Titles(names))
    decreases |names|
  {
    if names == [] then []
    else
      var rest := FinalParas(final, names[1..]);
      assert Titles(names)[1..] == Titles(names[1..]);
      match Get(final, names[0])
      case None => rest
      case Some(c) =>
        var r := [Para(Title(names[0]), c)] + rest;
        assert ParaTitles(r) == [Title(names[0])] + ParaTitles(rest);
        r
  }

  /** The content of the paragraph titled `title`, if there is one. */
  function ParaContent(paras: seq<Para>, title: string): Option<string>
    decreases |paras|
  {
    if paras == [] then None
    else if paras[0].title == title then Some(paras[0].content)
    else ParaContent(paras[1..], title)
  }

  /** With distinct titles, a paragraph section appears in `Paras` under its
      title exactly when the final parse found it, with the parsed text. */
  lemma {:induction false} ParaPresentIffFound(final: seq<Found>, names: seq<string>, j: nat)
    requires Distinct(Titles(names)) && j < |names|
    ensures ParaContent(FinalParas(final, names), Title(names[j])) == Get(final, names[j])
    decreases |names|
  {
    assert Distinct(Titles(names[1..])) by {
      assert forall i :: 0 <= i < |names| - 1 ==> Titles(names[1..])[i] == Titles(names)[i + 1];
    }
    if j == 0 {
      assert forall i :: 0 <= i < |names| - 1 ==> Title(names[1..][i]) != Title(names[0]) by {
        assert forall i :: 0 <= i < |names| - 1 ==> Title(names[1..][i]) == Titles(names)[i + 1];
      }
      TitleAbsent(final, names[1..], Title(names[0]));
    } else {
      ParaPresentIffFound(final, names[1..], j - 1);
      assert names[1..][j - 1] == names[j];
      assert Title(names[0]) != Title(names[j]) by {
        assert Titles(names)[0] != Titles(names)[j];
      }
    }
  }

  lemma {:induction false} TitleAbsent(final: seq<Found>, names: seq<string>, title: string)
    requires forall i :: 0 <= i < |names| ==> Title(names[i]) != title
    ensures ParaContent(FinalParas(final, names), title).None?
    decreases |names|
  {
    if names != [] {
      TitleAbsent(final, names[1..], title);
    }
  }

  /** The validated model's fields, read from the last parse. */
  function Document(final: seq<Found>, schema: seq<string>): (d: map<string, string>)
    ensures forall n :: n in d <==> n in schema
  {
    map n | n in schema :: Get(final, n).GetOr("")
  }

  /** The frame that closes a stream whose upstream finished: the document
      is assembled from a last parse, validated, and sent in a `complete`
      frame; a validation failure becomes an `error` frame. Only the
      Strong's schema can fail, and it is a parameter. */
  function Finish(k: Kind, strongsSchema: seq<string>, acc: string): (f: Frame)
    ensures Terminal(f)
    ensures k == ChapterIntro ==> f.Complete? && f.payload.Intro?
    ensures k == StrongsAnalysis ==>
              (f.Complete? <==> Missing(strongsSchema, StrongsFields) == [])
    ensures k == StrongsAnalysis && f.Error? ==>
              f.message == ValidationPrefix + Join(Missing(strongsSchema, StrongsFields), ',')
  {
    var final := ParseSections(acc, Patterns(k));
    match k
    case ChapterIntro =>
      assert Missing(IntroSchema, IntroSchema) == [];
      Complete(Intro(Get(final, "MainHeading").GetOr(""), Get(final, "TimelineInfo").GetOr(""),
                     FinalParas(final, ParagraphNames)))
    case StrongsAnalysis =>
      var missing := Missing(strongsSchema, StrongsFields);
      if missing == [] then Complete(Analysis(Document(final, strongsSchema)))
      else Error(ValidationPrefix + Join(missing, ','))
  }

  /** A whole generator run: the incremental frames, then exactly one
      closing frame. */
  function Run(k: Kind, strongsSchema: seq<string>, up: Upstream): (frames: seq<Frame>)
    ensures |frames| >= 1 && Terminal(frames[|frames| - 1])
    ensures forall i :: 0 <= i < |frames| - 1 ==> !Terminal(frames[i])
    ensures up.failure.Some? ==> frames[|frames| - 1] == Error(ApiPrefix + up.failure.value)
  {
    var e := Consume(k, Fresh, up.chunks);
    Closed(e.frames, Closing(k, strongsSchema, up.failure, e.acc))
  }

  /** The closing frame: the upstream's exception, or the validated document. */
  function Closing(k: Kind, strongsSchema: seq<string>, failure: Option<string>, acc: string): (f: Frame)
    ensures Terminal(f)
    ensures failure.Some? ==> f == Error(ApiPrefix + failure.value)
    ensures failure.None? ==> f == Finish(k, strongsSchema, acc)
  {
    match failure
    case Some(d) => Error(ApiPrefix + d)
    case None => Finish(k, strongsSchema, acc)
  }

  function Closed(frames: seq<Frame>, last: Frame): (r: seq<Frame>)
    requires forall i :: 0 <= i < |frames| ==> !Terminal(frames[i])
    requires Terminal(last)
    ensures |r| >= 1 && r[|r| - 1] == last && r[..|r| - 1] == frames
    ensures forall i :: 0 <= i < |r| - 1 ==> !Terminal(r[i])
  {
    frames + [last]
  }

  /** The `StrongsAnalysis` schema as written
      (bible-study-be-2/models/schemas.py:33-41): it requires
      `LiteralMeaning`, a field the generator never supplies. */
  const StrongsSchemaAsWritten: seq<string> := ["WordHeader", "LanguageInfo", "OriginalText", "Pronunciation",
                                                "LiteralMeaning", "ContextualMeaning", "OtherUses", "CulturalSignificance"]

  /** The schema the generator, the prompt and the client all agree on:
      the fifth field is `RootMeanings`. */
  const StrongsSchema: seq<string> := StrongsFields

  function ChapterIntroStream(up: Upstream): seq<Frame> {
    Run(ChapterIntro, StrongsSchema, up)
  }

  function StrongsStreamAsWritten(up: Upstream): seq<Frame> {
    Run(StrongsAnalysis, StrongsSchemaAsWritten, up)
  }

  function StrongsStream(up: Upstream): seq<Frame> {
    Run(StrongsAnalysis, StrongsSchema, up)
  }

  /** A chapter introduction whose upstream finishes always closes with
      `complete`: its assembled document always has the required fields. */
  lemma IntroCompletes(up: Upstream)
    requires up.failure.None?
    ensures var frames := ChapterIntroStream(up);
            frames[|frames| - 1].Complete? && frames[|frames| - 1].payload.Intro?
  {
  }

  /** As written, no Strong's analysis stream ever sends `complete`: a
      finished upstream closes with a validation error naming
      `LiteralMeaning`. */
  lemma StrongsNeverCompletesAsWritten(up: Upstream)
    ensures forall i :: 0 <= i < |StrongsStreamAsWritten(up)| ==> !StrongsStreamAsWritten(up)[i].Complete?
    ensures up.failure.None? ==>
              StrongsStreamAsWritten(up)[|StrongsStreamAsWritten(up)| - 1]
              == Error(ValidationPrefix + "LiteralMeaning")
  {
    AsWrittenNoComplete(up);
    AsWrittenLastFrame(up);
  }

  lemma AsWrittenNoComplete(up: Upstream)
    ensures forall i :: 0 <= i < |StrongsStreamAsWritten(up)| ==> !StrongsStreamAsWritten(up)[i].Complete?
  {
    AsWrittenMessage();
    FailedValidationNeverCompletes(StrongsSchemaAsWritten, up);
  }

  lemma AsWrittenLastFrame(up: Upstream)
    ensures up.failure.None? ==>
              StrongsStreamAsWritten(up)[|StrongsStreamAsWritten(up)| - 1]
              == Error(ValidationPrefix + "LiteralMeaning")
  {
    AsWrittenMessage();
    FailedValidationNeverCompletes(StrongsSchemaAsWritten, up);
  }

  lemma AsWrittenMessage()
    ensures Missing(StrongsSchemaAsWritten, StrongsFields) != []
    ensures ValidationPrefix + Join(Missing(StrongsSchemaAsWritten, StrongsFields), ',')
            == ValidationPrefix + "LiteralMeaning"
  {
    MissingLiteralMeaning();
  }

  /** A Strong's schema with a field the generator does not supply can
      never be met. */
  lemma FailedValidationNeverCompletes(schema: seq<string>, up: Upstream)
    requires Missing(schema, StrongsFields) != []
    ensures var frames := Run(StrongsAnalysis, schema, up);
            forall i :: 0 <= i < |frames| ==> !frames[i].Complete?
    ensures up.failure.None? ==>
              var frames := Run(StrongsAnalysis, schema, up);
              frames[|frames| - 1] == Error(ValidationPrefix + Join(Missing(schema, StrongsFields), ','))
  {
    var e := Consume(StrongsAnalysis, Fresh, up.chunks);
    var frames := Run(StrongsAnalysis, schema, up);
    var n := |frames| - 1;
    assert frames[n].Error? by {
      if up.failure.None? {
        assert frames[n] == Finish(StrongsAnalysis, schema, e.acc);
      }
    }
    forall i | 0 <= i < |frames| ensures !frames[i].Complete? {
      if i < n {
        assert !Terminal(frames[i]);
      }
    }
  }

  lemma MissingLiteralMeaning()
    ensures Missing(StrongsSchemaAsWritten, StrongsFields) == ["LiteralMeaning"]
    ensures Join(["LiteralMeaning"], ',') == "LiteralMeaning"
  {
    var head, tail := StrongsFields[..4], StrongsFields[5..];
    AsWrittenSplice();
    MissingAppend(head + ["LiteralMeaning"], tail, StrongsFields);
    MissingAppend(head, ["LiteralMeaning"], StrongsFields);
    MissingSlice(StrongsFields, 0, 4);
    MissingSlice(StrongsFields, 5, 8);
    LiteralMeaningNotSupplied();
    assert Missing(["LiteralMeaning"], StrongsFields) == ["LiteralMeaning"] + Missing([], StrongsFields);
  }

  /** The schema as written differs from the supplied fields only in its
      fifth entry. */
  lemma AsWrittenSplice()
    ensures StrongsSchemaAsWritten == StrongsFields[..4] + ["LiteralMeaning"] + StrongsFields[5..]
  {
  }

  lemma LiteralMeaningNotSupplied()
    ensures "LiteralMeaning" !in StrongsFields
  {
    var f := StrongsFields;
    assert |f[0]| == 10 && |f[1]| == 12 && |f[2]| == 12 && |f[3]| == 13;
    assert |f[4]| == 12 && |f[5]| == 17 && |f[6]| == 9 && |f[7]| == 20;
  }

  lemma {:induction false} MissingAppend(a: seq<string>, b: seq<string>, supplied: seq<string>)
    ensures Missing(a + b, supplied) == Missing(a, supplied) + Missing(b, supplied)
    decreases |a|
  {
    if a == [] {
      assert a + b == b;
    } else {
      assert (a + b)[1..] == a[1..] + b;
      MissingAppend(a[1..], b, supplied);
    }
  }

  /** Nothing of a run of the supplied fields is missing. */
  lemma MissingSlice(xs: seq<string>, a: nat, b: nat)
    requires a <= b <= |xs|
    ensures Missing(xs[a..b], xs) == []
  {
    forall i | 0 <= i < b - a ensures xs[a..b][i] in xs {
      assert xs[a..b][i] == xs[a + i];
    }
    MissingNone(xs[a..b], xs);
  }

  lemma {:induction false} MissingNone(xs: seq<string>, supplied: seq<string>)
    requires forall i :: 0 <= i < |xs| ==> xs[i] in supplied
    ensures Missing(xs, supplied) == []
    decreases |xs|
  {
    if xs != [] {
      MissingNone(xs[1..], supplied);
    }
  }

  lemma NothingMissing()
    ensures Missing(StrongsSchema, StrongsFields) == []
  {
    assert forall x :: x in StrongsSchema ==> x in StrongsFields;
  }

  /** With the schema the rest of the system expects, a finished upstream
      closes with `complete`, carrying every field of the last parse (`""`
      for a section never found). */
  lemma StrongsCompletes(up: Upstream)
    requires up.failure.None?
    ensures var frames := StrongsStream(up);
            var final := ParseSections(Consume(StrongsAnalysis, Fresh, up.chunks).acc, StrongsPatterns);
            frames[|frames| - 1] == Complete(Analysis(Document(final, StrongsFields)))
  {
    var e := Consume(StrongsAnalysis, Fresh, up.chunks);
    var frames := StrongsStream(up);
    NothingMissing();
    assert frames[|frames| - 1] == Finish(StrongsAnalysis, StrongsSchema, e.acc);
  }

  lemma ParagraphTitlesDistinct()
    ensures Distinct(Titles(ParagraphNames))
  {
    TitleLengths();
    LengthsDistinct(Titles(ParagraphNames));
  }

  lemma TitleLengths()
    ensures var t := Titles(ParagraphNames);
            |t| == 4 && |t[0]| == 16 && |t[1]| == 23 && |t[2]| == 25 && |t[3]| == 22
  {
  }

  /** Four texts of four different lengths are distinct. */
  lemma LengthsDistinct(t: seq<string>)
    requires |t| == 4 && |t[0]| == 16 && |t[1]| == 23 && |t[2]| == 25 && |t[3]| == 22
    ensures Distinct(t)
  {
  }

  // ---------------------------------------------------------------------
  // Deltas against the last-sent text.

  /** The contents of the `section_update` frames for `name`, concatenated. */
  function ContentsOf(frames: seq<Frame>, name: string): string
    decreases |frames|
  {
    if frames == [] then ""
    else (if frames[0].SectionUpdate? && frames[0].section == name then frames[0].content else "")
         + ContentsOf(frames[1..], name)
  }

  lemma {:induction false} ContentsOfAppend(a: seq<Frame>, b: seq<Frame>, name: string)
    ensures ContentsOf(a + b, name) == ContentsOf(a, name) + ContentsOf(b, name)
    decreases |a|
  {
    if a == [] {
      assert a + b == b;
    } else {
      assert (a + b)[1..] == a[1..] + b;
      ContentsOfAppend(a[1..], b, name);
    }
  }

  /** A section's new text extends what was last sent for it whenever it
      is longer. */
  predicate Grows(sent: map<string, string>, f: Found) {
    |f.content| > |Section(sent, f.name)| ==> Section(sent, f.name) <= f.content
  }

  /** A sent delta completes the last-sent text to the new text; a withheld
      one leaves the last-sent text as it was. */
  lemma ParagraphExtends(sent: map<string, string>, f: Found)
    requires Grows(sent, f)
    ensures Section(sent, f.name) + ContentsOf(OnParagraph(sent, f).frames, f.name)
            == Section(OnParagraph(sent, f).sent, f.name)
  {
    var r := OnParagraph(sent, f);
    var prev := Section(sent, f.name);
    if r.frames != [] {
      assert ContentsOf(r.frames, f.name) == f.content[|prev|..];
      assert prev + f.content[|prev|..] == f.content;
    } else {
      assert ContentsOf(r.frames, f.name) == "";
    }
  }

  /** Handling a section touches neither the last-sent text nor the
      frames of any other section. */
  lemma OtherSectionUntouched(k: Kind, sent: map<string, string>, f: Found, name: string)
    requires f.name != name
    ensures Section(OnFound(k, sent, f).sent, name) == Section(sent, name)
    ensures ContentsOf(OnFound(k, sent, f).frames, name) == ""
  {
  }

  /** Within one parse (whose section names are distinct), the deltas sent
      for a paragraph section complete its last-sent text. */
  lemma {:induction false} ParseReconstructs(k: Kind, sent: map<string, string>, found: seq<Found>, name: string)
    requires Distinct(Names(found))
    requires forall i :: 0 <= i < |found| ==> Grows(sent, found[i])
    requires !IsHeader(k, name)
    ensures Section(sent, name) + ContentsOf(OnParse(k, sent, found).frames, name)
            == Section(OnParse(k, sent, found).sent, name)
    decreases |found|
  {
    if found != [] {
      var a := OnFound(k, sent, found[0]);
      var b := OnParse(k, a.sent, found[1..]);
      assert OnParse(k, sent, found) == Emit(b.sent, a.frames + b.frames);
      GrowsAfterFirst(k, sent, found);
      ParseReconstructs(k, a.sent, found[1..], name);
      ContentsOfAppend(a.frames, b.frames, name);
      FirstStepReconstructs(k, sent, found[0], name);
      Chain(Section(sent, name), ContentsOf(a.frames, name), ContentsOf(b.frames, name),
            Section(a.sent, name), Section(b.sent, name));
    }
  }

  lemma FirstStepReconstructs(k: Kind, sent: map<string, string>, f: Found, name: string)
    requires Grows(sent, f) && !IsHeader(k, name)
    ensures Section(sent, name) + ContentsOf(OnFound(k, sent, f).frames, name)
            == Section(OnFound(k, sent, f).sent, name)
  {
    if f.name == name {
      assert OnFound(k, sent, f) == OnParagraph(sent, f);
      ParagraphExtends(sent, f);
    } else {
      OtherSectionUntouched(k, sent, f, name);
    }
  }

  /** The rest of a parse still extends the last-sent texts once its first
      section has been handled. */
  lemma GrowsAfterFirst(k: Kind, sent: map<string, string>, found: seq<Found>)
    requires found != [] && Distinct(Names(found))
    requires forall i :: 0 <= i < |found| ==> Grows(sent, found[i])
    ensures Distinct(Names(found[1..]))
    ensures forall i :: 0 <= i < |found[1..]| ==> Grows(OnFound(k, sent, found[0]).sent, found[1..][i])
  {
    assert forall i :: 0 <= i < |found| - 1 ==> Names(found[1..])[i] == Names(found)[i + 1];
    forall i | 0 <= i < |found[1..]| ensures Grows(OnFound(k, sent, found[0]).sent, found[1..][i]) {
      assert found[1..][i] == found[i + 1];
      assert Names(found)[0] != Names(found)[i + 1];
      OtherSectionUntouched(k, sent, found[0], found[i + 1].name);
    }
  }

  lemma {:induction false} SubsequenceDistinct(sub: seq<string>, xs: seq<string>)
    requires Subsequence(sub, xs) && Distinct(xs)
    ensures Distinct(sub)
    ensures forall x :: x in sub ==> x in xs
    decreases |xs|
  {
    if sub != [] {
      assert Distinct(xs[1..]) by {
        assert forall i :: 0 <= i < |xs| - 1 ==> xs[1..][i] == xs[i + 1];
      }
      if sub[0] == xs[0] && Subsequence(sub[1..], xs[1..]) {
        SubsequenceDistinct(sub[1..], xs[1..]);
        assert xs[0] !in xs[1..] by {
          assert forall i :: 0 <= i < |xs| - 1 ==> xs[1..][i] == xs[i + 1];
        }
        forall i, j | 0 <= i < j < |sub| ensures sub[i] != sub[j] {
          assert sub[j] == sub[1..][j - 1];
          assert sub[j] in xs[1..];
          if i > 0 {
            assert sub[i] == sub[1..][i - 1];
          }
        }
        forall x | x in sub ensures x in xs {
          if x != sub[0] {
            var i :| 0 <= i < |sub| && sub[i] == x;
            assert x == sub[1..][i - 1];
            assert x in sub[1..];
            assert x in xs[1..];
          }
        }
      } else {
        SubsequenceDistinct(sub, xs[1..]);
      }
    }
  }

  lemma PatternNamesDistinct(k: Kind)
    ensures Distinct(PatternNames(Patterns(k)))
  {
  }

  lemma ParseNamesDistinct(k: Kind, text: string)
    ensures Distinct(Names(ParseSections(text, Patterns(k))))
  {
    PatternNamesDistinct(k);
    SubsequenceDistinct(Names(ParseSections(text, Patterns(k))), PatternNames(Patterns(k)));
  }

  /** Each chunk's parse extends every section's last-sent text whenever it
      is longer, from `e` on. */
  predicate GrowsThroughout(k: Kind, e: Emitter, chunks: seq<string>)
    decreases |chunks|
  {
    chunks == []
    || ((chunks[0] != "" ==>
           var found := ParseSections(e.acc + chunks[0], Patterns(k));
           forall i :: 0 <= i < |found| ==> Grows(e.sent, found[i]))
        && GrowsThroughout(k, OnUpstream(k, e, chunks[0]), chunks[1..]))
  }

  /** While every parse extends the previously sent text, the deltas sent
      for a paragraph section, concatenated, are exactly its last-sent
      text. */
  lemma {:induction false} DeltasReconstructSent(k: Kind, e: Emitter, chunks: seq<string>, name: string)
    requires GrowsThroughout(k, e, chunks) && !IsHeader(k, name)
    requires ContentsOf(e.frames, name) == Section(e.sent, name)
    ensures ContentsOf(Consume(k, e, chunks).frames, name) == Section(Consume(k, e, chunks).sent, name)
    decreases |chunks|
  {
    if chunks != [] {
      var e' := OnUpstream(k, e, chunks[0]);
      if chunks[0] != "" {
        var found := ParseSections(e.acc + chunks[0], Patterns(k));
        ParseNamesDistinct(k, e.acc + chunks[0]);
        ParseReconstructs(k, e.sent, found, name);
        ContentsOfAppend(e.frames, OnParse(k, e.sent, found).frames, name);
      }
      DeltasReconstructSent(k, e', chunks[1..], name);
    }
  }

  /** A withheld delta is not lost: the state is as before, so the next
      delta sent for the section starts where the last sent one ended. */
  lemma WithheldNotLost(sent: map<string, string>, name: string, c1: string, c2: string)
    requires OnParagraph(sent, Found(name, c1)).frames == []
    requires Section(sent, name) <= c2
    requires OnParagraph(OnParagraph(sent, Found(name, c1)).sent, Found(name, c2)).frames != []
    ensures Section(sent, name)
            + OnParagraph(OnParagraph(sent, Found(name, c1)).sent, Found(name, c2)).frames[0].content == c2
  {
  }
}

=== FILE: end_to_end.dfy ===
/** The back end's Strong's stream read by the front end's modal. Each frame
    travels as `data: <json>\n\n` (bible-study-be-2/services/bible_service.py:
    369-389); the JSON text is a parameter `encode` that never holds a raw
    line feed (`json.dumps` escapes them), and the client's `JSON.parse`
    followed by its `type` test reads each frame back as `Seen` says. */
module EndToEnd {
  import opened Wrappers
  import opened Text
  import opened Framing
  import opened TtlCache
  import DE = DeltaEmitter
  import SC = StrongsClient

  /** The bytes of a stream of frames. */
  function Wire(encode: DE.Frame -> string, frames: seq<DE.Frame>): string
    decreases |frames|
  {
    if frames == [] then "" else DataPrefix + encode(frames[0]) + "\n\n" + Wire(encode, frames[1..])
  }

  /** The lines a stream of frames splits into: the `data:` line and the
      empty line after it, for each frame. */
  function WireLines(encode: DE.Frame -> string, frames: seq<DE.Frame>): seq<string>
    decreases |frames|
  {
    if frames == [] then [] else [DataPrefix + encode(frames[0]), ""] + WireLines(encode, frames[1..])
  }

  ghost predicate OneLine(encode: DE.Frame -> string) {
    forall f :: '\n' !in encode(f)
  }

  /** What the client's dispatcher makes of a frame: header updates have a
      `type` it does not know; a `complete` frame's `data` is read as the
      client's record by `toInfo`. */
  function Seen(f: DE.Frame, toInfo: DE.Payload -> SC.StrongsInfo): SC.Envelope {
    match f
    case SectionUpdate(s, c) => SC.SectionUpdate(s, c)
    case HeaderUpdate(_, _) => SC.OtherType
    case Complete(p) => SC.Complete(toInfo(p))
    case Error(m) => SC.ErrorEnvelope(m)
  }

  /** The client parses what the server encoded. */
  ghost predicate Agree(encode: DE.Frame -> string, ctx: SC.Context, toInfo: DE.Payload -> SC.StrongsInfo) {
    forall f :: ctx.classify(encode(f)) == Seen(f, toInfo)
  }

  lemma {:induction false} WireLinesAppend(encode: DE.Frame -> string, a: seq<DE.Frame>, b: seq<DE.Frame>)
    ensures WireLines(encode, a + b) == WireLines(encode, a) + WireLines(encode, b)
    decreases |a|
  {
    if a == [] {
      assert a + b == b;
    } else {
      assert (a + b)[0] == a[0];
      assert (a + b)[1..] == a[1..] + b;
      WireLinesAppend(encode, a[1..], b);
    }
  }

  lemma {:induction false} WireIsTerminated(encode: DE.Frame -> string, frames: seq<DE.Frame>)
    ensures Wire(encode, frames) == Terminated(WireLines(encode, frames))
    decreases |frames|
  {
    if frames != [] {
      var first := [DataPrefix + encode(frames[0]), ""];
      var rest := WireLines(encode, frames[1..]);
      WireIsTerminated(encode, frames[1..]);
      TerminatedAppend(first, rest);
      assert first[1..] == [""];
      assert Terminated([""]) == "\n";
      assert Terminated(first) == DataPrefix + encode(frames[0]) + "\n\n";
    }
  }

  lemma {:induction false} WireLinesNoLineFeed(encode: DE.Frame -> string, frames: seq<DE.Frame>)
    requires OneLine(encode)
    ensures NoLineFeed(WireLines(encode, frames))
    decreases |frames|
  {
    if frames != [] {
      WireLinesNoLineFeed(encode, frames[1..]);
      var line := DataPrefix + encode(frames[0]);
      assert '\n' !in encode(frames[0]);
      assert forall i :: 0 <= i < |line| ==> line[i] != '\n' by {
        forall i | 0 <= i < |line| ensures line[i] != '\n' {
          if i >= |DataPrefix| {
            assert line[i] == encode(frames[0])[i - |DataPrefix|];
          }
        }
      }
    }
  }

  /** However the transfer is cut into chunks, the client's framer yields
      exactly the frames' lines, in order, and nothing is left over. */
  lemma ClientSeesWireLines(encode: DE.Frame -> string, frames: seq<DE.Frame>, chunks: seq<string>)
    requires OneLine(encode)
    requires Concat(chunks) == Wire(encode, frames)
    ensures Feed("", Concat(chunks)) == Fed(WireLines(encode, frames), "")
  {
    var f := Feed("", Concat(chunks));
    WireIsTerminated(encode, frames);
    WireLinesNoLineFeed(encode, frames);
    assert Terminated(WireLines(encode, frames)) + "" == "" + Concat(chunks);
    TerminatedUnique(f.lines, f.buffer, WireLines(encode, frames), "");
  }

  /** Each frame's lines reach the dispatcher as the frame itself, then a
      blank line. */
  lemma FrameLines(encode: DE.Frame -> string, f: DE.Frame, ctx: SC.Context, toInfo: DE.Payload -> SC.StrongsInfo)
    requires Agree(encode, ctx, toInfo)
    ensures SC.LineEnvelope(DataPrefix + encode(f), ctx) == Some(Seen(f, toInfo))
    ensures SC.LineEnvelope("", ctx) == None
  {
    CleanInvertsFraming(encode(f));
  }

  /** The client's section updates are the back end's `section_update`
      frames, in order. */
  lemma {:induction false} WireUpdates(encode: DE.Frame -> string, frames: seq<DE.Frame>, ctx: SC.Context,
                                       toInfo: DE.Payload -> SC.StrongsInfo, name: string)
    requires Agree(encode, ctx, toInfo)
    ensures SC.ContentsFor(SC.Updates(WireLines(encode, frames), ctx), name) == DE.ContentsOf(frames, name)
    decreases |frames|
  {
    if frames != [] {
      var lines := WireLines(encode, frames);
      FrameLines(encode, frames[0], ctx, toInfo);
      WireUpdates(encode, frames[1..], ctx, toInfo, name);
      assert lines[1..][1..] == WireLines(encode, frames[1..]);
      assert SC.Updates(lines[1..], ctx) == SC.Updates(WireLines(encode, frames[1..]), ctx);
    }
  }

  /** A stream with no `complete` frame has no line the client completes on. */
  lemma {:induction false} WireWithoutComplete(encode: DE.Frame -> string, frames: seq<DE.Frame>, ctx: SC.Context,
                                               toInfo: DE.Payload -> SC.StrongsInfo)
    requires Agree(encode, ctx, toInfo)
    requires forall i :: 0 <= i < |frames| ==> !frames[i].Complete?
    ensures !SC.SomeComplete(WireLines(encode, frames), ctx)
    decreases |frames|
  {
    if frames != [] {
      var lines := WireLines(encode, frames);
      FrameLines(encode, frames[0], ctx, toInfo);
      WireWithoutComplete(encode, frames[1..], ctx, toInfo);
      forall i | 0 <= i < |lines| ensures !SC.IsCompleteLine(lines[i], ctx) {
        if i >= 2 {
          assert lines[i] == WireLines(encode, frames[1..])[i - 2];
        }
      }
    }
  }

  /** A stream whose frames are all incremental has no error line either. */
  lemma {:induction false} WireOnlyUpdates(encode: DE.Frame -> string, frames: seq<DE.Frame>, ctx: SC.Context,
                                           toInfo: DE.Payload -> SC.StrongsInfo)
    requires Agree(encode, ctx, toInfo)
    requires forall i :: 0 <= i < |frames| ==> !DE.Terminal(frames[i])
    ensures forall i :: 0 <= i < |WireLines(encode, frames)| ==>
              !SC.IsErrorLine(WireLines(encode, frames)[i], ctx) && !SC.IsCompleteLine(WireLines(encode, frames)[i], ctx)
    decreases |frames|
  {
    if frames != [] {
      var lines := WireLines(encode, frames);
      FrameLines(encode, frames[0], ctx, toInfo);
      WireOnlyUpdates(encode, frames[1..], ctx, toInfo);
      forall i | 0 <= i < |lines| ensures !SC.IsErrorLine(lines[i], ctx) && !SC.IsCompleteLine(lines[i], ctx) {
        if i >= 2 {
          assert lines[i] == WireLines(encode, frames[1..])[i - 2];
        }
      }
    }
  }

  /** The modal's session after a transfer that ends cleanly, started from
      the state set before the request goes out. */
  function Client(c: Cache<SC.StrongsInfo>, chunks: seq<string>, ctx: SC.Context): SC.Session {
    SC.ReadBody(SC.Session(SC.Started, c), SC.Body(chunks, SC.Done), ctx)
  }

  /** A stream without `complete`, however it is cut into chunks, only
      fills the streamed sections, each with the concatenated contents of
      its `section_update` frames. */
  lemma ReadWithoutComplete(encode: DE.Frame -> string, frames: seq<DE.Frame>, c: Cache<SC.StrongsInfo>,
                            chunks: seq<string>, ctx: SC.Context, toInfo: DE.Payload -> SC.StrongsInfo, name: string)
    requires OneLine(encode) && Agree(encode, ctx, toInfo)
    requires Concat(chunks) == Wire(encode, frames)
    requires forall i :: 0 <= i < |frames| ==> !frames[i].Complete?
    ensures Client(c, chunks, ctx).view == SC.Started.(streamedSections := Client(c, chunks, ctx).view.streamedSections)
    ensures Client(c, chunks, ctx).cache == c
    ensures Section(Client(c, chunks, ctx).view.streamedSections, name) == DE.ContentsOf(frames, name)
  {
    var lines := WireLines(encode, frames);
    ClientSeesWireLines(encode, frames, chunks);
    WireWithoutComplete(encode, frames, ctx, toInfo);
    SC.CleanEndWithoutComplete(c, chunks, ctx);
    SC.AccumulateConcatenates(map[], SC.Updates(lines, ctx), name);
    WireUpdates(encode, frames, ctx, toInfo, name);
  }

  /** A stream of incremental frames closed by `complete`, however it is
      cut into chunks, ends with the closing document shown and cached. */
  lemma ReadEndingInComplete(encode: DE.Frame -> string, pre: seq<DE.Frame>, p: DE.Payload, c: Cache<SC.StrongsInfo>,
                             chunks: seq<string>, ctx: SC.Context, toInfo: DE.Payload -> SC.StrongsInfo)
    requires OneLine(encode) && Agree(encode, ctx, toInfo)
    requires forall i :: 0 <= i < |pre| ==> !DE.Terminal(pre[i])
    requires Concat(chunks) == Wire(encode, pre + [DE.Complete(p)])
    ensures Client(c, chunks, ctx).view.parsedData == Some(toInfo(p))
    ensures Client(c, chunks, ctx).view.isComplete && !Client(c, chunks, ctx).view.isStreaming
    ensures Client(c, chunks, ctx).view.error.None?
    ensures Client(c, chunks, ctx).cache == TrySave(c, ctx.key, toInfo(p), ctx.savedAt, DefaultExpiryDays, ctx.stored)
  {
    var last := DE.Complete(p);
    var a := WireLines(encode, pre);
    var b := [DataPrefix + encode(last), ""];
    WireLinesAppend(encode, pre, [last]);
    assert WireLines(encode, [last]) == b;
    var lines := a + b;
    ClientSeesWireLines(encode, pre + [last], chunks);
    FrameLines(encode, last, ctx, toInfo);
    WireOnlyUpdates(encode, pre, ctx, toInfo);
    BreakHarmlessAtEnd(a, b[0], ctx);
    var s0 := SC.Session(SC.Started, c);
    SC.ReadAsFold(s0, chunks, ctx);
    SC.FoldAppend(s0, a, b, ctx);
    FoldOverUpdates(s0, a, ctx);
    FoldLastTwo(SC.FoldLines(s0, a, ctx), b[0], ctx);
  }

  /** A `complete` line followed only by the blank line after it ends the
      read without skipping anything that matters. */
  lemma BreakHarmlessAtEnd(a: seq<string>, line: string, ctx: SC.Context)
    requires forall i :: 0 <= i < |a| ==> !SC.IsCompleteLine(a[i], ctx)
    requires SC.LineEnvelope("", ctx) == None
    ensures SC.BreakHarmless(a + [line, ""], ctx)
  {
    var lines := a + [line, ""];
    assert forall i :: 0 <= i < |a| ==> lines[i] == a[i];
    forall i, j | 0 <= i < j < |lines| && SC.IsCompleteLine(lines[i], ctx) ensures SC.Inert(lines[j], ctx) {
      if i < |a| {
        assert false;
      }
      assert j == |a| + 1 && lines[j] == "";
    }
  }

  lemma FoldLastTwo(s: SC.Session, line: string, ctx: SC.Context)
    requires SC.LineEnvelope("", ctx) == None
    ensures SC.FoldLines(s, [line, ""], ctx) == SC.OnLine(s, line, ctx).session
  {
    var s2 := SC.OnLine(s, line, ctx).session;
    assert [line, ""][1..] == [""];
    assert SC.FoldLines(s2, [""], ctx) == SC.OnLine(s2, "", ctx).session;
  }

  lemma FoldOverUpdates(s: SC.Session, a: seq<string>, ctx: SC.Context)
    requires forall i :: 0 <= i < |a| ==> !SC.IsErrorLine(a[i], ctx) && !SC.IsCompleteLine(a[i], ctx)
    ensures SC.FoldLines(s, a, ctx).view.error == s.view.error
    ensures SC.FoldLines(s, a, ctx).cache == s.cache
  {
    assert !SC.SomeComplete(a, ctx);
    SC.LinesWithoutComplete(s, a, ctx);
    SC.LinesAsFold(s, a, ctx);
  }

  /** With the intended error handling, a stream of incremental frames
      closed by `error` shows the message and stops streaming. */
  lemma SurfacesError(encode: DE.Frame -> string, pre: seq<DE.Frame>, m: string, c: Cache<SC.StrongsInfo>,
                      ctx: SC.Context, toInfo: DE.Payload -> SC.StrongsInfo)
    requires Agree(encode, ctx, toInfo)
    requires forall i :: 0 <= i < |pre| ==> !DE.Terminal(pre[i])
    requires m != ""
    ensures SC.SurfacingLines(SC.Session(SC.Started, c), WireLines(encode, pre + [DE.Error(m)]), ctx).view.error == Some(m)
    ensures !SC.SurfacingLines(SC.Session(SC.Started, c), WireLines(encode, pre + [DE.Error(m)]), ctx).view.isStreaming
  {
    var last := DE.Error(m);
    var a := WireLines(encode, pre);
    WireLinesAppend(encode, pre, [last]);
    assert WireLines(encode, [last]) == [DataPrefix + encode(last), ""];
    assert WireLines(encode, pre + [last]) == a + [DataPrefix + encode(last)] + [""];
    FrameLines(encode, last, ctx, toInfo);
    WireOnlyUpdates(encode, pre, ctx, toInfo);
    SC.ErrorEndsStream(SC.Session(SC.Started, c), a, DataPrefix + encode(last), [""], ctx);
  }

  /** Every generator run is its incremental frames followed by one
      closing frame. */
  lemma StreamShape(k: DE.Kind, schema: seq<string>, up: DE.Upstream)
    ensures DE.Run(k, schema, up)
            == DE.Consume(k, DE.Fresh, up.chunks).frames + [DE.Run(k, schema, up)[|DE.Run(k, schema, up)| - 1]]
  {
  }

  /** The closing frame carries no section text, so while every parse
      extends the previously sent text, the deltas of a whole Strong's
      stream rebuild each section's last-sent text. */
  lemma Rebuilt(schema: seq<string>, up: DE.Upstream, name: string)
    requires DE.GrowsThroughout(DE.StrongsAnalysis, DE.Fresh, up.chunks)
    ensures DE.ContentsOf(DE.Run(DE.StrongsAnalysis, schema, up), name)
            == Section(DE.Consume(DE.StrongsAnalysis, DE.Fresh, up.chunks).sent, name)
  {
    var e := DE.Consume(DE.StrongsAnalysis, DE.Fresh, up.chunks);
    var frames := DE.Run(DE.StrongsAnalysis, schema, up);
    var last := frames[|frames| - 1];
    StreamShape(DE.StrongsAnalysis, schema, up);
    DE.ContentsOfAppend(e.frames, [last], name);
    assert DE.ContentsOf([last], name) == "";
    DE.DeltasReconstructSent(DE.StrongsAnalysis, DE.Fresh, up.chunks, name);
  }

  /** The Strong's stream as the back end is written, however it is cut
      into chunks, leaves the modal streaming forever: the closing frame is
      always `error`, the client swallows it, no document is parsed or
      cached and no error is shown. The sections shown are the back end's
      last-sent texts. */
  lemma AsWrittenStrongsNeverCompletes(encode: DE.Frame -> string, up: DE.Upstream, c: Cache<SC.StrongsInfo>,
                                       chunks: seq<string>, ctx: SC.Context,
                                       toInfo: DE.Payload -> SC.StrongsInfo, name: string)
    requires OneLine(encode) && Agree(encode, ctx, toInfo)
    requires Concat(chunks) == Wire(encode, DE.StrongsStreamAsWritten(up))
    ensures Client(c, chunks, ctx).view == SC.Started.(streamedSections := Client(c, chunks, ctx).view.streamedSections)
    ensures Client(c, chunks, ctx).cache == c
    ensures DE.GrowsThroughout(DE.StrongsAnalysis, DE.Fresh, up.chunks) ==>
              Section(Client(c, chunks, ctx).view.streamedSections, name)
              == Section(DE.Consume(DE.StrongsAnalysis, DE.Fresh, up.chunks).sent, name)
  {
    DE.StrongsNeverCompletesAsWritten(up);
    ReadWithoutComplete(encode, DE.StrongsStreamAsWritten(up), c, chunks, ctx, toInfo, name);
    if DE.GrowsThroughout(DE.StrongsAnalysis, DE.Fresh, up.chunks) {
      Rebuilt(DE.StrongsSchemaAsWritten, up, name);
    }
  }

  /** With the schema the generator, prompt and client agree on, a stream
      whose upstream finishes completes on the client however it is cut
      into chunks: the document of the `complete` frame is shown, cached
      for seven days under the request's key, and streaming stops. */
  lemma CorrectedStrongsCompletes(encode: DE.Frame -> string, up: DE.Upstream, c: Cache<SC.StrongsInfo>,
                                  chunks: seq<string>, ctx: SC.Context,
                                  toInfo: DE.Payload -> SC.StrongsInfo)
    requires up.failure.None?
    requires OneLine(encode) && Agree(encode, ctx, toInfo)
    requires Concat(chunks) == Wire(encode, DE.StrongsStream(up))
    ensures DE.StrongsStream(up)[|DE.StrongsStream(up)| - 1].Complete?
    ensures Client(c, chunks, ctx).view.parsedData == Some(toInfo(DE.StrongsStream(up)[|DE.StrongsStream(up)| - 1].payload))
    ensures Client(c, chunks, ctx).view.isComplete && !Client(c, chunks, ctx).view.isStreaming
    ensures Client(c, chunks, ctx).view.error.None?
    ensures Client(c, chunks, ctx).cache
            == TrySave(c, ctx.key, toInfo(DE.StrongsStream(up)[|DE.StrongsStream(up)| - 1].payload), ctx.savedAt, DefaultExpiryDays, ctx.stored)
  {
    var frames := DE.StrongsStream(up);
    DE.StrongsCompletes(up);
    var e := DE.Consume(DE.StrongsAnalysis, DE.Fresh, up.chunks);
    StreamShape(DE.StrongsAnalysis, DE.StrongsSchema, up);
    var last := frames[|frames| - 1];
    ReadEndingInComplete(encode, e.frames, last.payload, c, chunks, ctx, toInfo);
  }

  /** With the intended error handling, the as-written Strong's stream
      shows its validation error, naming `LiteralMeaning`, and stops
      streaming. */
  lemma ValidationErrorSurfaces(encode: DE.Frame -> string, up: DE.Upstream, c: Cache<SC.StrongsInfo>,
                                ctx: SC.Context, toInfo: DE.Payload -> SC.StrongsInfo)
    requires up.failure.None?
    requires Agree(encode, ctx, toInfo)
    ensures SC.SurfacingLines(SC.Session(SC.Started, c), WireLines(encode, DE.StrongsStreamAsWritten(up)), ctx).view.error
            == Some(DE.ValidationPrefix + "LiteralMeaning")
    ensures !SC.SurfacingLines(SC.Session(SC.Started, c), WireLines(encode, DE.StrongsStreamAsWritten(up)), ctx).view.isStreaming
  {
    var m := DE.ValidationPrefix + "LiteralMeaning";
    var run := DE.StrongsStreamAsWritten(up);
    var e := DE.Consume(DE.StrongsAnalysis, DE.Fresh, up.chunks);
    DE.StrongsNeverCompletesAsWritten(up);
    StreamShape(DE.StrongsAnalysis, DE.StrongsSchemaAsWritten, up);
    assert run == e.frames + [DE.Error(m)];
    SurfacesError(encode, e.frames, m, c, ctx, toInfo);
  }
}

=== FILE: framing.dfy ===
/** The line framer of the Strong's analysis read loop
    (bible-study-fe-2/src/modals/StrongsAnalysisModal.tsx:184-197): decoded
    chunks are appended to a carried buffer, the buffer is split at line
    feeds, every piece but the last is a complete line, and the last piece is
    carried into the next chunk. Blank lines are skipped and a leading
    `data: ` is stripped. */
module Framing {
  import opened Wrappers
  import opened Text

  /** The text of `lines`, each followed by its line feed. */
  function Terminated(lines: seq<string>): string {
    if lines == [] then "" else lines[0] + "\n" + Terminated(lines[1..])
  }

  predicate NoLineFeed(lines: seq<string>) {
    forall i :: 0 <= i < |lines| ==> '\n' !in lines[i]
  }

  /** All chunks of a transfer, in arrival order, as one text. */
  function Concat(chunks: seq<string>): string {
    if chunks == [] then "" else chunks[0] + Concat(chunks[1..])
  }

  lemma {:induction false} TerminatedAppend(a: seq<string>, b: seq<string>)
    ensures Terminated(a + b) == Terminated(a) + Terminated(b)
    decreases |a|
  {
    if a == [] {
      assert a + b == b;
    } else {
      assert (a + b)[1..] == a[1..] + b;
      TerminatedAppend(a[1..], b);
    }
  }

  lemma {:induction false} ConcatAppend(a: seq<string>, b: seq<string>)
    ensures Concat(a + b) == Concat(a) + Concat(b)
    decreases |a|
  {
    if a == [] {
      assert a + b == b;
    } else {
      assert (a + b)[1..] == a[1..] + b;
      ConcatAppend(a[1..], b);
    }
  }

  /** A split, read as complete lines plus a trailing fragment. */
  lemma {:induction false} JoinIsTerminated(parts: seq<string>)
    requires |parts| >= 1
    ensures Join(parts, '\n') == Terminated(parts[..|parts| - 1]) + parts[|parts| - 1]
    decreases |parts|
  {
    if |parts| > 1 {
      JoinIsTerminated(parts[1..]);
      assert parts[1..][..|parts| - 2] == parts[..|parts| - 1][1..];
    }
  }

  lemma HasLineFeed(l: seq<string>, t: string)
    ensures l != [] ==> '\n' in Terminated(l) + t
  {
    if l != [] {
      assert (Terminated(l) + t)[|l[0]|] == '\n';
    }
  }

  /** A text has only one reading as complete lines plus a fragment without
      a line feed. */
  lemma {:induction false} TerminatedUnique(l1: seq<string>, t1: string, l2: seq<string>, t2: string)
    requires NoLineFeed(l1) && NoLineFeed(l2)
    requires '\n' !in t1 && '\n' !in t2
    requires Terminated(l1) + t1 == Terminated(l2) + t2
    ensures l1 == l2 && t1 == t2
    decreases |l1| + |l2|
  {
    HasLineFeed(l1, t1);
    HasLineFeed(l2, t2);
    if l1 == [] && l2 == [] {
      assert Terminated(l1) + t1 == t1 && Terminated(l2) + t2 == t2;
    } else if l1 == [] {
      assert false;
    } else if l2 == [] {
      assert false;
    } else {
      var s := Terminated(l1) + t1;
      var x := Terminated(l1[1..]) + t1;
      var y := Terminated(l2[1..]) + t2;
      assert s == l1[0] + "\n" + x;
      assert s == l2[0] + "\n" + y;
      FindCharAfter(l1[0], '\n', x);
      FindCharAfter(l2[0], '\n', y);
      assert l1[0] == s[..|l1[0]|] == l2[0];
      assert x == s[|l1[0]| + 1..] == y;
      TerminatedUnique(l1[1..], t1, l2[1..], t2);
      assert l1 == [l1[0]] + l1[1..];
      assert l2 == [l2[0]] + l2[1..];
    }
  }

  /** The complete lines found after one chunk, and the carried fragment. */
  datatype Fed = Fed(lines: seq<string>, buffer: string)

  /** `buffer += chunk; lines = buffer.split("\n"); buffer = lines.pop()`. */
  function Feed(buffer: string, chunk: string): (r: Fed)
    ensures Terminated(r.lines) + r.buffer == buffer + chunk
    ensures '\n' !in r.buffer
    ensures NoLineFeed(r.lines)
  {
    var parts := Split(buffer + chunk, '\n');
    JoinIsTerminated(parts);
    Fed(parts[..|parts| - 1], parts[|parts| - 1])
  }

  /** Feeding every chunk in turn; `lines` collects the complete lines of all
      chunks in order. */
  function FeedAll(buffer: string, chunks: seq<string>): (r: Fed)
    requires '\n' !in buffer
    ensures '\n' !in r.buffer
    ensures NoLineFeed(r.lines)
    decreases |chunks|
  {
    if chunks == [] then Fed([], buffer)
    else
      var f := Feed(buffer, chunks[0]);
      var g := FeedAll(f.buffer, chunks[1..]);
      Fed(f.lines + g.lines, g.buffer)
  }

  /** Nothing is lost or duplicated: the lines with their line feeds, then the
      carried fragment, spell out the buffer followed by every chunk. */
  lemma {:induction false} FeedAllSpellsInput(buffer: string, chunks: seq<string>)
    requires '\n' !in buffer
    ensures Terminated(FeedAll(buffer, chunks).lines) + FeedAll(buffer, chunks).buffer
            == buffer + Concat(chunks)
    decreases |chunks|
  {
    if chunks == [] {
      assert Terminated([]) + buffer == buffer + Concat(chunks);
    } else {
      var f := Feed(buffer, chunks[0]);
      var g := FeedAll(f.buffer, chunks[1..]);
      FeedAllSpellsInput(f.buffer, chunks[1..]);
      TerminatedAppend(f.lines, g.lines);
      Regroup(Terminated(f.lines), f.buffer, Terminated(g.lines), g.buffer,
              buffer, chunks[0], Concat(chunks[1..]));
    }
  }

  lemma Regroup(a: string, b: string, c: string, d: string, x: string, x': string, y: string)
    requires a + b == x + x'
    requires c + d == b + y
    ensures a + c + d == x + (x' + y)
  {
    assert a + c + d == a + (c + d);
    assert a + (b + y) == (a + b) + y;
    assert (x + x') + y == x + (x' + y);
  }

  /** Where the chunk boundaries fall makes no difference: the lines seen and
      the fragment left over are those of the whole transfer read at once. In
      particular the carried buffer is always exactly the text after the last
      line feed received. */
  lemma ChunkingIrrelevant(buffer: string, chunks: seq<string>)
    requires '\n' !in buffer
    ensures FeedAll(buffer, chunks) == Feed(buffer, Concat(chunks))
  {
    var a := FeedAll(buffer, chunks);
    var b := Feed(buffer, Concat(chunks));
    FeedAllSpellsInput(buffer, chunks);
    TerminatedUnique(a.lines, a.buffer, b.lines, b.buffer);
  }

  lemma EndsWithLineFeed(a: string, b: string, text: string)
    requires a + b == text + "\n"
    ensures b != "" ==> '\n' in b
  {
    if b != "" {
      assert b[|b| - 1] == (a + b)[|a + b| - 1];
    }
  }

  /** When the transfer ends with a line feed nothing is left in the buffer;
      otherwise the fragment after the last line feed stays there and is never
      handed to the line handler. */
  lemma NothingLeftAfterLineFeed(buffer: string, chunks: seq<string>, text: string)
    requires '\n' !in buffer
    requires buffer + Concat(chunks) == text + "\n"
    ensures FeedAll(buffer, chunks).buffer == ""
  {
    var f := FeedAll(buffer, chunks);
    FeedAllSpellsInput(buffer, chunks);
    EndsWithLineFeed(Terminated(f.lines), f.buffer, text);
  }

  const DataPrefix: string := "data: "

  /** What the read loop does with one complete line: `None` when it is
      blank (skipped), otherwise the line with one leading `data: ` removed. */
  function Clean(line: string): (r: Option<string>)
    ensures r.None? <==> AllSpace(Js, line)
    ensures r.Some? && DataPrefix <= line ==> line == DataPrefix + r.value
    ensures r.Some? && !(DataPrefix <= line) ==> r.value == line
  {
    if Trim(Js, line) == "" then None
    else if DataPrefix <= line then Some(line[|DataPrefix|..])
    else Some(line)
  }

  /** A server-sent-events line `data: <payload>` yields the payload, and an
      empty line (the second line feed after each frame) is skipped. */
  lemma CleanInvertsFraming(payload: string)
    ensures Clean(DataPrefix + payload) == Some(payload)
    ensures Clean("") == None
  {
    var line := DataPrefix + payload;
    assert line[0] == 'd' && !IsSpace(Js, line[0]);
    assert line[|DataPrefix|..] == payload;
  }
}

=== FILE: highlights.dfy ===
/** The highlight store of the chapter view
    (bible-study-fe-2/src/components/BibleChapter.tsx): per verse, the list
    of highlighted texts, kept in localStorage under one key per chapter;
    plus the view's key formats, the text split that marks a highlight, the
    selection range, the tooltip position and the words with cached
    Strong's analyses. DOM work is not modelled. */
module Highlights {
  import opened Wrappers
  import opened Text
  import opened TtlCache

  /** `HighlightData`: verse id to its highlighted texts, in the order added. */
  type HighlightData = map<string, seq<string>>

  /** The list stored for `verseId`, empty when there is none. */
  function Listed(h: HighlightData, verseId: string): seq<string> {
    if verseId in h then h[verseId] else []
  }

  /** `addHighlight`: append, keeping duplicates. */
  function AddHighlight(h: HighlightData, verseId: string, text: string): (r: HighlightData)
    ensures verseId in r && r[verseId] == Listed(h, verseId) + [text]
    ensures forall v :: v != verseId ==> (v in r <==> v in h) && Listed(r, v) == Listed(h, v)
  {
    h[verseId := Listed(h, verseId) + [text]]
  }

  /** `xs.filter(x => x !== text)`. */
  function Without(xs: seq<string>, text: string): (r: seq<string>)
    ensures text !in r
    ensures forall x :: x != text ==> multiset(r)[x] == multiset(xs)[x]
    ensures text !in xs ==> r == xs
    decreases |xs|
  {
    if xs == [] then []
    else
      var rest := Without(xs[1..], text);
      assert xs == [xs[0]] + xs[1..];
      if xs[0] == text then rest else [xs[0]] + rest
  }

  /** `removeHighlight`: drop every copy of the text; a verse left with
      nothing is deleted; an unknown verse is a no-op. */
  function RemoveHighlight(h: HighlightData, verseId: string, text: string): (r: HighlightData)
    ensures verseId !in h ==> r == h
    ensures text !in Listed(r, verseId)
    ensures verseId in r <==> verseId in h && Without(h[verseId], text) != []
    ensures forall x :: x != text ==> multiset(Listed(r, verseId))[x] == multiset(Listed(h, verseId))[x]
    ensures forall v :: v != verseId ==> (v in r <==> v in h) && Listed(r, v) == Listed(h, v)
  {
    if verseId !in h then h
    else
      var kept := Without(h[verseId], text);
      if kept == [] then h - {verseId} else h[verseId := kept]
  }

  /** No verse is stored with an empty list. */
  predicate NoEmptyLists(h: HighlightData) {
    forall v :: v in h ==> h[v] != []
  }

  /** Adding and removing keep every stored list non-empty. */
  lemma EditsKeepListsNonEmpty(h: HighlightData, verseId: string, text: string)
    requires NoEmptyLists(h)
    ensures NoEmptyLists(AddHighlight(h, verseId, text))
    ensures NoEmptyLists(RemoveHighlight(h, verseId, text))
  {
  }

  /** Adding a text the verse did not have, then removing it, gives back
      the map as it was. */
  lemma AddThenRemoveRestores(h: HighlightData, verseId: string, text: string)
    requires NoEmptyLists(h) && text !in Listed(h, verseId)
    ensures RemoveHighlight(AddHighlight(h, verseId, text), verseId, text) == h
  {
    var l := Listed(h, verseId);
    WithoutAppended(l, text);
    if verseId in h {
      assert h[verseId := l] == h;
    }
  }

  lemma WithoutAppended(xs: seq<string>, text: string)
    requires text !in xs
    ensures Without(xs + [text], text) == xs
    decreases |xs|
  {
    if xs != [] {
      assert (xs + [text])[1..] == xs[1..] + [text];
      WithoutAppended(xs[1..], text);
    }
  }

  // ---------------------------------------------------------------------
  // Keys and persistence.

  /** `bible-highlights-<version>-<book>-<chapter>`. */
  function StorageKey(version: string, book: string, chapter: int): string {
    "bible-highlights-" + version + "-" + book + "-" + IntToString(chapter)
  }

  /** `<verseId>:<text>`. */
  function HighlightKey(verseId: string, text: string): string {
    verseId + ":" + text
  }

  /** Reads a highlight key back: the verse id ends at the first `:`. */
  function ParseHighlightKey(key: string): Option<(string, string)> {
    if ':' in key then
      var i := FindChar(key, ':');
      Some((key[..i], key[i + 1..]))
    else None
  }

  /** Highlight keys identify their verse and text whenever verse ids have
      no `:` (they are `<book>-<chapter>-<verse>`). */
  lemma HighlightKeyRoundTrip(verseId: string, text: string)
    requires ':' !in verseId
    ensures ParseHighlightKey(HighlightKey(verseId, text)) == Some((verseId, text))
  {
    FindCharAfter(verseId, ':', text);
    var k := HighlightKey(verseId, text);
    assert k == verseId + [':'] + text;
    assert k[..|verseId|] == verseId;
    assert k[|verseId| + 1..] == text;
  }

  lemma HighlightKeyInjective(v1: string, t1: string, v2: string, t2: string)
    requires ':' !in v1 && ':' !in v2
    ensures HighlightKey(v1, t1) == HighlightKey(v2, t2) <==> v1 == v2 && t1 == t2
  {
    HighlightKeyRoundTrip(v1, t1);
    HighlightKeyRoundTrip(v2, t2);
  }

  /** The verse id of a selection's first verse. */
  function VerseId(bookId: string, chapterNumber: int, verse: int): string {
    bookId + "-" + IntToString(chapterNumber) + "-" + IntToString(verse)
  }

  /** The sticky note id: the verse id, `-`, and the selected text with
      every whitespace character removed. */
  function NoteId(bookId: string, chapterNumber: int, startVerse: int, text: string): (id: string)
    ensures VerseId(bookId, chapterNumber, startVerse) + "-" <= id
    ensures forall i :: |VerseId(bookId, chapterNumber, startVerse)| + 1 <= i < |id| ==> !IsSpace(Js, id[i])
  {
    VerseId(bookId, chapterNumber, startVerse) + "-" + RemoveSpace(Js, text)
  }

  /** Selections that differ only in whitespace share a note. */
  lemma NoteIdIgnoresSpacing(bookId: string, chapterNumber: int, startVerse: int, a: string, b: string, pad: string)
    requires AllSpace(Js, pad)
    ensures NoteId(bookId, chapterNumber, startVerse, a + pad + b) == NoteId(bookId, chapterNumber, startVerse, a + b)
  {
    RemoveSpaceConcat(Js, a + pad, b);
    RemoveSpaceConcat(Js, a, pad);
    RemoveSpaceConcat(Js, a, b);
    AllSpaceRemoved(Js, pad);
  }

  /** What `localStorage.getItem` and `JSON.parse` make of a chapter's key. */
  datatype Raw = Blank | Unparseable | Parsed(data: HighlightData)

  /** `loadHighlights`: the stored map, or `{}` when nothing usable is
      stored. */
  function LoadHighlights(s: map<string, Raw>, key: string): (h: HighlightData)
    ensures key in s && s[key].Parsed? ==> h == s[key].data
    ensures key !in s || !s[key].Parsed? ==> h == map[]
  {
    if key in s && s[key].Parsed? then s[key].data else map[]
  }

  /** `saveHighlights`: `setItem` writes the chapter's map under its key.
      When `setItem` throws (quota, private mode), the error is caught and
      logged, and localStorage keeps what it had; `stored` says whether
      the write succeeded. */
  function SaveHighlights(s: map<string, Raw>, key: string, h: HighlightData, stored: bool): (r: map<string, Raw>)
    ensures stored ==> key in r && r[key] == Parsed(h)
    ensures forall k :: k != key ==> (k in r <==> k in s)
    ensures forall k :: k != key && k in s ==> r[k] == s[k]
    ensures !stored ==> r == s
  {
    if stored then s[key := Parsed(h)] else s
  }

  /** A successful save loads back; a failed one leaves the chapter as it
      loaded before; other chapters' keys are never disturbed. */
  lemma SaveThenLoad(s: map<string, Raw>, key: string, h: HighlightData, stored: bool, other: string)
    requires other != key
    ensures stored ==> LoadHighlights(SaveHighlights(s, key, h, stored), key) == h
    ensures !stored ==> LoadHighlights(SaveHighlights(s, key, h, stored), key) == LoadHighlights(s, key)
    ensures LoadHighlights(SaveHighlights(s, key, h, stored), other) == LoadHighlights(s, other)
  {
  }

  // ---------------------------------------------------------------------
  // Marking a highlight in a text node.

  /** The split of `highlightTextInElement`: the text before the first
      occurrence of the target and the text after it, or `None` when the
      target does not occur. */
  function SplitFirst(text: string, target: string): (r: Option<(string, string)>)
    ensures r.Some? ==> r.value.0 + target + r.value.1 == text
    ensures r.Some? ==> forall j :: 0 <= j < |r.value.0| ==> !OccursAt(text, target, j)
    ensures r.None? <==> !Contains(text, target)
  {
    match IndexOf(text, target)
    case None => None
    case Some(i) =>
      assert text == text[..i] + text[i..i + |target|] + text[i + |target|..];
      Some((text[..i], text[i + |target|..]))
  }

  /** A target that occurs is found at its first occurrence. */
  lemma SplitFindsFirst(before: string, target: string, after: string)
    requires forall j :: 0 <= j < |before| ==> !OccursAt(before + target + after, target, j)
    ensures SplitFirst(before + target + after, target) == Some((before, after))
  {
    var text := before + target + after;
    assert OccursAt(text, target, |before|) by {
      assert text[|before|..|before| + |target|] == target;
    }
    var i := IndexOf(text, target).value;
    assert i == |before|;
    assert text[..i] == before;
    assert text[i + |target|..] == after;
  }

  // ---------------------------------------------------------------------
  // Selection and tooltip.

  datatype Range = Range(startVerse: int, endVerse: int)

  /** The selected range, whichever way the selection was dragged. */
  function NormalizeRange(start: int, end: int): (r: Range)
    ensures r.startVerse <= r.endVerse
    ensures (r.startVerse == start && r.endVerse == end) || (r.startVerse == end && r.endVerse == start)
  {
    Range(if start <= end then start else end, if start <= end then end else start)
  }

  lemma NormalizeSymmetric(start: int, end: int)
    ensures NormalizeRange(start, end) == NormalizeRange(end, start)
  {
  }

  const TooltipWidth: real := 280.0
  const Padding: real := 16.0

  function MinX(): real {
    TooltipWidth / 2.0 + Padding
  }

  function MaxX(viewportWidth: real): real {
    viewportWidth - TooltipWidth / 2.0 - Padding
  }

  /** `Math.min(Math.max(x, minX), maxX)`. */
  function Clamp(x: real, lo: real, hi: real): (r: real)
    ensures lo <= hi ==> lo <= r <= hi
    ensures lo <= x <= hi ==> r == x
    ensures hi < lo ==> r == hi
  {
    var y := if x >= lo then x else lo;
    if y <= hi then y else hi
  }

  /** On a viewport at least 312 wide the tooltip's centre stays 156 from
      both edges; on a narrower one it is pinned to `maxX`. */
  lemma TooltipInside(x: real, viewportWidth: real)
    ensures viewportWidth >= 312.0 ==>
              156.0 <= Clamp(x, MinX(), MaxX(viewportWidth)) <= viewportWidth - 156.0
    ensures viewportWidth < 312.0 ==> Clamp(x, MinX(), MaxX(viewportWidth)) == viewportWidth - 156.0
  {
  }

  lemma ClampIdempotent(x: real, lo: real, hi: real)
    ensures Clamp(Clamp(x, lo, hi), lo, hi) == Clamp(x, lo, hi)
  {
  }

  // ---------------------------------------------------------------------
  // `getStrongsWordsForVerse`.

  /** JavaScript's `\w`: ASCII letters, digits and `_`. */
  predicate IsWordChar(c: char) {
    'a' <= c <= 'z' || 'A' <= c <= 'Z' || '0' <= c <= '9' || c == '_'
  }

  predicate IsLetter(c: char) {
    'a' <= c <= 'z' || 'A' <= c <= 'Z'
  }

  predicate AllWordChars(w: string) {
    forall i :: 0 <= i < |w| ==> IsWordChar(w[i])
  }

  predicate AllLetters(w: string) {
    forall i :: 0 <= i < |w| ==> IsLetter(w[i])
  }

  /** Length of the run of word characters `s` starts with. */
  function LeadingRun(s: string): (k: nat)
    ensures k <= |s|
    ensures forall i :: 0 <= i < k ==> IsWordChar(s[i])
    ensures k < |s| ==> !IsWordChar(s[k])
  {
    if s != [] && IsWordChar(s[0]) then 1 + LeadingRun(s[1..]) else 0
  }

  /** The maximal runs of word characters, in order. */
  function Runs(s: string): (r: seq<string>)
    ensures forall i :: 0 <= i < |r| ==> r[i] != [] && AllWordChars(r[i])
    decreases |s|
  {
    if s == [] then []
    else if !IsWordChar(s[0]) then Runs(s[1..])
    else
      var k := LeadingRun(s);
      [s[..k]] + Runs(s[k..])
  }

  /** The matches of `/\b[a-zA-Z]+\b/g`: word boundaries on both sides make
      a match exactly a maximal word run made of letters only. The matches
      come in text order, each as often as it occurs. */
  function LetterWords(runs: seq<string>): (r: seq<string>)
    requires forall i :: 0 <= i < |runs| ==> runs[i] != []
    ensures forall i :: 0 <= i < |r| ==> r[i] != [] && AllLetters(r[i]) && r[i] in runs
    ensures forall w :: w in runs && AllLetters(w) ==> w in r
    ensures Subsequence(r, runs)
    ensures forall x :: AllLetters(x) ==> multiset(r)[x] == multiset(runs)[x]
    decreases |runs|
  {
    if runs == [] then []
    else
      var rest := LetterWords(runs[1..]);
      LetterStep(runs, rest);
      if AllLetters(runs[0]) then [runs[0]] + rest else rest
  }

  /** What `LetterWords` promises, bundled for its inductive step. */
  ghost predicate LettersFrom(r: seq<string>, runs: seq<string>) {
    (forall i :: 0 <= i < |r| ==> r[i] != [] && AllLetters(r[i]) && r[i] in runs)
    && (forall w :: w in runs && AllLetters(w) ==> w in r)
    && Subsequence(r, runs)
    && (forall x :: AllLetters(x) ==> multiset(r)[x] == multiset(runs)[x])
  }

  lemma LetterStep(runs: seq<string>, rest: seq<string>)
    requires runs != [] && runs[0] != []
    requires LettersFrom(rest, runs[1..])
    ensures LettersFrom(if AllLetters(runs[0]) then [runs[0]] + rest else rest, runs)
  {
    assert runs == [runs[0]] + runs[1..];
    assert multiset(runs) == multiset{runs[0]} + multiset(runs[1..]);
    if AllLetters(runs[0]) {
      assert multiset([runs[0]] + rest) == multiset{runs[0]} + multiset(rest);
      SubsequenceCons(runs[0], rest, runs[1..]);
    } else {
      SubsequenceSkip(runs[0], rest, runs[1..]);
    }
  }

  /** Runs made only of letters are all matches, in order. */
  lemma {:induction false} LetterWordsOfLetters(runs: seq<string>)
    requires forall i :: 0 <= i < |runs| ==> runs[i] != [] && AllLetters(runs[i])
    ensures LetterWords(runs) == runs
    decreases |runs|
  {
    if runs != [] {
      LetterWordsOfLetters(runs[1..]);
    }
  }

  lemma LeadingRunOf(w: string, t: string)
    requires AllWordChars(w)
    requires t == [] || !IsWordChar(t[0])
    ensures LeadingRun(w + t) == |w|
    decreases |w|
  {
    if w != [] {
      assert (w + t)[1..] == w[1..] + t;
      LeadingRunOf(w[1..], t);
    } else {
      assert w + t == t;
    }
  }

  /** A run stops at the first character that cannot be in a word. */
  lemma {:induction false} LeadingRunStops(a: string, c: char, b: string)
    requires !IsWordChar(c)
    ensures LeadingRun(a + [c] + b) == LeadingRun(a)
    decreases |a|
  {
    if a == [] {
      assert a + [c] + b == [c] + b;
    } else {
      assert (a + [c] + b)[1..] == a[1..] + [c] + b;
      if IsWordChar(a[0]) {
        LeadingRunStops(a[1..], c, b);
      }
    }
  }

  /** A character that cannot be in a word splits the runs: those of the
      text before it, then those of the text after it. */
  lemma {:induction false} RunsSplitAt(a: string, c: char, b: string)
    requires !IsWordChar(c)
    ensures Runs(a + [c] + b) == Runs(a) + Runs(b)
    decreases |a|
  {
    var s := a + [c] + b;
    if a == [] {
      assert s == [c] + b && s[1..] == b;
    } else if !IsWordChar(a[0]) {
      assert s[1..] == a[1..] + [c] + b;
      RunsSplitAt(a[1..], c, b);
    } else {
      LeadingRunStops(a, c, b);
      var k := LeadingRun(a);
      assert s[..k] == a[..k];
      assert s[k..] == a[k..] + [c] + b;
      RunsSplitAt(a[k..], c, b);
      assert Runs(a) == [a[..k]] + Runs(a[k..]);
    }
  }

  /** A non-empty text of word characters is one run, itself. */
  lemma RunsOfWord(w: string)
    requires w != [] && AllWordChars(w)
    ensures Runs(w) == [w]
  {
    LeadingRunOf(w, []);
    assert w + [] == w;
    assert w[..|w|] == w && w[|w|..] == [];
  }

  /** A text without word characters has no runs. */
  lemma {:induction false} RunsOfGap(s: string)
    requires forall i :: 0 <= i < |s| ==> !IsWordChar(s[i])
    ensures Runs(s) == []
    decreases |s|
  {
    if s != [] {
      RunsOfGap(s[1..]);
    }
  }

  /** Words separated by single spaces are found again as the runs. */
  lemma {:induction false} RunsOfSpacedWords(ws: seq<string>)
    requires forall i :: 0 <= i < |ws| ==> ws[i] != [] && AllWordChars(ws[i])
    ensures Runs(Join(ws, ' ')) == ws
    decreases |ws|
  {
    if |ws| == 1 {
      LeadingRunOf(ws[0], []);
      assert ws[0] + [] == ws[0];
      assert ws[0][|ws[0]|..] == [];
    } else if |ws| > 1 {
      var t := Join(ws[1..], ' ');
      var s := ws[0] + ([' '] + t);
      assert Join(ws, ' ') == s;
      LeadingRunOf(ws[0], [' '] + t);
      assert s[..|ws[0]|] == ws[0];
      assert s[|ws[0]|..] == [' '] + t;
      assert ([' '] + t)[1..] == t;
      RunsOfSpacedWords(ws[1..]);
      assert ws == [ws[0]] + ws[1..];
    }
  }

  /** A verse's content: plain text, or a line break, footnote or other
      object, which contributes no words here. */
  datatype Item = Str(text: string) | Other

  /** The letter words of the plain-text items, in order. */
  function VerseWords(items: seq<Item>): (r: seq<string>)
    ensures forall i :: 0 <= i < |r| ==> r[i] != [] && AllLetters(r[i])
    decreases |items|
  {
    if items == [] then []
    else
      match items[0]
      case Str(t) => LetterWords(Runs(t)) + VerseWords(items[1..])
      case Other => VerseWords(items[1..])
  }

  /** Content read in two parts gives the words of the first part, then
      those of the second: the loop visits the items in order. */
  lemma {:induction false} VerseWordsAppend(a: seq<Item>, b: seq<Item>)
    ensures VerseWords(a + b) == VerseWords(a) + VerseWords(b)
    decreases |a|
  {
    if a == [] {
      assert a + b == b;
    } else {
      assert (a + b)[0] == a[0] && (a + b)[1..] == a[1..] + b;
      VerseWordsAppend(a[1..], b);
    }
  }

  /** One string item gives exactly its regex matches; any other item
      gives none. */
  lemma VerseWordsOfItem(t: string)
    ensures VerseWords([Str(t)]) == LetterWords(Runs(t))
    ensures VerseWords([Other]) == []
  {
    assert [Str(t)][1..] == [] && [Other][1..] == [];
  }

  /** Letter words separated by single spaces are the verse's words, in
      order and with their repeats. */
  lemma SpacedLetterWords(ws: seq<string>)
    requires forall i :: 0 <= i < |ws| ==> ws[i] != [] && AllLetters(ws[i])
    ensures VerseWords([Str(Join(ws, ' '))]) == ws
  {
    forall i | 0 <= i < |ws|
      ensures AllWordChars(ws[i])
    {
      assert forall j :: 0 <= j < |ws[i]| ==> IsLetter(ws[i][j]);
    }
    RunsOfSpacedWords(ws);
    LetterWordsOfLetters(ws);
    VerseWordsOfItem(Join(ws, ' '));
  }

  /** `hasStrongsData`: some value is stored under the bare-cache key. */
  predicate HasStrongsData(keys: set<string>, book: string, chapter: int, verse: int, word: string) {
    KeyPrefix(book, chapter, verse) + Lower(word) in keys
  }

  function WithData(words: seq<string>, keys: set<string>, book: string, chapter: int, verse: int): (r: seq<string>)
    ensures forall w :: w in r <==> w in words && HasStrongsData(keys, book, chapter, verse, w)
    decreases |words|
  {
    if words == [] then []
    else
      var rest := WithData(words[1..], keys, book, chapter, verse);
      assert words == [words[0]] + words[1..];
      if HasStrongsData(keys, book, chapter, verse, words[0]) then [words[0]] + rest else rest
  }

  /** `getStrongsWordsForVerse`: the distinct lower-cased words of the verse
      that have a cached analysis, in the order in which each first occurs
      in the verse (`new Set` keeps first occurrences). `keys` are the keys
      present in localStorage. */
  function StrongsWordsForVerse(keys: set<string>, book: string, chapter: int, verse: int, items: seq<Item>): (r: seq<string>)
    ensures forall i, j :: 0 <= i < j < |r| ==> r[i] != r[j]
    ensures forall i :: 0 <= i < |r| ==> Lower(r[i]) == r[i]
    ensures forall i :: 0 <= i < |r| ==> KeyPrefix(book, chapter, verse) + r[i] in keys
    ensures forall w :: w in VerseWords(items) && HasStrongsData(keys, book, chapter, verse, w) ==> Lower(w) in r
    ensures forall x :: x in r ==> exists w :: w in VerseWords(items) && HasStrongsData(keys, book, chapter, verse, w) && x == Lower(w)
    ensures InFirstOccurrenceOrder(r, LowerAll(VerseWords(items)))
  {
    var found := WithData(VerseWords(items), keys, book, chapter, verse);
    LoweredWithData(found, keys, book, chapter, verse);
    var r := Dedupe(LowerAll(found));
    DedupedOrder(VerseWords(items), keys, book, chapter, verse, r);
    r
  }

  /** The kept words without repeats follow the order in which they first
      occur in the whole verse. */
  lemma DedupedOrder(words: seq<string>, keys: set<string>, book: string, chapter: int, verse: int, r: seq<string>)
    requires r == Dedupe(LowerAll(WithData(words, keys, book, chapter, verse)))
    ensures InFirstOccurrenceOrder(r, LowerAll(words))
  {
    forall i | 0 <= i < |r|
      ensures r[i] in LowerAll(words)
    {
      LoweredMember(words, keys, book, chapter, verse, r[i]);
    }
    forall i, j | 0 <= i < j < |r|
      ensures FirstIndex(LowerAll(words), r[i]) < FirstIndex(LowerAll(words), r[j])
    {
      WithDataOrder(words, keys, book, chapter, verse, r[i], r[j]);
    }
  }

  /** Keeping only the words with data preserves the order of first
      occurrences, lower-cased: two kept words first occur in the whole
      verse in the order they first occur among the kept ones. */
  lemma {:induction false} WithDataOrder(words: seq<string>, keys: set<string>, book: string, chapter: int, verse: int,
                                         a: string, b: string)
    requires a in LowerAll(WithData(words, keys, book, chapter, verse))
    requires b in LowerAll(WithData(words, keys, book, chapter, verse))
    requires FirstIndex(LowerAll(WithData(words, keys, book, chapter, verse)), a)
             < FirstIndex(LowerAll(WithData(words, keys, book, chapter, verse)), b)
    ensures a in LowerAll(words) && b in LowerAll(words)
    ensures FirstIndex(LowerAll(words), a) < FirstIndex(LowerAll(words), b)
    decreases |words|, 2
  {
    if HasStrongsData(keys, book, chapter, verse, words[0]) {
      KeptOrder(words, keys, book, chapter, verse, a, b);
    } else {
      DroppedOrder(words, keys, book, chapter, verse, a, b);
    }
  }

  /** The first word has data: it heads both lists. */
  lemma {:induction false} KeptOrder(words: seq<string>, keys: set<string>, book: string, chapter: int, verse: int,
                                     a: string, b: string)
    requires words != [] && HasStrongsData(keys, book, chapter, verse, words[0])
    requires a in LowerAll(WithData(words, keys, book, chapter, verse))
    requires b in LowerAll(WithData(words, keys, book, chapter, verse))
    requires FirstIndex(LowerAll(WithData(words, keys, book, chapter, verse)), a)
             < FirstIndex(LowerAll(WithData(words, keys, book, chapter, verse)), b)
    ensures a in LowerAll(words) && b in LowerAll(words)
    ensures FirstIndex(LowerAll(words), a) < FirstIndex(LowerAll(words), b)
    decreases |words|, 1
  {
    var rest, h := words[1..], Lower(words[0]);
    var small' := LowerAll(WithData(rest, keys, book, chapter, verse));
    LowerAllCons(words);
    LoweredWithDataCons(words, keys, book, chapter, verse);
    FirstIndexTail(LowerAll(WithData(words, keys, book, chapter, verse)), h, small', a, b);
    if a == h {
      LoweredMember(rest, keys, book, chapter, verse, b);
      FirstIndexHeadFirst(LowerAll(words), h, LowerAll(rest), b);
    } else {
      KeptLaterOrder(words, keys, book, chapter, verse, a, b);
    }
  }

  /** Neither word is the first one, which has data: the order carries
      over from the rest of the verse. */
  lemma {:induction false} KeptLaterOrder(words: seq<string>, keys: set<string>, book: string, chapter: int, verse: int,
                                          a: string, b: string)
    requires words != [] && a != Lower(words[0]) && b != Lower(words[0])
    requires a in LowerAll(WithData(words[1..], keys, book, chapter, verse))
    requires b in LowerAll(WithData(words[1..], keys, book, chapter, verse))
    requires FirstIndex(LowerAll(WithData(words[1..], keys, book, chapter, verse)), a)
             < FirstIndex(LowerAll(WithData(words[1..], keys, book, chapter, verse)), b)
    ensures a in LowerAll(words) && b in LowerAll(words)
    ensures FirstIndex(LowerAll(words), a) < FirstIndex(LowerAll(words), b)
    decreases |words|, 0
  {
    LowerAllCons(words);
    WithDataOrder(words[1..], keys, book, chapter, verse, a, b);
    FirstIndexLift(LowerAll(words), Lower(words[0]), LowerAll(words[1..]), a, b);
  }


  /** The first word has no data: it heads only the whole verse, and
      neither kept word is it. */
  lemma {:induction false} DroppedOrder(words: seq<string>, keys: set<string>, book: string, chapter: int, verse: int,
                                        a: string, b: string)
    requires words != [] && !HasStrongsData(keys, book, chapter, verse, words[0])
    requires a in LowerAll(WithData(words, keys, book, chapter, verse))
    requires b in LowerAll(WithData(words, keys, book, chapter, verse))
    requires FirstIndex(LowerAll(WithData(words, keys, book, chapter, verse)), a)
             < FirstIndex(LowerAll(WithData(words, keys, book, chapter, verse)), b)
    ensures a in LowerAll(words) && b in LowerAll(words)
    ensures FirstIndex(LowerAll(words), a) < FirstIndex(LowerAll(words), b)
    decreases |words|, 0
  {
    var rest, h := words[1..], Lower(words[0]);
    LowerAllCons(words);
    LoweredWithDataCons(words, keys, book, chapter, verse);
    DroppedWordAbsent(words, keys, book, chapter, verse, a);
    DroppedWordAbsent(words, keys, book, chapter, verse, b);
    WithDataOrder(rest, keys, book, chapter, verse, a, b);
    FirstIndexLift(LowerAll(words), h, LowerAll(rest), a, b);
  }

  /** The kept words, lower-cased, one word at a time. */
  lemma LoweredWithDataCons(words: seq<string>, keys: set<string>, book: string, chapter: int, verse: int)
    requires words != []
    ensures HasStrongsData(keys, book, chapter, verse, words[0]) ==>
              LowerAll(WithData(words, keys, book, chapter, verse))
              == [Lower(words[0])] + LowerAll(WithData(words[1..], keys, book, chapter, verse))
    ensures !HasStrongsData(keys, book, chapter, verse, words[0]) ==>
              LowerAll(WithData(words, keys, book, chapter, verse))
              == LowerAll(WithData(words[1..], keys, book, chapter, verse))
  {
    var rest := WithData(words[1..], keys, book, chapter, verse);
    if HasStrongsData(keys, book, chapter, verse, words[0]) {
      LowerAllCons([words[0]] + rest);
      assert ([words[0]] + rest)[1..] == rest;
    }
  }

  /** A word without data is not among the kept words, lower-cased. */
  lemma DroppedWordAbsent(words: seq<string>, keys: set<string>, book: string, chapter: int, verse: int, x: string)
    requires words != [] && !HasStrongsData(keys, book, chapter, verse, words[0])
    requires x in LowerAll(WithData(words, keys, book, chapter, verse))
    ensures x != Lower(words[0])
  {
    LoweredWithData(WithData(words, keys, book, chapter, verse), keys, book, chapter, verse);
  }

  /** Every kept word, lower-cased, is a lower-cased word of the verse. */
  lemma LoweredMember(words: seq<string>, keys: set<string>, book: string, chapter: int, verse: int, x: string)
    requires x in LowerAll(WithData(words, keys, book, chapter, verse))
    ensures x in LowerAll(words)
  {
    var f := WithData(words, keys, book, chapter, verse);
    LoweredWithData(f, keys, book, chapter, verse);
    var w :| w in f && x == Lower(w);
    var i :| 0 <= i < |words| && words[i] == w;
    assert LowerAll(words)[i] == x;
  }

  lemma LoweredWithData(found: seq<string>, keys: set<string>, book: string, chapter: int, verse: int)
    requires forall w :: w in found ==> HasStrongsData(keys, book, chapter, verse, w)
    ensures forall x :: x in LowerAll(found) ==> Lower(x) == x && KeyPrefix(book, chapter, verse) + x in keys
    ensures forall w :: w in found ==> Lower(w) in LowerAll(found)
    ensures forall x :: x in LowerAll(found) ==> exists w :: w in found && x == Lower(w)
  {
    var lowered := LowerAll(found);
    forall x | x in lowered ensures exists w :: w in found && x == Lower(w) {
      var i :| 0 <= i < |found| && lowered[i] == x;
      assert found[i] in found;
    }
    forall x | x in lowered ensures Lower(x) == x && KeyPrefix(book, chapter, verse) + x in keys {
      var w :| w in found && x == Lower(w);
      LowerIdempotent(w);
    }
    forall w | w in found ensures Lower(w) in lowered {
      var i :| 0 <= i < |found| && found[i] == w;
      assert lowered[i] == Lower(w);
    }
  }
}

=== FILE: read_header.dfy ===
/** The book and chapter picker (bible-study-fe-2/src/components/ReadHeader.tsx):
    the search filter over the books of the selected translation, the
    chapter grid, the modal's two steps, and when the parent is told about
    the selection. The book list request and the rendering are not
    modelled; the list is an input. */
module ReadHeader {
  import opened Wrappers
  import opened Text

  /** The fields of a `TranslationBook` the picker uses. */
  datatype Book = Book(id: string, name: string, numberOfChapters: int)

  datatype Step = BookStep | ChapterStep

  datatype Header = Header(
    version: Option<string>,
    books: seq<Book>,
    selectedBook: string,
    selectedChapter: int,
    isModalOpen: bool,
    step: Step,
    searchTerm: string)

  /** The picker as first mounted: BSB selected, no books yet. */
  const Initial: Header := Header(Some("BSB"), [], "", 1, false, BookStep, "")

  /** `books.find(b => b.name === name)`, as an index. */
  function FindBook(books: seq<Book>, name: string): (r: Option<nat>)
    ensures r.Some? ==> r.value < |books| && books[r.value].name == name
    ensures r.Some? ==> forall j :: 0 <= j < r.value ==> books[j].name != name
    ensures r.None? <==> forall j :: 0 <= j < |books| ==> books[j].name != name
    decreases |books|
  {
    if books == [] then None
    else if books[0].name == name then Some(0)
    else match FindBook(books[1..], name)
      case None => None
      case Some(i) => Some(i + 1)
  }

  /** The search test: the lower-cased name contains the lower-cased term. */
  predicate Matches(b: Book, term: string) {
    Contains(Lower(b.name), Lower(term))
  }

  /** `filteredBooks`. */
  function FilteredBooks(books: seq<Book>, term: string): (r: seq<Book>)
    ensures Subsequence(r, books)
    ensures forall b :: b in r <==> b in books && Matches(b, term)
    decreases |books|
  {
    if books == [] then []
    else
      var rest := FilteredBooks(books[1..], term);
      assert books == [books[0]] + books[1..];
      if Matches(books[0], term) then [books[0]] + rest else rest
  }

  /** The empty search keeps every book. */
  lemma {:induction false} EmptySearchKeepsAll(books: seq<Book>)
    ensures FilteredBooks(books, "") == books
    decreases |books|
  {
    if books != [] {
      assert OccursAt(Lower(books[0].name), Lower(""), 0);
      ContainsWhenOccurs(Lower(books[0].name), Lower(""), 0);
      EmptySearchKeepsAll(books[1..]);
    }
  }

  /** Searching is case-blind. */
  lemma SearchIgnoresCase(books: seq<Book>, term: string)
    ensures FilteredBooks(books, Lower(term)) == FilteredBooks(books, term)
    decreases |books|
  {
    LowerIdempotent(term);
    if books != [] {
      SearchIgnoresCase(books[1..], term);
    }
  }

  /** `generateChapterGrid`: 1 to the chapter count of the selected book, or
      nothing when the selected name is not a listed book. A negative count
      gives no chapters, as `Array.from` does. */
  function ChapterGrid(h: Header): (r: seq<int>)
    ensures FindBook(h.books, h.selectedBook).None? ==> r == []
    ensures FindBook(h.books, h.selectedBook).Some? ==>
              var n := h.books[FindBook(h.books, h.selectedBook).value].numberOfChapters;
              (forall c :: c in r <==> 1 <= c <= n)
              && (forall i :: 0 <= i < |r| ==> r[i] == i + 1)
  {
    match FindBook(h.books, h.selectedBook)
    case None => []
    case Some(i) =>
      OneTo(h.books[i].numberOfChapters)
  }

  /** `Array.from({ length: n }, (_, i) => i + 1)`. */
  function OneTo(n: int): (r: seq<int>)
    ensures |r| == if n < 0 then 0 else n
    ensures forall c :: c in r <==> 1 <= c <= n
    ensures forall i :: 0 <= i < |r| ==> r[i] == i + 1
    decreases n
  {
    if n <= 0 then [] else OneTo(n - 1) + [n]
  }

  /** The books request answered: the list is stored and, when it is not
      empty, its first book and chapter 1 are selected. On an empty list
      `books[0].name` throws after the list was stored, and the exception
      is caught. */
  function LoadBooks(h: Header, books: seq<Book>): (r: Header)
    ensures r.books == books
    ensures books != [] ==> r.selectedBook == books[0].name && r.selectedChapter == 1
    ensures books == [] ==> r == h.(books := [])
    ensures r.version == h.version && r.isModalOpen == h.isModalOpen && r.step == h.step && r.searchTerm == h.searchTerm
  {
    if books == [] then h.(books := [])
    else h.(books := books, selectedBook := books[0].name, selectedChapter := 1)
  }

  /** `handleBookSelect`. */
  function SelectBook(h: Header, name: string): (r: Header)
    ensures r.selectedBook == name && r.selectedChapter == 1
    ensures r.step == ChapterStep && r.searchTerm == ""
    ensures r.isModalOpen == h.isModalOpen && r.books == h.books && r.version == h.version
  {
    h.(selectedBook := name, selectedChapter := 1, step := ChapterStep, searchTerm := "")
  }

  /** `handleChapterSelect`. */
  function SelectChapter(h: Header, chapter: int): (r: Header)
    ensures r.selectedChapter == chapter && !r.isModalOpen && r.step == BookStep
    ensures r.selectedBook == h.selectedBook && r.searchTerm == h.searchTerm
    ensures r.books == h.books && r.version == h.version
  {
    h.(selectedChapter := chapter, isModalOpen := false, step := BookStep)
  }

  /** `closeModal`. */
  function CloseModal(h: Header): (r: Header)
    ensures !r.isModalOpen && r.step == BookStep && r.searchTerm == ""
    ensures r.books == h.books && r.version == h.version
    ensures r.selectedBook == h.selectedBook && r.selectedChapter == h.selectedChapter
  {
    h.(isModalOpen := false, step := BookStep, searchTerm := "")
  }

  /** `goBackToBooks`. */
  function BackToBooks(h: Header): (r: Header)
    ensures r.step == BookStep && r.searchTerm == "" && r.isModalOpen == h.isModalOpen
    ensures r.books == h.books && r.version == h.version
    ensures r.selectedBook == h.selectedBook && r.selectedChapter == h.selectedChapter
  {
    h.(step := BookStep, searchTerm := "")
  }

  /** Closing differs from going back only in closing the modal. */
  lemma CloseIsBackAndShut(h: Header)
    ensures CloseModal(h) == BackToBooks(h).(isModalOpen := false)
    ensures BackToBooks(h).selectedBook == h.selectedBook && BackToBooks(h).selectedChapter == h.selectedChapter
  {
  }

  /** The selection effect: the parent is called with the book's id, the
      chapter and the version exactly when a callback is given, a version
      is set, a book name is selected and it names a listed book. */
  function Notify(h: Header, hasCallback: bool): (r: Option<(string, int, string)>)
    ensures r.Some? <==>
              hasCallback && h.version.Some? && h.selectedBook != ""
              && exists j :: 0 <= j < |h.books| && h.books[j].name == h.selectedBook
    ensures r.Some? ==>
              exists j :: 0 <= j < |h.books| && h.books[j].name == h.selectedBook
                          && r.value == (h.books[j].id, h.selectedChapter, h.version.value)
  {
    if !hasCallback || h.version.None? || h.selectedBook == "" then None
    else match FindBook(h.books, h.selectedBook)
      case None => None
      case Some(i) => Some((h.books[i].id, h.selectedChapter, h.version.value))
  }

  /** Picking a listed book and then one of its chapters reports that
      book's id (its first listing, should names repeat), the chapter and
      the version, and leaves the modal closed on the book step. */
  lemma PickReported(h: Header, i: nat, chapter: int)
    requires h.version.Some? && i < |h.books| && h.books[i].name != ""
    requires forall j :: 0 <= j < i ==> h.books[j].name != h.books[i].name
    ensures var r := SelectChapter(SelectBook(h, h.books[i].name), chapter);
            Notify(r, true) == Some((h.books[i].id, chapter, h.version.value))
            && !r.isModalOpen && r.step == BookStep && r.searchTerm == ""
  {
    var r := SelectChapter(SelectBook(h, h.books[i].name), chapter);
    assert r.books[i].name == r.selectedBook;
  }

  /** Once the list arrives the parent hears of its first book, chapter 1. */
  lemma FirstBookReported(books: seq<Book>)
    requires books != [] && books[0].name != ""
    ensures Notify(LoadBooks(Initial, books), true) == Some((books[0].id, 1, "BSB"))
  {
  }

  /** The grid of a picked book lists its chapters. */
  lemma PickedBookGrid(h: Header, i: nat)
    requires i < |h.books| && forall j :: 0 <= j < i ==> h.books[j].name != h.books[i].name
    ensures forall c :: c in ChapterGrid(SelectBook(h, h.books[i].name)) <==> 1 <= c <= h.books[i].numberOfChapters
  {
    var r := SelectBook(h, h.books[i].name);
    assert r.books[i].name == r.selectedBook;
  }
}

=== FILE: sections.dfy ===
/** The marker-based section parsers of the back end
    (bible-study-be-2/services/bible_service.py:180-215 and 391-417). Each
    section is introduced by an opening marker such as `[KEY_INSIGHTS]` and
    runs to the earliest of its terminators, or to the end of the text while
    the model is still writing it. Markers are matched ignoring ASCII case;
    the captured text is stripped of Python whitespace. */
module Sections {
  import opened Wrappers
  import opened Text

  /** A section's name, opening marker and terminators, as in the source's
      regular expressions (a terminator such as `[KEY_INSIGHTS` without its
      closing bracket is written that way there). */
  datatype Pattern = Pattern(name: string, open: string, terms: seq<string>)

  /** A parsed section. */
  datatype Found = Found(name: string, content: string)

  const ChapterPatterns: seq<Pattern> := [
    Pattern("MainHeading", "[MAIN_HEADING]", ["[/MAIN_HEADING]"]),
    Pattern("TimelineInfo", "[TIMELINE_INFO]", ["[/TIMELINE_INFO]"]),
    Pattern("CulturalContext", "[CULTURAL_CONTEXT]",
            ["[WHAT_MIGHT_SEEM_STRANGE", "[KEY_INSIGHTS", "[WHY_THIS_MATTERS_TODAY", "[/CULTURAL_CONTEXT]"]),
    Pattern("WhatMightSeemStrange", "[WHAT_MIGHT_SEEM_STRANGE]",
            ["[KEY_INSIGHTS", "[WHY_THIS_MATTERS_TODAY", "[/WHAT_MIGHT_SEEM_STRANGE]"]),
    Pattern("KeyInsights", "[KEY_INSIGHTS]", ["[WHY_THIS_MATTERS_TODAY", "[/KEY_INSIGHTS]"]),
    Pattern("WhyThisMattersToday", "[WHY_THIS_MATTERS_TODAY]", ["[/WHY_THIS_MATTERS_TODAY]"])
  ]

  const StrongsPatterns: seq<Pattern> := [
    Pattern("WordHeader", "[WORD_HEADER]", ["[/WORD_HEADER]"]),
    Pattern("LanguageInfo", "[LANGUAGE_INFO]", ["[/LANGUAGE_INFO]"]),
    Pattern("OriginalText", "[ORIGINAL_TEXT]", ["[/ORIGINAL_TEXT]"]),
    Pattern("Pronunciation", "[PRONUNCIATION]", ["[/PRONUNCIATION]"]),
    Pattern("RootMeanings", "[ROOT_MEANINGS]",
            ["[CONTEXTUAL_MEANING", "[OTHER_USES", "[CULTURAL_SIGNIFICANCE", "[/ROOT_MEANINGS]"]),
    Pattern("ContextualMeaning", "[CONTEXTUAL_MEANING]",
            ["[OTHER_USES", "[CULTURAL_SIGNIFICANCE", "[/CONTEXTUAL_MEANING]"]),
    Pattern("OtherUses", "[OTHER_USES]", ["[CULTURAL_SIGNIFICANCE", "[/OTHER_USES]"]),
    Pattern("CulturalSignificance", "[CULTURAL_SIGNIFICANCE]", ["[/CULTURAL_SIGNIFICANCE]"])
  ]

  /** Where the section's text ends: the earliest terminator at or after
      `start`, or the end of the text. */
  function SectionEnd(text: string, p: Pattern, start: nat): (k: nat)
    requires start <= |text|
    ensures start <= k <= |text|
  {
    FirstOfAny(Lower(text), LowerAll(p.terms), start)
  }

  /** `re.search(pattern, text, re.DOTALL | re.IGNORECASE)` followed by
      `group(1).strip()`, keeping only a non-empty result. */
  function Capture(text: string, p: Pattern): (r: Option<string>)
    ensures r.Some? ==> r.value != "" && Trimmed(Py, r.value)
    ensures IndexOf(Lower(text), Lower(p.open)).None? ==> r.None?
  {
    Captured(text, p, OpenAt(text, p))
  }

  /** Where the opening marker is first found, case-blind. */
  function OpenAt(text: string, p: Pattern): (r: Option<nat>)
    ensures r.Some? ==> r.value + |p.open| <= |text|
  {
    IndexOf(Lower(text), Lower(p.open))
  }

  /** The group captured after an opening marker found at `open`. */
  function Captured(text: string, p: Pattern, open: Option<nat>): (r: Option<string>)
    requires open.Some? ==> open.value + |p.open| <= |text|
    ensures r.Some? ==> r.value != "" && Trimmed(Py, r.value)
    ensures open.None? ==> r.None?
  {
    match open
    case None => None
    case Some(i) =>
      var start := i + |p.open|;
      Stripped(text[start..SectionEnd(text, p, start)])
  }

  /** `group(1).strip()`, kept only when something is left. */
  function Stripped(section: string): (r: Option<string>)
    ensures r.Some? ==> r.value != "" && Trimmed(Py, r.value)
  {
    var body := Trim(Py, section);
    if body == "" then None else Some(body)
  }

  /** The names of a sequence of named things, in order. */
  function NamesOf<T>(xs: seq<T>, name: T -> string): (r: seq<string>)
    ensures |r| == |xs|
    ensures forall i :: 0 <= i < |xs| ==> r[i] == name(xs[i])
  {
    seq(|xs|, i requires 0 <= i < |xs| => name(xs[i]))
  }

  function Names(found: seq<Found>): seq<string> {
    NamesOf(found, (f: Found) => f.name)
  }

  function PatternNames(ps: seq<Pattern>): seq<string> {
    NamesOf(ps, (p: Pattern) => p.name)
  }

  /** The sections found in `text`, in pattern order, each at most once. */
  function ParseSections(text: string, ps: seq<Pattern>): (r: seq<Found>)
    ensures Subsequence(Names(r), PatternNames(ps))
    ensures forall i :: 0 <= i < |r| ==> r[i].content != "" && Trimmed(Py, r[i].content)
    decreases |ps|
  {
    if ps == [] then []
    else
      var rest := ParseSections(text, ps[1..]);
      PatternNamesCons(ps);
      match Capture(text, ps[0])
      case None =>
        SubsequenceSkip(ps[0].name, Names(rest), PatternNames(ps[1..]));
        rest
      case Some(c) =>
        var r := [Found(ps[0].name, c)] + rest;
        NamesCons(Found(ps[0].name, c), rest);
        SubsequenceCons(ps[0].name, Names(rest), PatternNames(ps[1..]));
        r
  }

  lemma NamesCons(f: Found, rest: seq<Found>)
    ensures Names([f] + rest) == [f.name] + Names(rest)
  {
  }

  lemma PatternNamesCons(ps: seq<Pattern>)
    requires ps != []
    ensures PatternNames(ps) == [ps[0].name] + PatternNames(ps[1..])
  {
  }

  /** The section recorded under `name`, if the parse found it
      (`sections.get(name)`). */
  function Get(found: seq<Found>, name: string): (r: Option<string>)
    ensures r.Some? ==> exists i :: 0 <= i < |found| && found[i] == Found(name, r.value)
    ensures r.None? ==> forall i :: 0 <= i < |found| ==> found[i].name != name
    decreases |found|
  {
    if found == [] then None
    else if found[0].name == name then Some(found[0].content)
    else
      var r := Get(found[1..], name);
      assert r.Some? ==> exists i :: 0 <= i < |found| && found[i] == Found(name, r.value) by {
        if r.Some? {
          var i :| 0 <= i < |found[1..]| && found[1..][i] == Found(name, r.value);
          assert found[i + 1] == found[1..][i];
        }
      }
      r
  }

  predicate Distinct(xs: seq<string>) {
    forall i, j :: 0 <= i < j < |xs| ==> xs[i] != xs[j]
  }

  /** With distinct section names, the parse records a section exactly when
      its capture is non-empty, and records that capture. */
  lemma {:induction false} ParseFindsCaptures(text: string, ps: seq<Pattern>, j: nat)
    requires Distinct(PatternNames(ps)) && j < |ps|
    ensures Get(ParseSections(text, ps), ps[j].name) == Capture(text, ps[j])
    decreases |ps|
  {
    var rest := ParseSections(text, ps[1..]);
    assert Distinct(PatternNames(ps[1..])) by {
      assert forall i :: 0 <= i < |ps| - 1 ==> PatternNames(ps[1..])[i] == PatternNames(ps)[i + 1];
    }
    if j == 0 {
      assert forall i :: 0 <= i < |ps| - 1 ==> ps[1..][i].name != ps[0].name by {
        assert forall i :: 0 <= i < |ps| - 1 ==> ps[1..][i].name == PatternNames(ps)[i + 1];
      }
      NotFoundWhenAbsent(text, ps[1..], ps[0].name);
    } else {
      ParseFindsCaptures(text, ps[1..], j - 1);
      assert ps[1..][j - 1] == ps[j];
      assert ps[0].name != ps[j].name by {
        assert PatternNames(ps)[0] != PatternNames(ps)[j];
      }
    }
  }

  lemma {:induction false} NotFoundWhenAbsent(text: string, ps: seq<Pattern>, name: string)
    requires forall i :: 0 <= i < |ps| ==> ps[i].name != name
    ensures Get(ParseSections(text, ps), name).None?
    decreases |ps|
  {
    if ps != [] {
      NotFoundWhenAbsent(text, ps[1..], name);
    }
  }

  /** `_section_name_to_title`. */
  function Title(name: string): (t: string)
    ensures name !in {"CulturalContext", "WhatMightSeemStrange", "KeyInsights", "WhyThisMattersToday"} ==> t == name
  {
    if name == "CulturalContext" then "Cultural Context"
    else if name == "WhatMightSeemStrange" then "What Might Seem Strange"
    else if name == "KeyInsights" then "Key Insights to Watch For"
    else if name == "WhyThisMattersToday" then "Why This Matters Today"
    else name
  }

  /** The four paragraph sections get four different titles, none of which
      is itself a section name, so a title identifies its section. */
  lemma TitlesDistinct(a: string, b: string)
    requires a in ParagraphNames && b in ParagraphNames && a != b
    ensures Title(a) != Title(b)
    ensures Title(a) !in ParagraphNames
  {
  }

  const ParagraphNames: seq<string> := ["CulturalContext", "WhatMightSeemStrange", "KeyInsights", "WhyThisMattersToday"]

  /** Every marker of `p` begins with `[`, as all markers of both formats
      do. */
  predicate Bracketed(p: Pattern) {
    p.open != [] && p.open[0] == '['
    && forall i :: 0 <= i < |p.terms| ==> p.terms[i] != [] && p.terms[i][0] == '['
  }

  lemma AllPatternsBracketed()
    ensures forall i :: 0 <= i < |ChapterPatterns| ==> Bracketed(ChapterPatterns[i])
    ensures forall i :: 0 <= i < |StrongsPatterns| ==> Bracketed(StrongsPatterns[i])
  {
  }

  /** Nothing that begins with `[` occurs at a position holding another
      character. */
  lemma NoMarkerAt(s: string, pat: string, j: nat)
    requires pat != [] && pat[0] == '['
    requires j < |s| && s[j] != '['
    ensures !OccursAt(s, pat, j)
  {
  }

  /** In the lower-cased text, the section's opening marker is first found
      where it was written, and no terminator occurs in the text between
      the marker and `q`. */
  lemma {:induction false} BodyBounds(p: Pattern, pre: string, mid: string, tail: string)
    requires Bracketed(p)
    requires '[' !in pre && '[' !in mid
    ensures var text := pre + p.open + mid + tail;
            IndexOf(Lower(text), Lower(p.open)) == Some(|pre|)
            && forall j :: |pre| + |p.open| <= j < |pre| + |p.open| + |mid| ==>
                 !AnyOccursAt(Lower(text), LowerAll(p.terms), j)
  {
    var text := pre + p.open + mid + tail;
    var low := Lower(text);
    var lo := Lower(p.open);
    assert text[|pre|..|pre| + |p.open|] == p.open;
    LowerOfSlice(text, |pre|, |pre| + |p.open|);
    assert OccursAt(low, lo, |pre|);
    forall j | 0 <= j < |pre| ensures !OccursAt(low, lo, j) {
      assert text[j] == pre[j];
      NoMarkerAt(low, lo, j);
    }
    forall j | |pre| + |p.open| <= j < |pre| + |p.open| + |mid|
      ensures !AnyOccursAt(low, LowerAll(p.terms), j)
    {
      assert text[j] == mid[j - |pre| - |p.open|];
      forall t | t in LowerAll(p.terms) ensures !OccursAt(low, t, j) {
        var i :| 0 <= i < |p.terms| && LowerAll(p.terms)[i] == t;
        NoMarkerAt(low, t, j);
      }
    }
  }

  /** A section written in full, `<open> body <terminator>`, is read back as
      its body, whatever follows. */
  lemma CaptureReadsWrittenSection(p: Pattern, pre: string, pad1: string, body: string, pad2: string,
                                   i: nat, rest: string)
    requires Bracketed(p) && i < |p.terms|
    requires '[' !in pre && '[' !in body
    requires AllSpace(Py, pad1) && AllSpace(Py, pad2)
    requires body != "" && Trimmed(Py, body)
    ensures Capture(pre + p.open + pad1 + body + pad2 + p.terms[i] + rest, p) == Some(body)
  {
    var mid := pad1 + body + pad2;
    var tail := p.terms[i] + rest;
    var text := pre + p.open + pad1 + body + pad2 + p.terms[i] + rest;
    assert text == pre + p.open + mid + tail;
    PaddedNoBracket(pad1, body, pad2);
    BodyBounds(p, pre, mid, tail);
    var start := |pre| + |p.open|;
    var q := start + |mid|;
    assert text[q..q + |p.terms[i]|] == p.terms[i];
    TerminatorAt(p, text, q, i);
    FirstOfAnyIs(Lower(text), LowerAll(p.terms), start, q);
    assert text[start..q] == mid;
    CaptureBetween(text, p, |pre|, q, pad1, body, pad2);
  }

  /** The text from `start` runs, padded, to the section's end at `q`. */
  predicate WrittenUpTo(text: string, p: Pattern, start: nat, q: nat, pad1: string, body: string, pad2: string) {
    start <= q <= |text| && SectionEnd(text, p, start) == q
    && text[start..q] == pad1 + body + pad2
    && AllSpace(Py, pad1) && AllSpace(Py, pad2) && body != "" && Trimmed(Py, body)
  }

  /** The capture once the opening marker and the section's end are known. */
  lemma CaptureBetween(text: string, p: Pattern, at: nat, q: nat, pad1: string, body: string, pad2: string)
    requires IndexOf(Lower(text), Lower(p.open)) == Some(at)
    requires WrittenUpTo(text, p, at + |p.open|, q, pad1, body, pad2)
    ensures Capture(text, p) == Some(body)
  {
    assert OpenAt(text, p) == Some(at);
    CapturedEnds(text, p, at, q);
    StrippedPadded(pad1, body, pad2);
  }

  lemma CapturedEnds(text: string, p: Pattern, at: nat, q: nat)
    requires at + |p.open| <= q <= |text| && SectionEnd(text, p, at + |p.open|) == q
    ensures Captured(text, p, Some(at)) == Stripped(text[at + |p.open|..q])
  {
  }

  lemma StrippedPadded(pad1: string, body: string, pad2: string)
    requires AllSpace(Py, pad1) && AllSpace(Py, pad2) && body != "" && Trimmed(Py, body)
    ensures Stripped(pad1 + body + pad2) == Some(body)
  {
    TrimUnique(Py, pad1, body, pad2);
  }

  lemma PaddedNoBracket(pad1: string, body: string, pad2: string)
    requires AllSpace(Py, pad1) && AllSpace(Py, pad2) && '[' !in body
    ensures '[' !in pad1 + body + pad2
  {
    assert !IsSpace(Py, '[');
    var mid := pad1 + body + pad2;
    assert forall j :: 0 <= j < |mid| ==> mid[j] == if j < |pad1| then pad1[j]
                                         else if j < |pad1| + |body| then body[j - |pad1|]
                                         else pad2[j - |pad1| - |body|];
  }

  /** A terminator written at `q` is seen there in the lower-cased text. */
  lemma TerminatorAt(p: Pattern, text: string, q: nat, i: nat)
    requires i < |p.terms| && q + |p.terms[i]| <= |text|
    requires text[q..q + |p.terms[i]|] == p.terms[i]
    ensures AnyOccursAt(Lower(text), LowerAll(p.terms), q)
  {
    LowerOfSlice(text, q, q + |p.terms[i]|);
    assert OccursAt(Lower(text), LowerAll(p.terms)[i], q);
  }

  lemma FirstOfAnyIs(s: string, pats: seq<string>, start: nat, q: nat)
    requires start <= q < |s|
    requires forall j :: start <= j < q ==> !AnyOccursAt(s, pats, j)
    requires AnyOccursAt(s, pats, q)
    ensures FirstOfAny(s, pats, start) == q
  {
  }

  /** A section still being written, `<open> body` with no terminator yet,
      is read as its body so far. */
  lemma CaptureReadsOpenSection(p: Pattern, pre: string, pad1: string, body: string, pad2: string)
    requires Bracketed(p)
    requires '[' !in pre && '[' !in body
    requires AllSpace(Py, pad1) && AllSpace(Py, pad2)
    requires body != "" && Trimmed(Py, body)
    ensures Capture(pre + p.open + pad1 + body + pad2, p) == Some(body)
  {
    var mid := pad1 + body + pad2;
    var text := pre + p.open + pad1 + body + pad2;
    assert text == pre + p.open + mid + [];
    PaddedNoBracket(pad1, body, pad2);
    BodyBounds(p, pre, mid, []);
    var start := |pre| + |p.open|;
    assert |text| == start + |mid|;
    assert SectionEnd(text, p, start) == |text|;
    assert text[start..|text|] == mid;
    CaptureBetween(text, p, |pre|, |text|, pad1, body, pad2);
  }

}

=== FILE: storage.dfy ===
/** The browser's localStorage as the front end sees it: each key holds the
    parsed form of the string stored under it. The documents themselves are
    left abstract (type parameter `T`). */
module Storage {
  import opened Wrappers

  /** A time-limited cache record `{data, timestamp, expiry}`; both times are
      epoch milliseconds. */
  datatype Entry<T> = Entry(data: T, timestamp: int, expiry: int)

  /** What `JSON.parse` makes of the string stored under a key. */
  datatype Stored<T> =
    | Wrapped(entry: Entry<T>)  // a record written by the time-limited cache
    | Bare(doc: T)              // a document stored as-is, with no `expiry` field
    | Corrupt                   // text that `JSON.parse` rejects
    | Blank                     // the empty string, which reads as falsy

  type LocalStorage<T> = map<string, Stored<T>>

  /** `localStorage.getItem(key)`, with `None` for `null`. */
  function GetItem<T>(s: LocalStorage<T>, key: string): (r: Option<Stored<T>>)
    ensures r.Some? <==> key in s
    ensures r.Some? ==> s[key] == r.value
  {
    if key in s then Some(s[key]) else None
  }

  /** `localStorage.removeItem(key)`: only `key` goes. */
  function RemoveItem<T>(s: LocalStorage<T>, key: string): (r: LocalStorage<T>)
    ensures key !in r
    ensures forall k :: k != key ==> (k in r <==> k in s)
    ensures forall k :: k in r ==> r[k] == s[k]
  {
    s - {key}
  }
}

=== FILE: strongs_client.dfy ===
/** The streaming Strong's analysis client: the fetch effect of
    bible-study-fe-2/src/modals/StrongsAnalysisModal.tsx:125-254 and
    `getCurrentData` (257-274). A request first consults the time-limited
    cache; on a miss it reads the response as decoded text chunks, frames
    them into lines and dispatches each line's envelope. The network is an
    input (`Transport`), and so is the way `JSON.parse` reads a line
    (`Context.classify`). */
module StrongsClient {
  import opened Wrappers
  import opened Text
  import opened Storage
  import opened TtlCache
  import opened Framing

  /** The analysis document (`StrongsInfo`, lines 15-24). */
  datatype StrongsInfo = StrongsInfo(
    wordHeader: string,
    languageInfo: string,
    originalText: string,
    pronunciation: string,
    rootMeanings: string,
    contextualMeaning: string,
    otherUses: string,
    culturalSignificance: string)

  /** The modal's `StreamingState` (lines 26-33). */
  datatype StreamingState = StreamingState(
    isStreaming: bool,
    streamedSections: map<string, string>,
    parsedData: Option<StrongsInfo>,
    error: Option<string>,
    isComplete: bool,
    isFromCache: bool)

  /** The state of a closed modal, and the initial state. */
  const Idle: StreamingState := StreamingState(false, map[], None, None, false, false)

  /** The state set on a cache miss, before the request goes out. */
  const Started: StreamingState := StreamingState(true, map[], None, None, false, false)

  function FromCache(d: StrongsInfo): StreamingState {
    StreamingState(false, map[], Some(d), None, true, true)
  }

  /** What the client's dispatcher makes of one cleaned line. */
  datatype Envelope =
    | SectionUpdate(section: string, content: string)
    | Complete(data: StrongsInfo)
    | ErrorEnvelope(message: string)  // `{type: "error"}`
    | OtherType                       // parses, with any other `type`
    | Malformed                       // `JSON.parse` throws

  /** The modal's state together with the cache it reads and writes. */
  datatype Session = Session(view: StreamingState, cache: Cache<StrongsInfo>)

  /** What one request fixes: its cache key, the clock reading taken when
      its `complete` envelope is handled (the `Date.now()` inside
      `saveToCacheWithExpiry`, which may be later than the lookup's), whether
      `localStorage.setItem` succeeds then, and how lines parse. */
  datatype Context = Context(key: string, savedAt: int, stored: bool, classify: string -> Envelope)

  /** The envelope of a framed line, or `None` for a blank line. */
  function LineEnvelope(line: string, ctx: Context): Option<Envelope> {
    match Clean(line)
    case None => None
    case Some(c) => Some(ctx.classify(c))
  }

  predicate IsCompleteLine(line: string, ctx: Context) {
    LineEnvelope(line, ctx).Some? && LineEnvelope(line, ctx).value.Complete?
  }

  predicate SomeComplete(lines: seq<string>, ctx: Context) {
    exists i :: 0 <= i < |lines| && IsCompleteLine(lines[i], ctx)
  }

  /** Whatever analysis the view shows is in the memory tier under the
      request's key, stamped with the completion clock, and in localStorage
      too when the write there succeeded. */
  predicate Saved(s: Session, ctx: Context) {
    s.view.parsedData.Some? ==>
      var e := MakeEntry(s.view.parsedData.value, ctx.savedAt, DefaultExpiryDays);
      s.cache.memory.Some? && ctx.key in s.cache.memory.value && s.cache.memory.value[ctx.key] == e
      && (ctx.stored ==> ctx.key in s.cache.storage && s.cache.storage[ctx.key] == Wrapped(e))
  }

  /** The effect of one line, and whether it ends the current chunk's line
      loop (`break`). */
  datatype Step = Step(session: Session, stop: bool)

  /** One iteration of the line loop (lines 196-231). An error envelope is
      thrown inside the per-line `try` and caught right there, so like a
      malformed line or an unknown type it changes nothing. */
  function OnLine(s: Session, line: string, ctx: Context): (r: Step)
    ensures r.stop <==> IsCompleteLine(line, ctx)
    ensures r.stop ==>
              var d := LineEnvelope(line, ctx).value.data;
              r.session.view == s.view.(isStreaming := false, parsedData := Some(d),
                                        isComplete := true, isFromCache := false)
              && r.session.cache == TrySave(s.cache, ctx.key, d, ctx.savedAt, DefaultExpiryDays, ctx.stored)
    ensures LineEnvelope(line, ctx).Some? && LineEnvelope(line, ctx).value.SectionUpdate? ==>
              var u := LineEnvelope(line, ctx).value;
              r.session.cache == s.cache
              && r.session.view == s.view.(streamedSections := r.session.view.streamedSections)
              && Section(r.session.view.streamedSections, u.section)
                 == Section(s.view.streamedSections, u.section) + u.content
              && forall k :: k != u.section ==> Section(r.session.view.streamedSections, k)
                                                == Section(s.view.streamedSections, k)
    ensures LineEnvelope(line, ctx).None? || LineEnvelope(line, ctx).value.ErrorEnvelope?
            || LineEnvelope(line, ctx).value.OtherType? || LineEnvelope(line, ctx).value.Malformed?
            ==> r == Step(s, false)
    ensures Saved(s, ctx) ==> Saved(r.session, ctx)
  {
    match LineEnvelope(line, ctx)
    case None => Step(s, false)
    case Some(SectionUpdate(name, content)) =>
      var m := s.view.streamedSections;
      Step(Session(s.view.(streamedSections := m[name := Section(m, name) + content]), s.cache), false)
    case Some(Complete(d)) =>
      var view := s.view.(isStreaming := false, parsedData := Some(d), isComplete := true, isFromCache := false);
      Step(Session(view, TrySave(s.cache, ctx.key, d, ctx.savedAt, DefaultExpiryDays, ctx.stored)), true)
    case Some(ErrorEnvelope(_)) => Step(s, false)
    case Some(OtherType) => Step(s, false)
    case Some(Malformed) => Step(s, false)
  }

  /** The line loop over the complete lines of one chunk; a `complete`
      envelope skips the rest of them. */
  function OnLines(s: Session, lines: seq<string>, ctx: Context): (r: Session)
    ensures r.view.error == s.view.error
    ensures Saved(s, ctx) ==> Saved(r, ctx)
    decreases |lines|
  {
    if lines == [] then s
    else
      var st := OnLine(s, lines[0], ctx);
      if st.stop then st.session else OnLines(st.session, lines[1..], ctx)
  }

  /** The state of the read loop between chunks. */
  datatype Reader = Reader(session: Session, buffer: string)

  /** One `reader.read()` of the loop at lines 186-233. */
  function OnChunk(rd: Reader, chunk: string, ctx: Context): (r: Reader)
    ensures '\n' !in r.buffer
    ensures r.session.view.error == rd.session.view.error
    ensures Saved(rd.session, ctx) ==> Saved(r.session, ctx)
  {
    var f := Feed(rd.buffer, chunk);
    Reader(OnLines(rd.session, f.lines, ctx), f.buffer)
  }

  function OnChunks(rd: Reader, chunks: seq<string>, ctx: Context): (r: Reader)
    ensures '\n' !in rd.buffer ==> '\n' !in r.buffer
    ensures r.session.view.error == rd.session.view.error
    ensures Saved(rd.session, ctx) ==> Saved(r.session, ctx)
    decreases |chunks|
  {
    if chunks == [] then rd else OnChunks(OnChunk(rd, chunks[0], ctx), chunks[1..], ctx)
  }

  /** How the body read ends. */
  datatype Ending =
    | Done                     // `done` is reported
    | ReadFailed(message: string)
    | ReadAborted              // the request's abort signal fired mid-read

  datatype Body = Body(chunks: seq<string>, ending: Ending)

  /** What the network does with the request. An empty `message` stands for
      an exception without one. */
  datatype Transport =
    | Rejected(message: string)
    | FetchAborted
    | Responded(status: int, body: Option<Body>)

  datatype Props = Props(isOpen: bool, book: string, chapter: int, verse: int, word: string)

  const FallbackError: string := "Failed to fetch Strong's analysis"
  const NoReaderError: string := "No reader available"

  function HttpError(status: int): string {
    "HTTP error! status: " + IntToString(status)
  }

  /** `response.ok`. */
  predicate Ok(status: int) {
    200 <= status <= 299
  }

  /** The outer `catch` for anything but an abort (lines 239-244). */
  function Fail(v: StreamingState, message: string): (r: StreamingState)
    ensures r.error.Some? && r.error.value != ""
    ensures message != "" ==> r.error == Some(message)
    ensures !r.isStreaming
    ensures r == v.(isStreaming := false, error := r.error)
  {
    v.(isStreaming := false, error := Some(if message == "" then FallbackError else message))
  }

  /** Reading a body to its end; text left in the buffer is dropped. */
  function ReadBody(s: Session, body: Body, ctx: Context): (r: Session)
    ensures r.view.error.Some? <==> s.view.error.Some? || body.ending.ReadFailed?
    ensures Saved(s, ctx) ==> Saved(r, ctx)
  {
    var rd := OnChunks(Reader(s, ""), body.chunks, ctx);
    match body.ending
    case Done => rd.session
    case ReadFailed(m) => Session(Fail(rd.session.view, m), rd.session.cache)
    case ReadAborted => rd.session
  }

  lemma {:induction false} ChunksKeepFromCache(rd: Reader, chunks: seq<string>, ctx: Context)
    ensures OnChunks(rd, chunks, ctx).session.view.isFromCache ==> rd.session.view.isFromCache
    decreases |chunks|
  {
    if chunks != [] {
      LinesKeepFromCache(rd.session, Feed(rd.buffer, chunks[0]).lines, ctx);
      ChunksKeepFromCache(OnChunk(rd, chunks[0], ctx), chunks[1..], ctx);
    }
  }

  lemma {:induction false} LinesKeepFromCache(s: Session, lines: seq<string>, ctx: Context)
    ensures OnLines(s, lines, ctx).view.isFromCache ==> s.view.isFromCache
    decreases |lines|
  {
    if lines != [] && !OnLine(s, lines[0], ctx).stop {
      LinesKeepFromCache(OnLine(s, lines[0], ctx).session, lines[1..], ctx);
    }
  }

  lemma IsFromCacheStaysFalse(s: Session, body: Body, ctx: Context)
    ensures ReadBody(s, body, ctx).view.isFromCache ==> s.view.isFromCache
  {
    ChunksKeepFromCache(Reader(s, ""), body.chunks, ctx);
  }

  /** The request fails before any chunk is read. */
  predicate FailsEarly(t: Transport) {
    t.Rejected? || (t.Responded? && (!Ok(t.status) || t.body.None?))
  }

  /** The request ends in an error the modal shows. */
  predicate Fails(t: Transport) {
    FailsEarly(t) || (t.Responded? && t.body.Some? && t.body.value.ending.ReadFailed?)
  }

  function KeyOf(p: Props): string {
    CacheKey(p.book, p.chapter, p.verse, p.word)
  }

  /** The request after a cache miss (lines 146-245), from the state set
      before it goes out. */
  function Request(s: Session, t: Transport, ctx: Context): (r: Session)
    requires s.view == Started
    ensures r.view.error.Some? <==> Fails(t)
    ensures t.Rejected? ==> r == Session(Fail(Started, t.message), s.cache)
    ensures t.Responded? && !Ok(t.status) ==> r == Session(Fail(Started, HttpError(t.status)), s.cache)
    ensures t.Responded? && Ok(t.status) && t.body.None? ==> r == Session(Fail(Started, NoReaderError), s.cache)
    ensures t.FetchAborted? ==> r == s
    ensures !r.view.isFromCache
    ensures Saved(r, ctx)
  {
    match t
    case Rejected(m) => Session(Fail(Started, m), s.cache)
    case FetchAborted => s
    case Responded(status, body) =>
      if !Ok(status) then Session(Fail(Started, HttpError(status)), s.cache)
      else if body.None? then Session(Fail(Started, NoReaderError), s.cache)
      else
        var r := ReadBody(s, body.value, ctx);
        IsFromCacheStaysFalse(s, body.value, ctx);
        r
  }

  /** One run of the fetch effect with the cache as it stands at `now`;
      a completed analysis is saved at `savedAt`, and `stored` says whether
      localStorage accepts it. */
  function Fetch(p: Props, cache: Cache<StrongsInfo>, now: int, savedAt: int, stored: bool,
                 classify: string -> Envelope, t: Transport): (r: Session)
    ensures !p.isOpen ==> r == Session(Idle, cache)
    ensures p.isOpen ==>
              var read := Lookup(cache, KeyOf(p), now);
              if read.found.Some? then r == Session(FromCache(read.found.value), read.cache)
              else r == Request(Session(Started, read.cache), t, Context(KeyOf(p), savedAt, stored, classify))
  {
    if !p.isOpen then Session(Idle, cache)
    else
      var ctx := Context(KeyOf(p), savedAt, stored, classify);
      var read := Lookup(cache, ctx.key, now);
      match read.found
      case Some(d) => Session(FromCache(d), read.cache)
      case None => Request(Session(Started, read.cache), t, ctx)
  }

  /** A view is marked as coming from the cache exactly when the cache held
      a live record for the request's key. */
  lemma FromCacheIffLive(p: Props, cache: Cache<StrongsInfo>, now: int, savedAt: int, stored: bool,
                         classify: string -> Envelope, t: Transport)
    requires p.isOpen
    ensures Fetch(p, cache, now, savedAt, stored, classify, t).view.isFromCache
            <==> MemoryLive(cache, KeyOf(p), now) || StorageLive(cache, KeyOf(p), now)
  {
  }

  /** `getCurrentData`: the finished document when there is one, otherwise
      the streamed sections with `""` for those not seen yet. */
  function GetCurrentData(v: StreamingState): (d: StrongsInfo)
    ensures v.parsedData.Some? ==> d == v.parsedData.value
    ensures v.parsedData.None? ==>
              d.wordHeader == Section(v.streamedSections, "WordHeader")
              && d.languageInfo == Section(v.streamedSections, "LanguageInfo")
              && d.originalText == Section(v.streamedSections, "OriginalText")
              && d.pronunciation == Section(v.streamedSections, "Pronunciation")
              && d.rootMeanings == Section(v.streamedSections, "RootMeanings")
              && d.contextualMeaning == Section(v.streamedSections, "ContextualMeaning")
              && d.otherUses == Section(v.streamedSections, "OtherUses")
              && d.culturalSignificance == Section(v.streamedSections, "CulturalSignificance")
  {
    match v.parsedData
    case Some(d) => d
    case None =>
      var m := v.streamedSections;
      StrongsInfo(Section(m, "WordHeader"), Section(m, "LanguageInfo"), Section(m, "OriginalText"),
                  Section(m, "Pronunciation"), Section(m, "RootMeanings"), Section(m, "ContextualMeaning"),
                  Section(m, "OtherUses"), Section(m, "CulturalSignificance"))
  }

  // ---------------------------------------------------------------------
  // The accumulator against a reference fold, and the read loop against a
  // read of the whole transfer at once.

  datatype Update = Update(section: string, content: string)

  /** The section updates carried by `lines`, in arrival order. */
  function Updates(lines: seq<string>, ctx: Context): seq<Update>
    decreases |lines|
  {
    if lines == [] then []
    else
      var rest := Updates(lines[1..], ctx);
      match LineEnvelope(lines[0], ctx)
      case Some(SectionUpdate(n, c)) => [Update(n, c)] + rest
      case _ => rest
  }

  /** Reference definition: the updates applied to a section map one after
      another. */
  function Accumulate(m: map<string, string>, ups: seq<Update>): map<string, string>
    decreases |ups|
  {
    if ups == [] then m
    else Accumulate(m[ups[0].section := Section(m, ups[0].section) + ups[0].content], ups[1..])
  }

  /** The contents of the updates for `name`, concatenated in order. */
  function ContentsFor(ups: seq<Update>, name: string): string
    decreases |ups|
  {
    if ups == [] then ""
    else (if ups[0].section == name then ups[0].content else "") + ContentsFor(ups[1..], name)
  }

  /** Each section is what it held before followed by the contents of its
      updates in arrival order; updates for other sections do not touch it. */
  lemma {:induction false} AccumulateConcatenates(m: map<string, string>, ups: seq<Update>, name: string)
    ensures Section(Accumulate(m, ups), name) == Section(m, name) + ContentsFor(ups, name)
    decreases |ups|
  {
    if ups != [] {
      var m' := m[ups[0].section := Section(m, ups[0].section) + ups[0].content];
      AccumulateConcatenates(m', ups[1..], name);
      if ups[0].section == name {
        assert Section(m', name) == Section(m, name) + ups[0].content;
      } else {
        assert Section(m', name) == Section(m, name);
      }
    }
  }

  /** Without a `complete` line, the line loop only folds the section
      updates into the streamed sections. */
  lemma {:induction false} LinesWithoutComplete(s: Session, lines: seq<string>, ctx: Context)
    requires !SomeComplete(lines, ctx)
    ensures OnLines(s, lines, ctx)
            == Session(s.view.(streamedSections := Accumulate(s.view.streamedSections, Updates(lines, ctx))), s.cache)
    decreases |lines|
  {
    if lines != [] {
      assert !IsCompleteLine(lines[0], ctx);
      assert !SomeComplete(lines[1..], ctx) by {
        forall i | 0 <= i < |lines[1..]| ensures !IsCompleteLine(lines[1..][i], ctx) {
          assert lines[1..][i] == lines[i + 1];
        }
      }
      var st := OnLine(s, lines[0], ctx);
      LinesWithoutComplete(st.session, lines[1..], ctx);
    }
  }

  lemma {:induction false} LinesAppend(s: Session, a: seq<string>, b: seq<string>, ctx: Context)
    requires !SomeComplete(a, ctx)
    ensures OnLines(s, a + b, ctx) == OnLines(OnLines(s, a, ctx), b, ctx)
    decreases |a|
  {
    if a == [] {
      assert a + b == b;
    } else {
      assert !IsCompleteLine(a[0], ctx);
      assert !SomeComplete(a[1..], ctx) by {
        forall i | 0 <= i < |a[1..]| ensures !IsCompleteLine(a[1..][i], ctx) {
          assert a[1..][i] == a[i + 1];
        }
      }
      assert (a + b)[0] == a[0];
      assert (a + b)[1..] == a[1..] + b;
      LinesAppend(OnLine(s, a[0], ctx).session, a[1..], b, ctx);
    }
  }

  lemma NoCompleteInParts(a: seq<string>, b: seq<string>, ctx: Context)
    requires !SomeComplete(a + b, ctx)
    ensures !SomeComplete(a, ctx) && !SomeComplete(b, ctx)
  {
    forall i | 0 <= i < |a| ensures !IsCompleteLine(a[i], ctx) {
      assert (a + b)[i] == a[i];
    }
    forall i | 0 <= i < |b| ensures !IsCompleteLine(b[i], ctx) {
      assert (a + b)[|a| + i] == b[i];
    }
  }

  /** Without a `complete` line, reading chunk by chunk handles exactly the
      complete lines of the whole transfer, in order, each once. */
  lemma {:induction false} ChunksAsOneRead(s: Session, buffer: string, chunks: seq<string>, ctx: Context)
    requires '\n' !in buffer
    requires !SomeComplete(FeedAll(buffer, chunks).lines, ctx)
    ensures OnChunks(Reader(s, buffer), chunks, ctx)
            == Reader(OnLines(s, FeedAll(buffer, chunks).lines, ctx), FeedAll(buffer, chunks).buffer)
    decreases |chunks|
  {
    if chunks != [] {
      var f := Feed(buffer, chunks[0]);
      var g := FeedAll(f.buffer, chunks[1..]);
      NoCompleteInParts(f.lines, g.lines, ctx);
      ChunksAsOneRead(OnLines(s, f.lines, ctx), f.buffer, chunks[1..], ctx);
      LinesAppend(s, f.lines, g.lines, ctx);
    }
  }

  /** Where the chunk boundaries fall does not change the outcome of a
      transfer without a `complete` line. */
  lemma ChunkBoundariesIrrelevant(s: Session, chunks: seq<string>, ctx: Context)
    requires !SomeComplete(Feed("", Concat(chunks)).lines, ctx)
    ensures OnChunks(Reader(s, ""), chunks, ctx).session
            == OnLines(s, Feed("", Concat(chunks)).lines, ctx)
  {
    ChunkingIrrelevant("", chunks);
    ChunksAsOneRead(s, "", chunks, ctx);
  }

  /** A transfer that ends cleanly without a `complete` line leaves the
      modal streaming, with no error and no document: the streamed sections
      are the fold of the section updates, and nothing else changed. */
  lemma CleanEndWithoutComplete(c: Cache<StrongsInfo>, chunks: seq<string>, ctx: Context)
    requires !SomeComplete(Feed("", Concat(chunks)).lines, ctx)
    ensures ReadBody(Session(Started, c), Body(chunks, Done), ctx)
            == Session(Started.(streamedSections := Accumulate(map[], Updates(Feed("", Concat(chunks)).lines, ctx))), c)
    ensures ReadBody(Session(Started, c), Body(chunks, Done), ctx).view.isStreaming
  {
    var lines := Feed("", Concat(chunks)).lines;
    ChunkBoundariesIrrelevant(Session(Started, c), chunks, ctx);
    LinesWithoutComplete(Session(Started, c), lines, ctx);
  }

  lemma {:induction false} OnChunksAppend(rd: Reader, chunks: seq<string>, last: string, ctx: Context)
    ensures OnChunks(rd, chunks + [last], ctx) == OnChunk(OnChunks(rd, chunks, ctx), last, ctx)
    decreases |chunks|
  {
    if chunks == [] {
      assert chunks + [last] == [last];
    } else {
      assert (chunks + [last])[1..] == chunks[1..] + [last];
      OnChunksAppend(OnChunk(rd, chunks[0], ctx), chunks[1..], last, ctx);
    }
  }

  /** Text after the last line feed of a transfer is never dispatched: a
      final chunk without a line feed changes nothing. */
  lemma LeftoverNeverParsed(s: Session, chunks: seq<string>, tail: string, e: Ending, ctx: Context)
    requires '\n' !in tail
    ensures ReadBody(s, Body(chunks + [tail], e), ctx) == ReadBody(s, Body(chunks, e), ctx)
  {
    var rd := OnChunks(Reader(s, ""), chunks, ctx);
    OnChunksAppend(Reader(s, ""), chunks, tail, ctx);
    assert '\n' !in rd.buffer + tail;
    assert Split(rd.buffer + tail, '\n') == [rd.buffer + tail];
  }

  /** Reference definition: the line loop without its `break`. */
  function FoldLines(s: Session, lines: seq<string>, ctx: Context): Session
    decreases |lines|
  {
    if lines == [] then s else FoldLines(OnLine(s, lines[0], ctx).session, lines[1..], ctx)
  }

  /** A line the dispatcher ignores: blank, malformed, an unknown type, or
      an error envelope. */
  predicate Inert(line: string, ctx: Context) {
    match LineEnvelope(line, ctx)
    case None => true
    case Some(e) => e.ErrorEnvelope? || e.OtherType? || e.Malformed?
  }

  /** Nothing but ignored lines follows a `complete` line. */
  predicate BreakHarmless(lines: seq<string>, ctx: Context) {
    forall i, j :: 0 <= i < j < |lines| && IsCompleteLine(lines[i], ctx) ==> Inert(lines[j], ctx)
  }

  lemma {:induction false} InertLines(s: Session, lines: seq<string>, ctx: Context)
    requires forall i :: 0 <= i < |lines| ==> Inert(lines[i], ctx)
    ensures FoldLines(s, lines, ctx) == s
    decreases |lines|
  {
    if lines != [] {
      assert Inert(lines[0], ctx);
      assert OnLine(s, lines[0], ctx).session == s;
      InertLines(s, lines[1..], ctx);
    }
  }

  /** When only ignored lines follow a `complete` line, the `break` makes no
      difference. */
  lemma {:induction false} LinesAsFold(s: Session, lines: seq<string>, ctx: Context)
    requires BreakHarmless(lines, ctx)
    ensures OnLines(s, lines, ctx) == FoldLines(s, lines, ctx)
    decreases |lines|
  {
    if lines != [] {
      var st := OnLine(s, lines[0], ctx);
      if st.stop {
        forall j | 0 <= j < |lines[1..]| ensures Inert(lines[1..][j], ctx) {
          assert lines[1..][j] == lines[j + 1];
        }
        InertLines(st.session, lines[1..], ctx);
      } else {
        forall i, j | 0 <= i < j < |lines[1..]| && IsCompleteLine(lines[1..][i], ctx)
          ensures Inert(lines[1..][j], ctx)
        {
          assert lines[1..][i] == lines[i + 1] && lines[1..][j] == lines[j + 1];
        }
        LinesAsFold(st.session, lines[1..], ctx);
      }
    }
  }

  lemma {:induction false} FoldAppend(s: Session, a: seq<string>, b: seq<string>, ctx: Context)
    ensures FoldLines(s, a + b, ctx) == FoldLines(FoldLines(s, a, ctx), b, ctx)
    decreases |a|
  {
    if a == [] {
      assert a + b == b;
    } else {
      assert (a + b)[0] == a[0];
      assert (a + b)[1..] == a[1..] + b;
      FoldAppend(OnLine(s, a[0], ctx).session, a[1..], b, ctx);
    }
  }

  lemma HarmlessParts(a: seq<string>, b: seq<string>, ctx: Context)
    requires BreakHarmless(a + b, ctx)
    ensures BreakHarmless(a, ctx) && BreakHarmless(b, ctx)
  {
    forall i, j | 0 <= i < j < |a| && IsCompleteLine(a[i], ctx) ensures Inert(a[j], ctx) {
      assert (a + b)[i] == a[i] && (a + b)[j] == a[j];
    }
    forall i, j | 0 <= i < j < |b| && IsCompleteLine(b[i], ctx) ensures Inert(b[j], ctx) {
      assert (a + b)[|a| + i] == b[i] && (a + b)[|a| + j] == b[j];
    }
  }

  /** When only ignored lines follow any `complete` line, reading chunk by
      chunk handles every complete line of the transfer, in order, each
      once. */
  lemma {:induction false} ChunksAsFold(s: Session, buffer: string, chunks: seq<string>, ctx: Context)
    requires '\n' !in buffer
    requires BreakHarmless(FeedAll(buffer, chunks).lines, ctx)
    ensures OnChunks(Reader(s, buffer), chunks, ctx)
            == Reader(FoldLines(s, FeedAll(buffer, chunks).lines, ctx), FeedAll(buffer, chunks).buffer)
    decreases |chunks|
  {
    if chunks != [] {
      var f := Feed(buffer, chunks[0]);
      var g := FeedAll(f.buffer, chunks[1..]);
      HarmlessParts(f.lines, g.lines, ctx);
      LinesAsFold(s, f.lines, ctx);
      ChunksAsFold(OnLines(s, f.lines, ctx), f.buffer, chunks[1..], ctx);
      FoldAppend(s, f.lines, g.lines, ctx);
    }
  }

  /** A transfer that ends cleanly, read chunk by chunk, against the
      break-free fold over the lines of the whole transfer. */
  lemma ReadAsFold(s: Session, chunks: seq<string>, ctx: Context)
    requires BreakHarmless(Feed("", Concat(chunks)).lines, ctx)
    ensures ReadBody(s, Body(chunks, Done), ctx) == FoldLines(s, Feed("", Concat(chunks)).lines, ctx)
  {
    ChunkingIrrelevant("", chunks);
    ChunksAsFold(s, "", chunks, ctx);
  }

  // ---------------------------------------------------------------------
  // The error envelope as evidently intended: the `throw` at line 225 was
  // meant to reach the outer `catch`, ending the read with the message.

  const StreamError: string := "Stream error"

  predicate IsErrorLine(line: string, ctx: Context) {
    LineEnvelope(line, ctx).Some? && LineEnvelope(line, ctx).value.ErrorEnvelope?
  }

  /** The line loop over a transfer's lines where an error envelope ends
      the read and is shown, as the outer `catch` shows any other failure. */
  function SurfacingLines(s: Session, lines: seq<string>, ctx: Context): (r: Session)
    ensures (forall i :: 0 <= i < |lines| ==> !IsErrorLine(lines[i], ctx)) ==> r == OnLines(s, lines, ctx)
    ensures lines != [] && IsErrorLine(lines[0], ctx) ==>
              var m := LineEnvelope(lines[0], ctx).value.message;
              r == Session(Fail(s.view, if m == "" then StreamError else m), s.cache)
    decreases |lines|
  {
    if lines == [] then s
    else if IsErrorLine(lines[0], ctx) then
      var m := LineEnvelope(lines[0], ctx).value.message;
      Session(Fail(s.view, if m == "" then StreamError else m), s.cache)
    else
      var st := OnLine(s, lines[0], ctx);
      if st.stop then st.session
      else
        assert forall i :: 0 <= i < |lines[1..]| ==> lines[1..][i] == lines[i + 1];
        SurfacingLines(st.session, lines[1..], ctx)
  }

  /** With the intended dispatcher an error envelope after any number of
      section updates is shown with its message and stops the stream; the
      sections streamed so far stay. */
  lemma {:induction false} ErrorEndsStream(s: Session, pre: seq<string>, line: string, post: seq<string>, ctx: Context)
    requires forall i :: 0 <= i < |pre| ==> !IsErrorLine(pre[i], ctx) && !IsCompleteLine(pre[i], ctx)
    requires IsErrorLine(line, ctx) && LineEnvelope(line, ctx).value.message != ""
    ensures SurfacingLines(s, pre + [line] + post, ctx)
            == Session(Fail(OnLines(s, pre, ctx).view, LineEnvelope(line, ctx).value.message), s.cache)
    decreases |pre|
  {
    if pre == [] {
      assert pre + [line] + post == [line] + post;
    } else {
      assert (pre + [line] + post)[0] == pre[0];
      assert (pre + [line] + post)[1..] == pre[1..] + [line] + post;
      var st := OnLine(s, pre[0], ctx);
      assert !st.stop && st.session.cache == s.cache;
      ErrorEndsStream(st.session, pre[1..], line, post, ctx);
    }
  }

  /** A finished analysis stays available for seven days from the moment
      its `complete` envelope was handled: the same request is served from
      memory, reopening the modal shows it as coming from the cache, and
      after a page reload localStorage still has it when its write there
      succeeded. The second request's own clock and storage outcome do not
      matter, since it never reaches the network. */
  lemma CompletedAnalysisCached(p: Props, cache: Cache<StrongsInfo>, now: int, savedAt: int, stored: bool,
                                classify: string -> Envelope, t: Transport,
                                later: int, savedAt2: int, stored2: bool, t2: Transport)
    requires p.isOpen && 0 <= savedAt <= later < savedAt + DefaultExpiryDays * MsPerDay
    requires !Fetch(p, cache, now, savedAt, stored, classify, t).view.isFromCache
    requires Fetch(p, cache, now, savedAt, stored, classify, t).view.parsedData.Some?
    ensures Lookup(Fetch(p, cache, now, savedAt, stored, classify, t).cache, KeyOf(p), later).found
            == Fetch(p, cache, now, savedAt, stored, classify, t).view.parsedData
    ensures stored ==>
              Lookup(Reload(Fetch(p, cache, now, savedAt, stored, classify, t).cache), KeyOf(p), later).found
              == Fetch(p, cache, now, savedAt, stored, classify, t).view.parsedData
    ensures Fetch(p, Fetch(p, cache, now, savedAt, stored, classify, t).cache, later, savedAt2, stored2, classify, t2).view
            == FromCache(Fetch(p, cache, now, savedAt, stored, classify, t).view.parsedData.value)
  {
    var r := Fetch(p, cache, now, savedAt, stored, classify, t);
    assert Saved(r, Context(KeyOf(p), savedAt, stored, classify));
  }

  /** The handler behind the example below: `c` is the complete envelope,
      `u` an update to `OtherUses`. */
  function ExampleContext(d: StrongsInfo): Context {
    Context("k", 0, true, x => if x == "c" then Complete(d)
                         else if x == "u" then SectionUpdate("OtherUses", "z")
                         else Malformed)
  }

  /** An illustration on one concrete stream, not a general law: `break`
      ends only the current chunk's line loop, so a section update that
      follows `complete` in the same chunk is skipped, while the same update
      arriving in the next chunk is applied. */
  lemma BreakEndsOnlyCurrentChunk(c: Cache<StrongsInfo>, d: StrongsInfo)
    ensures var ctx := ExampleContext(d);
            var one := OnChunks(Reader(Session(Started, c), ""), ["c\nu\n"], ctx).session;
            var two := OnChunks(Reader(Session(Started, c), ""), ["c\n", "u\n"], ctx).session;
            one.view.parsedData == Some(d) && two.view.parsedData == Some(d)
            && Section(one.view.streamedSections, "OtherUses") == ""
            && Section(two.view.streamedSections, "OtherUses") == "z"
  {
    FedExample();
    var afterC := ExampleComplete(c, d);
    OneChunk(c, d, afterC);
    TwoChunks(c, d, afterC);
  }

  lemma ExampleComplete(c: Cache<StrongsInfo>, d: StrongsInfo) returns (afterC: Session)
    ensures var st := OnLine(Session(Started, c), "c", ExampleContext(d));
            st.stop && st.session == afterC
    ensures afterC.view.parsedData == Some(d)
    ensures Section(afterC.view.streamedSections, "OtherUses") == ""
  {
    CleanExample();
    assert LineEnvelope("c", ExampleContext(d)) == Some(Complete(d));
    afterC := OnLine(Session(Started, c), "c", ExampleContext(d)).session;
  }

  lemma OneChunk(c: Cache<StrongsInfo>, d: StrongsInfo, afterC: Session)
    requires Feed("", "c\nu\n") == Fed(["c", "u"], "")
    requires var st := OnLine(Session(Started, c), "c", ExampleContext(d));
             st.stop && st.session == afterC
    ensures OnChunks(Reader(Session(Started, c), ""), ["c\nu\n"], ExampleContext(d)).session == afterC
  {
    var ctx := ExampleContext(d);
    assert OnLines(Session(Started, c), ["c", "u"], ctx) == afterC;
    assert OnChunks(Reader(Session(Started, c), ""), ["c\nu\n"], ctx) == OnChunks(Reader(afterC, ""), [], ctx);
  }

  lemma TwoChunks(c: Cache<StrongsInfo>, d: StrongsInfo, afterC: Session)
    requires Feed("", "c\n") == Fed(["c"], "") && Feed("", "u\n") == Fed(["u"], "")
    requires var st := OnLine(Session(Started, c), "c", ExampleContext(d));
             st.stop && st.session == afterC
    requires afterC.view.parsedData == Some(d)
    requires Section(afterC.view.streamedSections, "OtherUses") == ""
    ensures var two := OnChunks(Reader(Session(Started, c), ""), ["c\n", "u\n"], ExampleContext(d)).session;
            two.view.parsedData == Some(d) && Section(two.view.streamedSections, "OtherUses") == "z"
  {
    var ctx := ExampleContext(d);
    var rd := OnChunk(Reader(Session(Started, c), ""), "c\n", ctx);
    assert OnLines(Session(Started, c), ["c"], ctx) == afterC;
    assert rd == Reader(afterC, "");
    assert ["c\n", "u\n"][1..] == ["u\n"];
    UpdateChunk(afterC, d);
  }

  lemma UpdateChunk(afterC: Session, d: StrongsInfo)
    requires Feed("", "u\n") == Fed(["u"], "")
    requires afterC.view.parsedData == Some(d)
    requires Section(afterC.view.streamedSections, "OtherUses") == ""
    ensures var s := OnChunks(Reader(afterC, ""), ["u\n"], ExampleContext(d)).session;
            s.view.parsedData == Some(d) && Section(s.view.streamedSections, "OtherUses") == "z"
  {
    var ctx := ExampleContext(d);
    CleanExample();
    assert LineEnvelope("u", ctx) == Some(SectionUpdate("OtherUses", "z"));
    var afterU := OnLine(afterC, "u", ctx);
    assert OnLines(afterC, ["u"], ctx) == afterU.session;
    assert OnChunks(Reader(afterC, ""), ["u\n"], ctx) == OnChunk(Reader(afterC, ""), "u\n", ctx);
  }

  lemma CleanExample()
    ensures Clean("c") == Some("c") && Clean("u") == Some("u")
  {
    assert !IsSpace(Js, 'c') && !IsSpace(Js, 'u');
    assert !(DataPrefix <= "c") && !(DataPrefix <= "u");
  }

  lemma FedExample()
    ensures Feed("", "c\nu\n") == Fed(["c", "u"], "")
    ensures Feed("", "c\n") == Fed(["c"], "")
    ensures Feed("", "u\n") == Fed(["u"], "")
  {
    FedBoth();
    assert "c" + "\n" == "c\n" && "u" + "\n" == "u\n";
    FedOne("c");
    FedOne("u");
  }

  /** A chunk holding one terminated line yields that line and an empty
      buffer. */
  lemma FedOne(line: string)
    requires '\n' !in line
    ensures Feed("", line + "\n") == Fed([line], "")
  {
    assert Terminated([line]) == line + "\n" by {
      assert Terminated([line][1..]) == "";
    }
    FeedLines([line], line + "\n");
  }

  lemma FedBoth()
    ensures Feed("", "c\nu\n") == Fed(["c", "u"], "")
  {
    assert Terminated(["c", "u"]) == "c\n" + Terminated(["u"]);
    FeedLines(["c", "u"], "c\nu\n");
  }

  /** A text of complete lines is read back as those lines and no fragment. */
  lemma FeedLines(lines: seq<string>, text: string)
    requires NoLineFeed(lines) && text == Terminated(lines)
    ensures Feed("", text) == Fed(lines, "")
  {
    var f := Feed("", text);
    assert "" + text == text && Terminated(lines) + "" == text;
    TerminatedUnique(f.lines, f.buffer, lines, "");
  }
}

=== FILE: strongs_parsers.dfy ===
/** The pure parsers the Strong's analysis modal applies to the document's
    text fields (bible-study-fe-2/src/modals/StrongsAnalysisModal.tsx:276-291
    and 325-356). */
module StrongsParsers {
  import opened Text
  import opened Framing

  datatype WordHeader = WordHeader(parsedWord: string, strongsNum: string)

  /** `parseWordHeader`: the trimmed first and second `|`-separated parts,
      `""` for a part that is missing. */
  function ParseWordHeader(header: string): (r: WordHeader)
    ensures r.parsedWord == Trim(Js, Split(header, '|')[0])
    ensures r.strongsNum == if |Split(header, '|')| > 1 then Trim(Js, Split(header, '|')[1]) else ""
    ensures Trimmed(Js, r.parsedWord) && Trimmed(Js, r.strongsNum)
    ensures '|' !in r.parsedWord && '|' !in r.strongsNum
  {
    if header == "" then WordHeader("", "")
    else
      var parts := Split(header, '|');
      var w := Trim(Js, parts[0]);
      var n := if |parts| > 1 then Trim(Js, parts[1]) else "";
      TrimAllBarFree(parts);
      WordHeader(w, n)
  }

  /** A character absent from a text is absent from its trim. */
  lemma TrimSubsequence(f: Flavor, s: string, c: char)
    requires c !in s
    ensures c !in Trim(f, s)
  {
    var x, y := TrimSplits(f, s);
    assert s == x + Trim(f, s) + y;
  }

  lemma TrimAllBarFree(parts: seq<string>)
    requires forall i :: 0 <= i < |parts| ==> '|' !in parts[i]
    ensures forall i :: 0 <= i < |parts| ==> '|' !in Trim(Js, parts[i])
  {
    forall i | 0 <= i < |parts| ensures '|' !in Trim(Js, parts[i]) {
      TrimSubsequence(Js, parts[i], '|');
    }
  }

  /** A header written as `word | number` (any whitespace around the bar)
      parses back into its two parts. */
  lemma WordHeaderRoundTrip(word: string, num: string, pad1: string, pad2: string)
    requires Trimmed(Js, word) && Trimmed(Js, num)
    requires '|' !in word && '|' !in num && '|' !in pad1 && '|' !in pad2
    requires AllSpace(Js, pad1) && AllSpace(Js, pad2)
    ensures ParseWordHeader(word + pad1 + "|" + pad2 + num) == WordHeader(word, num)
  {
    var a, b := word + pad1, pad2 + num;
    assert word + pad1 + "|" + pad2 + num == Join([a, b], '|');
    SplitJoin([a, b], '|');
    TrimUnique(Js, [], word, pad1);
    assert [] + word + pad1 == a;
    TrimUnique(Js, pad2, num, []);
    assert pad2 + num + [] == b;
  }

  /** The pieces kept by `parseRootMeanings`: the non-empty ones, in order,
      each as often as it occurs. */
  function KeepNonEmpty(xs: seq<string>): (r: seq<string>)
    ensures forall i :: 0 <= i < |r| ==> r[i] != "" && r[i] in xs
    ensures Subsequence(r, xs)
    ensures forall x :: x != "" ==> multiset(r)[x] == multiset(xs)[x]
    ensures (forall i :: 0 <= i < |xs| ==> xs[i] != "") ==> r == xs
    decreases |xs|
  {
    if xs == [] then []
    else
      var rest := KeepNonEmpty(xs[1..]);
      KeepStep(xs, rest);
      if xs[0] == "" then rest else [xs[0]] + rest
  }

  /** The four facts `KeepNonEmpty` promises, bundled for its inductive step. */
  ghost predicate KeptFrom(r: seq<string>, xs: seq<string>) {
    (forall i :: 0 <= i < |r| ==> r[i] != "" && r[i] in xs)
    && Subsequence(r, xs)
    && (forall x :: x != "" ==> multiset(r)[x] == multiset(xs)[x])
    && ((forall i :: 0 <= i < |xs| ==> xs[i] != "") ==> r == xs)
  }

  lemma KeepStep(xs: seq<string>, rest: seq<string>)
    requires xs != [] && KeptFrom(rest, xs[1..])
    ensures KeptFrom(if xs[0] == "" then rest else [xs[0]] + rest, xs)
  {
    assert xs == [xs[0]] + xs[1..];
    assert multiset(xs) == multiset{xs[0]} + multiset(xs[1..]);
    if xs[0] == "" {
      SubsequenceSkip(xs[0], rest, xs[1..]);
    } else {
      assert multiset([xs[0]] + rest) == multiset{xs[0]} + multiset(rest);
      SubsequenceCons(xs[0], rest, xs[1..]);
    }
  }

  function TrimAll(xs: seq<string>): (r: seq<string>)
    ensures |r| == |xs|
    ensures forall i :: 0 <= i < |xs| ==> r[i] == Trim(Js, xs[i])
  {
    seq(|xs|, i requires 0 <= i < |xs| => Trim(Js, xs[i]))
  }

  /** `parseRootMeanings`: the `|`-separated meanings, trimmed, empty ones
      dropped. */
  function ParseRootMeanings(meanings: string): (r: seq<string>)
    ensures forall i :: 0 <= i < |r| ==> r[i] != "" && Trimmed(Js, r[i]) && '|' !in r[i]
    ensures Subsequence(r, TrimAll(Split(meanings, '|')))
    ensures forall x :: x != "" ==> multiset(r)[x] == multiset(TrimAll(Split(meanings, '|')))[x]
    ensures meanings == "" ==> r == []
  {
    EmptyMeanings();
    if meanings == "" then []
    else
      var pieces := TrimAll(Split(meanings, '|'));
      TrimAllBarFree(Split(meanings, '|'));
      KeepNonEmpty(pieces)
  }

  /** Meanings joined with `|` parse back into the same list. */
  lemma RootMeaningsRoundTrip(ms: seq<string>)
    requires forall i :: 0 <= i < |ms| ==> ms[i] != "" && Trimmed(Js, ms[i]) && '|' !in ms[i]
    ensures ParseRootMeanings(Join(ms, '|')) == ms
  {
    if ms != [] {
      var s := Join(ms, '|');
      JoinKeepsFirst(ms, '|');
      assert s != "" by {
        assert |ms[0]| <= |s|;
      }
      SplitJoin(ms, '|');
      TrimAllTrimmed(ms);
      assert ParseRootMeanings(s) == KeepNonEmpty(TrimAll(Split(s, '|')));
    }
  }

  /** The empty text splits into one empty piece, which is dropped, so the
      guard of `parseRootMeanings` only short-cuts what the filter does. */
  lemma EmptyMeanings()
    ensures TrimAll(Split("", '|')) == [""]
  {
    assert Split("", '|') == [""];
  }

  /** Any bar-free pieces joined with `|` read back as their trims, empty
      ones dropped, in order: padded and empty meanings included. */
  lemma RootMeaningsOfJoin(ps: seq<string>)
    requires forall i :: 0 <= i < |ps| ==> '|' !in ps[i]
    ensures ParseRootMeanings(Join(ps, '|')) == KeepNonEmpty(TrimAll(ps))
  {
    var s := Join(ps, '|');
    if s == "" {
      if |ps| == 1 {
        assert TrimAll(ps) == [""];
      }
    } else {
      assert ps != [];
      SplitJoin(ps, '|');
    }
  }

  lemma TrimAllTrimmed(xs: seq<string>)
    requires forall i :: 0 <= i < |xs| ==> Trimmed(Js, xs[i])
    ensures TrimAll(xs) == xs
  {
    forall i | 0 <= i < |xs| ensures Trim(Js, xs[i]) == xs[i] {
      TrimKeepsTrimmed(Js, xs[i]);
    }
  }

  lemma JoinKeepsFirst(parts: seq<string>, sep: char)
    requires parts != []
    ensures parts[0] <= Join(parts, sep)
  {
  }

  /** The positions `text.split(/(?=marker)/)` cuts at: every occurrence of
      `marker` except one at the very start. */
  function SplitBefore(text: string, marker: string): (pieces: seq<string>)
    requires marker != ""
    ensures |pieces| >= 1
    ensures Concat(pieces) == text
    decreases |text|
  {
    if |text| == 0 then [text]
    else match IndexFrom(text, marker, 1)
      case None => [text]
      case Some(k) =>
        var rest := SplitBefore(text[k..], marker);
        ConcatCons(text[..k], rest);
        assert text[..k] + text[k..] == text;
        [text[..k]] + rest
  }

  /** Every cut is made where the marker begins. */
  lemma {:induction false} CutsAtMarker(text: string, marker: string)
    requires marker != ""
    ensures forall i :: 1 <= i < |SplitBefore(text, marker)| ==> marker <= Concat(SplitBefore(text, marker)[i..])
    decreases |text|
  {
    if |text| > 0 && IndexFrom(text, marker, 1).Some? {
      var k := IndexFrom(text, marker, 1).value;
      var rest := SplitBefore(text[k..], marker);
      CutsAtMarker(text[k..], marker);
      MarkerStartsTail(text, marker, k);
      CutBeforeEach(text[..k], rest, marker);
      assert SplitBefore(text, marker) == [text[..k]] + rest;
    }
  }

  lemma MarkerStartsTail(text: string, marker: string, k: nat)
    requires OccursAt(text, marker, k)
    ensures marker <= text[k..]
  {
    assert text[k..][..|marker|] == text[k..k + |marker|];
  }

  /** Putting a piece in front keeps every later piece starting a marker. */
  lemma CutBeforeEach(first: string, rest: seq<string>, marker: string)
    requires rest != [] && marker <= Concat(rest)
    requires forall i :: 1 <= i < |rest| ==> marker <= Concat(rest[i..])
    ensures forall i :: 1 <= i < |[first] + rest| ==> marker <= Concat(([first] + rest)[i..])
  {
    forall i | 1 <= i < |[first] + rest| ensures marker <= Concat(([first] + rest)[i..]) {
      assert ([first] + rest)[i..] == rest[i - 1..];
      if i == 1 {
        assert rest[0..] == rest;
      }
    }
  }

  lemma ConcatCons(first: string, rest: seq<string>)
    ensures Concat([first] + rest) == first + Concat(rest)
  {
    assert ([first] + rest)[1..] == rest;
  }

  const ReferenceMarker: string := "**Reference:**"
  const MaxOtherUses: nat := 8

  /** One parsed entry of the "other uses" section. */
  datatype OtherUse = OtherUse(reference: string, fullVerse: string, senseUsed: string, bestSynonym: string)

  /** The non-blank pieces, each read by the field extractor. */
  function ReadPieces(pieces: seq<string>, extract: string -> OtherUse): (r: seq<OtherUse>)
    ensures |r| <= |pieces|
    decreases |pieces|
  {
    if pieces == [] then []
    else if AllSpace(Js, pieces[0]) then ReadPieces(pieces[1..], extract)
    else [extract(pieces[0])] + ReadPieces(pieces[1..], extract)
  }

  /** `.filter((item) => item.reference.length > 0)`: the referenced
      entries, in order, each as often as it occurs. */
  function WithReference(items: seq<OtherUse>): (r: seq<OtherUse>)
    ensures forall i :: 0 <= i < |r| ==> r[i].reference != "" && r[i] in items
    ensures Subsequence(r, items)
    ensures forall x: OtherUse :: x.reference != "" ==> multiset(r)[x] == multiset(items)[x]
    ensures |r| <= |items|
    decreases |items|
  {
    if items == [] then []
    else
      var rest := WithReference(items[1..]);
      var r := if items[0].reference == "" then rest else [items[0]] + rest;
      ReferencedStepKept(items, rest, r);
      ReferencedStepOrder(items, rest, r);
      ReferencedStepCounts(items, rest, r);
      r
  }

  /** One step of the filter, the first entry kept or skipped: what is kept
      is referenced and comes from the list. */
  lemma ReferencedStepKept(items: seq<OtherUse>, rest: seq<OtherUse>, r: seq<OtherUse>)
    requires items != []
    requires forall i :: 0 <= i < |rest| ==> rest[i].reference != "" && rest[i] in items[1..]
    requires r == if items[0].reference == "" then rest else [items[0]] + rest
    ensures forall i :: 0 <= i < |r| ==> r[i].reference != "" && r[i] in items
  {
    forall y | y in items[1..] ensures y in items {
      assert items == [items[0]] + items[1..];
    }
  }

  /** The same step keeps the order. */
  lemma ReferencedStepOrder(items: seq<OtherUse>, rest: seq<OtherUse>, r: seq<OtherUse>)
    requires items != [] && Subsequence(rest, items[1..])
    requires r == if items[0].reference == "" then rest else [items[0]] + rest
    ensures Subsequence(r, items)
  {
    SubsequenceHead(items, rest);
  }

  /** The same step keeps every referenced entry, as often as it occurs. */
  lemma ReferencedStepCounts(items: seq<OtherUse>, rest: seq<OtherUse>, r: seq<OtherUse>)
    requires items != []
    requires forall x: OtherUse :: x.reference != "" ==> multiset(rest)[x] == multiset(items[1..])[x]
    requires r == if items[0].reference == "" then rest else [items[0]] + rest
    ensures forall x: OtherUse :: x.reference != "" ==> multiset(r)[x] == multiset(items)[x]
  {
    assert items == [items[0]] + items[1..];
    assert multiset(items) == multiset{items[0]} + multiset(items[1..]);
    forall x: OtherUse | x.reference != "" ensures multiset(r)[x] == multiset(items)[x] {
      if items[0].reference == "" {
        assert x != items[0];
      } else {
        assert multiset(r) == multiset{items[0]} + multiset(rest);
      }
    }
  }

  /** `parseOtherUses`: the entries that have a reference, at most eight, in
      document order. The per-field regular expressions are the parameter
      `extract`. */
  function ParseOtherUses(text: string, extract: string -> OtherUse): (r: seq<OtherUse>)
    ensures |r| <= MaxOtherUses
    ensures forall i :: 0 <= i < |r| ==> r[i].reference != ""
    ensures text != "" ==>
              var all := WithReference(ReadPieces(SplitBefore(text, ReferenceMarker), extract));
              r <= all && (|r| == MaxOtherUses || r == all)
    ensures text == "" ==> r == []
  {
    if text == "" then []
    else
      var all := WithReference(ReadPieces(SplitBefore(text, ReferenceMarker), extract));
      if |all| <= MaxOtherUses then all else all[..MaxOtherUses]
  }
}

=== FILE: text.dfy ===
/** String primitives shared by the front end (JavaScript) and the back end
    (Python): whitespace as each language defines it, trimming, ASCII case
    mapping, substring search, splitting on a character, and decimal
    rendering of integers (template-literal interpolation). */
module Text {
  import opened Wrappers

  /** Whose definition of whitespace a trim or a `\s` uses. */
  datatype Flavor =
    | Js  // String.prototype.trim and the regex class \s
    | Py  // str.strip / str.isspace and the regex class \s on str patterns

  predicate IsSpace(f: Flavor, c: char) {
    match f
    case Js =>
      c == '\t' || c == '\n' || c == '\U{000B}' || c == '\U{000C}' || c == '\r' || c == ' '
      || c == '\U{00A0}' || c == '\U{1680}' || ('\U{2000}' <= c <= '\U{200A}')
      || c == '\U{2028}' || c == '\U{2029}' || c == '\U{202F}' || c == '\U{205F}'
      || c == '\U{3000}' || c == '\U{FEFF}'
    case Py =>
      ('\t' <= c <= '\r') || ('\U{001C}' <= c <= '\U{001F}') || c == ' '
      || c == '\U{0085}' || c == '\U{00A0}' || c == '\U{1680}' || ('\U{2000}' <= c <= '\U{200A}')
      || c == '\U{2028}' || c == '\U{2029}' || c == '\U{202F}' || c == '\U{205F}'
      || c == '\U{3000}'
  }

  predicate AllSpace(f: Flavor, s: string) {
    forall i :: 0 <= i < |s| ==> IsSpace(f, s[i])
  }

  lemma AllSpaceConcat(f: Flavor, a: string, b: string)
    requires AllSpace(f, a) && AllSpace(f, b)
    ensures AllSpace(f, a + b)
  {
    forall i | 0 <= i < |a + b| ensures IsSpace(f, (a + b)[i]) {
      if i < |a| { assert (a + b)[i] == a[i]; } else { assert (a + b)[i] == b[i - |a|]; }
    }
  }

  /** Neither end of `s` is whitespace (vacuously true of ""). */
  predicate Trimmed(f: Flavor, s: string) {
    s == [] || (!IsSpace(f, s[0]) && !IsSpace(f, s[|s| - 1]))
  }

  /** Length of the leading whitespace run. */
  function Lead(f: Flavor, s: string): (k: nat)
    ensures k <= |s|
    ensures forall i :: 0 <= i < k ==> IsSpace(f, s[i])
    ensures k < |s| ==> !IsSpace(f, s[k])
  {
    if |s| > 0 && IsSpace(f, s[0]) then 1 + Lead(f, s[1..]) else 0
  }

  /** Index just past the last non-whitespace character. */
  function End(f: Flavor, s: string): (k: nat)
    ensures k <= |s|
    ensures forall i :: k <= i < |s| ==> IsSpace(f, s[i])
    ensures k > 0 ==> !IsSpace(f, s[k - 1])
  {
    if |s| > 0 && IsSpace(f, s[|s| - 1]) then End(f, s[..|s| - 1]) else |s|
  }

  /** `s.trim()` (JavaScript) or `s.strip()` (Python). */
  function Trim(f: Flavor, s: string): (r: string)
    ensures r == [] <==> AllSpace(f, s)
    ensures Trimmed(f, r)
    ensures |r| <= |s|
  {
    var t := s[Lead(f, s)..];
    assert AllSpace(f, s) <==> t == [] by {
      if !AllSpace(f, s) {
        var i :| 0 <= i < |s| && !IsSpace(f, s[i]);
        assert Lead(f, s) <= i;
      }
    }
    assert t != [] ==> !IsSpace(f, t[0]);
    assert t != [] ==> End(f, t) > 0;
    t[..End(f, t)]
  }

  lemma TrimKeepsTrimmed(f: Flavor, s: string)
    requires Trimmed(f, s)
    ensures Trim(f, s) == s
  {
  }

  /** A text padded with whitespace on both sides trims to its trimmed core:
      the decomposition `x + r + y` is the one `Trim` finds. */
  lemma TrimUnique(f: Flavor, x: string, r: string, y: string)
    requires AllSpace(f, x) && AllSpace(f, y) && Trimmed(f, r)
    ensures Trim(f, x + r + y) == r
  {
    var s := x + r + y;
    if r == [] {
      assert AllSpace(f, s) by {
        forall i | 0 <= i < |s| ensures IsSpace(f, s[i]) {
          if i < |x| { assert s[i] == x[i]; } else { assert s[i] == y[i - |x|]; }
        }
      }
    } else {
      assert s[|x|] == r[0];
      var a := Lead(f, s);
      assert a <= |x| by {
        assert s[|x|] == r[0];
      }
      assert a >= |x| by {
        assert forall i :: 0 <= i < |x| ==> s[i] == x[i];
      }
      var t := s[a..];
      assert t == r + y;
      var b := End(f, t);
      assert b >= |r| by {
        assert t[|r| - 1] == r[|r| - 1];
      }
      assert b <= |r| by {
        assert forall i :: |r| <= i < |t| ==> t[i] == y[i - |r|];
      }
      assert t[..b] == r;
    }
  }

  /** Every text is its trimmed core with whitespace on either side. */
  lemma TrimSplits(f: Flavor, s: string) returns (x: string, y: string)
    ensures AllSpace(f, x) && AllSpace(f, y)
    ensures s == x + Trim(f, s) + y
  {
    var a := Lead(f, s);
    var t := s[a..];
    var b := End(f, t);
    x := s[..a];
    y := t[b..];
    LeadIsSpace(f, s);
    EndIsSpace(f, t);
    SliceThree(s, a, b);
  }

  lemma LeadIsSpace(f: Flavor, s: string)
    ensures AllSpace(f, s[..Lead(f, s)])
  {
    assert forall i :: 0 <= i < Lead(f, s) ==> s[..Lead(f, s)][i] == s[i];
  }

  lemma EndIsSpace(f: Flavor, t: string)
    ensures AllSpace(f, t[End(f, t)..])
  {
    assert forall i :: 0 <= i < |t| - End(f, t) ==> t[End(f, t)..][i] == t[End(f, t) + i];
  }

  lemma SliceThree(s: string, a: nat, b: nat)
    requires a <= |s| && b <= |s| - a
    ensures s == s[..a] + s[a..][..b] + s[a..][b..]
  {
    assert s == s[..a] + s[a..];
    assert s[a..] == s[a..][..b] + s[a..][b..];
  }

  /** ASCII-only lower-casing; every other character is left alone. */
  function LowerChar(c: char): char {
    if 'A' <= c <= 'Z' then (c as int + 32) as char else c
  }

  /** `s.toLowerCase()` restricted to ASCII letters. */
  function Lower(s: string): (r: string)
    ensures |r| == |s|
    ensures forall i {:trigger r[i]} :: 0 <= i < |s| ==> r[i] == LowerChar(s[i])
  {
    seq(|s|, i requires 0 <= i < |s| => LowerChar(s[i]))
  }

  /** Lower-casing twice is lower-casing once. */
  lemma LowerIdempotent(s: string)
    ensures Lower(Lower(s)) == Lower(s)
  {
  }

  /** Every string of a list lower-cased, in place. */
  function LowerAll(words: seq<string>): (r: seq<string>)
    ensures |r| == |words|
    ensures forall i {:trigger r[i]} :: 0 <= i < |words| ==> r[i] == Lower(words[i])
  {
    seq(|words|, i requires 0 <= i < |words| => Lower(words[i]))
  }
  lemma LowerAllCons(words: seq<string>)
    requires words != []
    ensures LowerAll(words) == [Lower(words[0])] + LowerAll(words[1..])
  {
  }


  /** Two extensions in a row are one extension by both. */
  lemma Chain<T>(p: seq<T>, x: seq<T>, y: seq<T>, mid: seq<T>, q: seq<T>)
    requires p + x == mid && mid + y == q
    ensures p + (x + y) == q
  {
    assert p + (x + y) == (p + x) + y;
  }

  lemma LowerOfSlice(s: string, a: nat, b: nat)
    requires a <= b <= |s|
    ensures Lower(s[a..b]) == Lower(s)[a..b]
  {
  }

  lemma LowerConcat(a: string, b: string)
    ensures Lower(a + b) == Lower(a) + Lower(b)
  {
  }

  /** `pat` occurs in `s` starting at index `i`. */
  predicate OccursAt(s: string, pat: string, i: nat) {
    i + |pat| <= |s| && s[i..i + |pat|] == pat
  }

  /** First occurrence of `pat` at or after `i`. */
  function IndexFrom(s: string, pat: string, i: nat): (r: Option<nat>)
    requires i <= |s|
    decreases |s| - i
    ensures r.Some? ==> i <= r.value && OccursAt(s, pat, r.value)
    ensures r.Some? ==> forall j :: i <= j < r.value ==> !OccursAt(s, pat, j)
    ensures r.None? ==> forall j :: i <= j <= |s| ==> !OccursAt(s, pat, j)
  {
    if OccursAt(s, pat, i) then Some(i)
    else if i == |s| then None
    else IndexFrom(s, pat, i + 1)
  }

  /** `s.indexOf(pat)` (or Python's `s.find(pat)`), with `None` for -1. */
  function IndexOf(s: string, pat: string): (r: Option<nat>)
    ensures r.Some? ==> OccursAt(s, pat, r.value)
    ensures r.Some? ==> forall j :: 0 <= j < r.value ==> !OccursAt(s, pat, j)
    ensures r.None? ==> forall j :: 0 <= j <= |s| ==> !OccursAt(s, pat, j)
  {
    IndexFrom(s, pat, 0)
  }

  /** `s.includes(pat)` / Python's `pat in s`. */
  predicate Contains(s: string, pat: string) {
    IndexOf(s, pat).Some?
  }

  lemma ContainsWhenOccurs(s: string, pat: string, i: nat)
    requires OccursAt(s, pat, i)
    ensures Contains(s, pat)
  {
  }

  /** Some pattern of `pats` occurs at index `i`. */
  predicate AnyOccursAt(s: string, pats: seq<string>, i: nat) {
    exists p :: p in pats && OccursAt(s, p, i)
  }

  /** Earliest index at or after `i` where any of `pats` occurs, or `|s|`. */
  function FirstOfAny(s: string, pats: seq<string>, i: nat): (k: nat)
    requires i <= |s|
    decreases |s| - i
    ensures i <= k <= |s|
    ensures forall j :: i <= j < k ==> !AnyOccursAt(s, pats, j)
    ensures k < |s| ==> AnyOccursAt(s, pats, k)
  {
    if i == |s| || AnyOccursAt(s, pats, i) then i else FirstOfAny(s, pats, i + 1)
  }

  /** Index of the first `c` in `s`. */
  function FindChar(s: string, c: char): (i: nat)
    requires c in s
    ensures i < |s| && s[i] == c && c !in s[..i]
  {
    if s[0] == c then 0 else 1 + FindChar(s[1..], c)
  }

  /** Pieces joined with `sep` between them; the inverse of `Split`. */
  function Join(parts: seq<string>, sep: char): string {
    if |parts| == 0 then ""
    else if |parts| == 1 then parts[0]
    else parts[0] + [sep] + Join(parts[1..], sep)
  }

  /** `s.split(sep)` for a one-character separator: never empty. */
  function Split(s: string, sep: char): (parts: seq<string>)
    ensures |parts| >= 1
    ensures forall i :: 0 <= i < |parts| ==> sep !in parts[i]
    ensures Join(parts, sep) == s
    decreases |s|
  {
    if sep !in s then [s]
    else
      var i := FindChar(s, sep);
      var rest := Split(s[i + 1..], sep);
      assert s == s[..i] + [sep] + s[i + 1..];
      [s[..i]] + rest
  }

  /** The first separator of `p + [sep] + t`, when `p` has none, ends `p`. */
  lemma {:induction false} FindCharAfter(p: string, sep: char, t: string)
    requires sep !in p
    ensures sep in p + [sep] + t
    ensures FindChar(p + [sep] + t, sep) == |p|
    decreases |p|
  {
    var s := p + [sep] + t;
    assert s[|p|] == sep;
    if p != [] {
      assert s[1..] == p[1..] + [sep] + t;
      FindCharAfter(p[1..], sep, t);
    }
  }

  /** Splitting a join of separator-free pieces gives the pieces back. */
  lemma {:induction false} SplitJoin(parts: seq<string>, sep: char)
    requires |parts| >= 1
    requires forall i :: 0 <= i < |parts| ==> sep !in parts[i]
    ensures Split(Join(parts, sep), sep) == parts
    decreases |parts|
  {
    if |parts| > 1 {
      var t := Join(parts[1..], sep);
      var s := parts[0] + [sep] + t;
      assert Join(parts, sep) == s;
      FindCharAfter(parts[0], sep, t);
      assert s[..|parts[0]|] == parts[0];
      assert s[|parts[0]| + 1..] == t;
      SplitJoin(parts[1..], sep);
      assert Split(s, sep) == [parts[0]] + Split(t, sep);
      assert parts == [parts[0]] + parts[1..];
    }
  }

  /** `s` with every whitespace character removed (`s.replace(/\s+/g, "")`). */
  function RemoveSpace(f: Flavor, s: string): (r: string)
    ensures forall i :: 0 <= i < |r| ==> !IsSpace(f, r[i])
    ensures |r| <= |s|
  {
    if s == [] then []
    else if IsSpace(f, s[0]) then RemoveSpace(f, s[1..])
    else [s[0]] + RemoveSpace(f, s[1..])
  }

  lemma RemoveSpaceConcat(f: Flavor, a: string, b: string)
    ensures RemoveSpace(f, a + b) == RemoveSpace(f, a) + RemoveSpace(f, b)
  {
    if a == [] {
      assert a + b == b;
    } else {
      assert (a + b)[1..] == a[1..] + b;
      RemoveSpaceConcat(f, a[1..], b);
    }
  }

  /** Whitespace alone leaves nothing behind. */
  lemma {:induction false} AllSpaceRemoved(f: Flavor, pad: string)
    requires AllSpace(f, pad)
    ensures RemoveSpace(f, pad) == ""
    decreases |pad|
  {
    if pad != [] {
      AllSpaceRemoved(f, pad[1..]);
    }
  }

  function DigitChar(d: nat): char
    requires d < 10
  {
    ('0' as int + d) as char
  }

  /** Decimal rendering of a natural number. */
  function NatToString(n: nat): (r: string)
    ensures |r| >= 1
    ensures forall i :: 0 <= i < |r| ==> '0' <= r[i] <= '9'
    decreases n
  {
    if n < 10 then [DigitChar(n)] else NatToString(n / 10) + [DigitChar(n % 10)]
  }

  /** Decimal rendering of an integer, as `${n}` does for a safe integer. */
  function IntToString(n: int): (r: string)
    ensures |r| >= 1
    ensures '-' in r <==> n < 0
  {
    if n < 0 then "-" + NatToString(-n) else NatToString(n)
  }

  /** The text recorded under `name`, or `""` when there is none
      (`m[name] || ""` in JavaScript, `m.get(name, "")` in Python). */
  function Section(m: map<string, string>, name: string): string {
    if name in m then m[name] else ""
  }

  /** The strings of `xs` without repeats, first occurrences kept
      (`[...new Set(xs)]`). */
  function Dedupe(xs: seq<string>): (r: seq<string>)
    ensures forall i, j :: 0 <= i < j < |r| ==> r[i] != r[j]
    ensures forall x :: x in r <==> x in xs
    ensures InFirstOccurrenceOrder(r, xs)
    ensures |r| <= |xs|
  {
    if xs == [] then []
    else
      var pre, x := xs[..|xs| - 1], xs[|xs| - 1];
      var r := Dedupe(pre);
      assert xs == pre + [x];
      FirstIndexExtend(pre, x);
      if x in r then r else r + [x]
  }

  /** Every element of `r` occurs in `xs`, and `r` lists them in the order
      of their first occurrences there. */
  predicate InFirstOccurrenceOrder(r: seq<string>, xs: seq<string>) {
    (forall i :: 0 <= i < |r| ==> r[i] in xs)
    && forall i, j :: 0 <= i < j < |r| ==> FirstIndex(xs, r[i]) < FirstIndex(xs, r[j])
  }

  /** Where `x` first occurs in `xs`. */
  function FirstIndex<T(==)>(xs: seq<T>, x: T): (k: nat)
    requires x in xs
    ensures k < |xs| && xs[k] == x
    ensures forall i :: 0 <= i < k ==> xs[i] != x
  {
    if xs[0] == x then 0 else 1 + FirstIndex(xs[1..], x)
  }

  /** Where `x` first occurs behind a head `h`. */
  lemma FirstIndexCons<T>(h: T, t: seq<T>, x: T)
    requires x in [h] + t
    ensures x != h ==> x in t
    ensures FirstIndex([h] + t, x) == if x == h then 0 else 1 + FirstIndex(t, x)
  {
    assert ([h] + t)[0] == h && ([h] + t)[1..] == t;
  }

  /** Two elements ordered by first occurrence behind a head: the later
      one is not the head, and when neither is, the order holds in the
      tail. */
  lemma FirstIndexTail<T>(xs: seq<T>, h: T, t: seq<T>, a: T, b: T)
    requires xs == [h] + t && a in xs && b in xs
    requires FirstIndex(xs, a) < FirstIndex(xs, b)
    ensures b != h && b in t
    ensures a != h ==> a in t && FirstIndex(t, a) < FirstIndex(t, b)
  {
    FirstIndexCons(h, t, a);
    FirstIndexCons(h, t, b);
  }

  /** The head first occurs before anything else. */
  lemma FirstIndexHeadFirst<T>(xs: seq<T>, h: T, t: seq<T>, b: T)
    requires xs == [h] + t && b != h && b in t
    ensures h in xs && b in xs
    ensures FirstIndex(xs, h) < FirstIndex(xs, b)
  {
    FirstIndexCons(h, t, h);
    FirstIndexCons(h, t, b);
  }

  /** Putting a head that is neither element in front keeps their order. */
  lemma FirstIndexLift<T>(xs: seq<T>, h: T, t: seq<T>, a: T, b: T)
    requires xs == [h] + t && a != h && b != h && a in t && b in t
    requires FirstIndex(t, a) < FirstIndex(t, b)
    ensures a in xs && b in xs
    ensures FirstIndex(xs, a) < FirstIndex(xs, b)
  {
    FirstIndexCons(h, t, a);
    FirstIndexCons(h, t, b);
  }

  /** Appending an element moves no first occurrence; a new element first
      occurs at the end. */
  lemma FirstIndexExtend<T>(pre: seq<T>, x: T)
    ensures forall y :: y in pre ==> FirstIndex(pre + [x], y) == FirstIndex(pre, y)
    ensures x !in pre ==> FirstIndex(pre + [x], x) == |pre|
  {
    var xs := pre + [x];
    forall y | y in pre ensures FirstIndex(xs, y) == FirstIndex(pre, y) {
      var k := FirstIndex(pre, y);
      assert xs[k] == y;
      var k1 := FirstIndex(xs, y);
      assert pre[k1] == xs[k1];
    }
    if x !in pre {
      assert xs[|pre|] == x;
    }
  }


  /** `sub` lists some of the elements of `xs`, in the same order. */
  predicate Subsequence<T(==)>(sub: seq<T>, xs: seq<T>)
    decreases |xs|
  {
    sub == []
    || (xs != [] && ((sub[0] == xs[0] && Subsequence(sub[1..], xs[1..])) || Subsequence(sub, xs[1..])))
  }

  /** A subsequence of the tail is one of the whole list with the head in
      front of both... */
  lemma SubsequenceCons<T>(x: T, sub: seq<T>, xs: seq<T>)
    requires Subsequence(sub, xs)
    ensures Subsequence([x] + sub, [x] + xs)
  {
    assert ([x] + sub)[1..] == sub && ([x] + xs)[1..] == xs;
  }

  /** ... and without the head in front of it. */
  lemma SubsequenceSkip<T>(x: T, sub: seq<T>, xs: seq<T>)
    requires Subsequence(sub, xs)
    ensures Subsequence(sub, [x] + xs)
  {
    assert ([x] + xs)[1..] == xs;
  }

  /** Concatenation regroups freely. */
  lemma ConcatAssoc<T>(a: seq<T>, b: seq<T>, c: seq<T>)
    ensures a + (b + c) == (a + b) + c
  {
  }

  /** Dropping a prefix leaves the rest. */
  lemma DropFront<T>(a: seq<T>, b: seq<T>)
    ensures (a + b)[|a|..] == b
  {
  }

  lemma SubsequenceHead<T>(xs: seq<T>, sub: seq<T>)
    requires xs != [] && Subsequence(sub, xs[1..])
    ensures Subsequence([xs[0]] + sub, xs)
    ensures Subsequence(sub, xs)
    ensures multiset(xs) == multiset{xs[0]} + multiset(xs[1..])
    ensures multiset([xs[0]] + sub) == multiset{xs[0]} + multiset(sub)
  {
    assert xs == [xs[0]] + xs[1..];
    SubsequenceCons(xs[0], sub, xs[1..]);
    SubsequenceSkip(xs[0], sub, xs[1..]);
  }
}

=== FILE: ttl_cache.dfy ===
/** The two-tier, time-limited cache of Strong's analyses
    (bible-study-fe-2/src/modals/StrongsAnalysisModal.tsx:64-122): records
    live in a page-lifetime memory object and in localStorage, each carrying
    an absolute expiry time. `now` stands for `Date.now()` and is a parameter
    of every operation. */
module TtlCache {
  import opened Wrappers
  import opened Text
  import opened Storage

  const MsPerDay: int := 24 * 60 * 60 * 1000
  const DefaultExpiryDays: int := 7

  /** `window.strongsCache` (absent until the first save of the page's
      lifetime) together with localStorage. */
  datatype Cache<T> = Cache(memory: Option<map<string, Entry<T>>>, storage: LocalStorage<T>)

  /** The cache as a fresh page load finds it: the memory tier is gone. */
  function Reload<T>(c: Cache<T>): Cache<T> {
    Cache(None, c.storage)
  }

  /** How the word of a key is normalised: `word.toLowerCase().trim()`. */
  function NormalizeWord(word: string): string {
    Trim(Js, Lower(word))
  }

  function KeyPrefix(book: string, chapter: int, verse: int): string {
    "strongs-" + book + "-" + IntToString(chapter) + "-" + IntToString(verse) + "-"
  }

  /** `strongs-<book>-<chapter>-<verse>-<normalised word>`. */
  function CacheKey(book: string, chapter: int, verse: int, word: string): (k: string)
    ensures KeyPrefix(book, chapter, verse) <= k
    ensures k[|KeyPrefix(book, chapter, verse)|..] == NormalizeWord(word)
  {
    KeyPrefix(book, chapter, verse) + NormalizeWord(word)
  }

  /** At one verse, two words share a key exactly when they normalise alike. */
  lemma CacheKeyIdentifiesWord(book: string, chapter: int, verse: int, w1: string, w2: string)
    ensures CacheKey(book, chapter, verse, w1) == CacheKey(book, chapter, verse, w2)
            <==> NormalizeWord(w1) == NormalizeWord(w2)
  {
    var p := KeyPrefix(book, chapter, verse);
    if CacheKey(book, chapter, verse, w1) == CacheKey(book, chapter, verse, w2) {
      assert (p + NormalizeWord(w1))[|p|..] == NormalizeWord(w1);
      assert (p + NormalizeWord(w2))[|p|..] == NormalizeWord(w2);
    }
  }

  lemma LowerKeepsSpace(s: string)
    requires AllSpace(Js, s)
    ensures AllSpace(Js, Lower(s))
  {
  }

  lemma NormalizeIgnoresPadding(word: string, x: string, y: string)
    requires AllSpace(Js, x) && AllSpace(Js, y)
    ensures NormalizeWord(x + word + y) == NormalizeWord(word)
  {
    var lw := Lower(word);
    var u, v := TrimSplits(Js, lw);
    var core := Trim(Js, lw);
    var lx, ly := Lower(x), Lower(y);
    LowerConcat(x + word, y);
    LowerConcat(x, word);
    LowerKeepsSpace(x);
    LowerKeepsSpace(y);
    AllSpaceConcat(Js, lx, u);
    AllSpaceConcat(Js, v, ly);
    Regroup(lx, u, core, v, ly);
    TrimUnique(Js, lx + u, core, v + ly);
  }

  lemma Regroup(a: string, b: string, c: string, d: string, e: string)
    ensures a + (b + c + d) + e == (a + b) + c + (d + e)
  {
  }

  /** Words that differ only in letter case, or in whitespace around them,
      share a key. */
  lemma CaseAndPaddingShareKey(book: string, chapter: int, verse: int, word: string, x: string, y: string)
    requires AllSpace(Js, x) && AllSpace(Js, y)
    ensures CacheKey(book, chapter, verse, Lower(word)) == CacheKey(book, chapter, verse, word)
    ensures CacheKey(book, chapter, verse, x + word + y) == CacheKey(book, chapter, verse, word)
  {
    LowerIdempotent(word);
    NormalizeIgnoresPadding(word, x, y);
  }

  /** The record `saveToCacheWithExpiry` writes. */
  function MakeEntry<T>(data: T, now: int, expiryDays: int): (e: Entry<T>)
    ensures e.data == data && e.timestamp == now
    ensures e.expiry - e.timestamp == expiryDays * MsPerDay
    ensures expiryDays > 0 ==> e.expiry > now
  {
    Entry(data, now, now + expiryDays * MsPerDay)
  }

  /** `saveToCacheWithExpiry`: the same record goes to both tiers (creating
      the memory object when absent); no other key changes. */
  function Save<T>(c: Cache<T>, key: string, data: T, now: int, expiryDays: int): (c': Cache<T>)
    ensures c'.memory.Some? && key in c'.memory.value
    ensures c'.memory.value[key] == MakeEntry(data, now, expiryDays)
    ensures key in c'.storage && c'.storage[key] == Wrapped(MakeEntry(data, now, expiryDays))
    ensures forall k :: k != key ==> (k in c'.storage <==> k in c.storage)
    ensures forall k :: k != key && k in c.storage ==> c'.storage[k] == c.storage[k]
    ensures forall k :: k != key ==> (k in c'.memory.value <==> k in c.memory.GetOr(map[]))
    ensures forall k :: k != key && k in c.memory.GetOr(map[]) ==> c'.memory.value[k] == c.memory.GetOr(map[])[k]
  {
    var e := MakeEntry(data, now, expiryDays);
    Cache(Some(c.memory.GetOr(map[])[key := e]), c.storage[key := Wrapped(e)])
  }

  /** `saveToCacheWithExpiry` when `localStorage.setItem` may throw (quota
      exhausted, storage disabled): the memory write happens first and
      stays, the throw is caught, and localStorage keeps what it had.
      `stored` says whether `setItem` succeeded. */
  function TrySave<T>(c: Cache<T>, key: string, data: T, now: int, expiryDays: int, stored: bool): (c': Cache<T>)
    ensures c'.memory.Some? && key in c'.memory.value
    ensures c'.memory.value[key] == MakeEntry(data, now, expiryDays)
    ensures forall k :: k != key ==> (k in c'.memory.value <==> k in c.memory.GetOr(map[]))
    ensures forall k :: k != key && k in c.memory.GetOr(map[]) ==> c'.memory.value[k] == c.memory.GetOr(map[])[k]
    ensures stored ==> key in c'.storage && c'.storage[key] == Wrapped(MakeEntry(data, now, expiryDays))
    ensures stored ==> forall k :: k != key ==> (k in c'.storage <==> k in c.storage)
    ensures stored ==> forall k :: k != key && k in c.storage ==> c'.storage[k] == c.storage[k]
    ensures !stored ==> c'.storage == c.storage
  {
    var saved := Save(c, key, data, now, expiryDays);
    if stored then saved else Cache(saved.memory, c.storage)
  }

  /** The memory tier holds an unexpired record for `key`. */
  predicate MemoryLive<T>(c: Cache<T>, key: string, now: int) {
    c.memory.Some? && key in c.memory.value && now < c.memory.value[key].expiry
  }

  /** localStorage holds a record for `key` that passes
      `parsed.expiry && now < parsed.expiry` (an expiry of 0 is falsy). */
  predicate StorageLive<T>(c: Cache<T>, key: string, now: int) {
    key in c.storage && c.storage[key].Wrapped?
    && c.storage[key].entry.expiry != 0 && now < c.storage[key].entry.expiry
  }

  /** localStorage holds something under `key` that parses but does not pass
      the expiry test; the reader deletes it. */
  predicate StorageStale<T>(c: Cache<T>, key: string, now: int) {
    key in c.storage
    && (c.storage[key].Bare? || (c.storage[key].Wrapped? && !StorageLive(c, key, now)))
  }

  datatype Read<T> = Read(found: Option<T>, cache: Cache<T>)

  /** `getCachedDataWithExpiry`. */
  function Lookup<T>(c: Cache<T>, key: string, now: int): (r: Read<T>)
    ensures r.found.Some? <==> MemoryLive(c, key, now) || StorageLive(c, key, now)
    ensures MemoryLive(c, key, now) ==> r == Read(Some(c.memory.value[key].data), c)
    ensures !MemoryLive(c, key, now) && StorageLive(c, key, now) ==>
              r.found == Some(c.storage[key].entry.data)
    // the storage tier loses the key exactly when what it holds is stale
    ensures r.cache.storage == if !MemoryLive(c, key, now) && StorageStale(c, key, now)
                               then RemoveItem(c.storage, key) else c.storage
    // the memory tier changes only by restoring a live stored record, and
    // only when the memory object already exists
    ensures r.cache.memory.None? <==> c.memory.None?
    ensures r.cache.memory != c.memory ==>
              !MemoryLive(c, key, now) && StorageLive(c, key, now) && c.memory.Some?
              && r.cache.memory == Some(c.memory.value[key := c.storage[key].entry])
  {
    if MemoryLive(c, key, now) then Read(Some(c.memory.value[key].data), c)
    else if key !in c.storage then Read(None, c)
    else match c.storage[key]
      case Wrapped(e) =>
        if e.expiry != 0 && now < e.expiry then
          var memory := match c.memory
            case None => None
            case Some(m) => Some(m[key := e]);
          Read(Some(e.data), Cache(memory, c.storage))
        else Read(None, Cache(c.memory, RemoveItem(c.storage, key)))
      case Bare(_) => Read(None, Cache(c.memory, RemoveItem(c.storage, key)))
      case Corrupt => Read(None, c)
      case Blank => Read(None, c)
  }

  /** A record saved for `d` days is returned by every lookup before it
      expires. */
  lemma SaveThenLookup<T>(c: Cache<T>, key: string, data: T, saved: int, days: int, now: int)
    requires now < saved + days * MsPerDay
    ensures Lookup(Save(c, key, data, saved, days), key, now).found == Some(data)
  {
  }

  /** After a page reload the record is still found, now from localStorage;
      the restore into memory is lost because the memory object does not
      exist yet. */
  lemma SurvivesReload<T>(c: Cache<T>, key: string, data: T, saved: int, days: int, now: int)
    requires now < saved + days * MsPerDay && saved + days * MsPerDay != 0
    ensures Lookup(Reload(Save(c, key, data, saved, days)), key, now)
            == Read(Some(data), Reload(Save(c, key, data, saved, days)))
  {
  }

  /** Past its expiry a record is never returned, and a lookup that falls
      through to localStorage deletes it. */
  lemma ExpiredNeverReturned<T>(c: Cache<T>, key: string, data: T, saved: int, days: int, now: int)
    requires now >= saved + days * MsPerDay
    ensures Lookup(Save(c, key, data, saved, days), key, now).found.None?
    ensures key !in Lookup(Save(c, key, data, saved, days), key, now).cache.storage
  {
  }

  /** A document stored without an `expiry` field is deleted on sight. */
  lemma BareEntryDeleted<T>(c: Cache<T>, key: string, doc: T, now: int)
    requires !MemoryLive(c, key, now)
    requires key in c.storage && c.storage[key] == Bare(doc)
    ensures Lookup(c, key, now).found.None?
    ensures key !in Lookup(c, key, now).cache.storage
  {
  }

  /** Unparseable text is left in place: the parse error is caught before
      the removal is reached. */
  lemma CorruptEntryKept<T>(c: Cache<T>, key: string, now: int)
    requires !MemoryLive(c, key, now)
    requires key in c.storage && c.storage[key] == Corrupt
    ensures Lookup(c, key, now) == Read(None, c)
  {
  }

  /** A lookup never makes a later lookup at the same time disagree. */
  lemma LookupStable<T>(c: Cache<T>, key: string, now: int)
    ensures Lookup(Lookup(c, key, now).cache, key, now).found == Lookup(c, key, now).found
  {
  }
}

=== FILE: verse_text.dfy ===
/** Verse content in the first front end's chapter view
    (bible-study-fe/src/components/BibleChapter.jsx): the plain text of a
    verse, with whitespace collapsed and trimmed, and the order in which a
    content item is classified for display. */
module VerseText {
  import opened Text

  /** A verse content item: a plain string, or an object whose `text`
      (`""` when absent), `lineBreak` flag and `poem` indent are used. */
  datatype Item = Str(s: string) | Obj(text: string, lineBreak: bool, poem: int)

  /** The text an item contributes: a string itself, an object its `text`;
      an absent or empty `text` is falsy and contributes `""` either way. */
  function ItemText(item: Item): string {
    match item
    case Str(s) => s
    case Obj(t, _, _) => t
  }

  function ItemTexts(content: seq<Item>): (r: seq<string>)
    ensures |r| == |content|
    ensures forall i :: 0 <= i < |content| ==> r[i] == ItemText(content[i])
  {
    seq(|content|, i requires 0 <= i < |content| => ItemText(content[i]))
  }

  /** Every whitespace character is a plain space and none follows another. */
  predicate Collapsed(s: string) {
    forall i :: 0 <= i < |s| && IsSpace(Js, s[i]) ==>
      s[i] == ' ' && (i + 1 < |s| ==> !IsSpace(Js, s[i + 1]))
  }

  /** `.replace(/\s+/g, " ")`: each maximal whitespace run becomes one space. */
  function Collapse(s: string): (r: string)
    ensures Collapsed(r)
    ensures s != [] && !IsSpace(Js, s[0]) ==> r != [] && r[0] == s[0]
    ensures s != [] && IsSpace(Js, s[0]) ==> r != [] && r[0] == ' '
    decreases |s|
  {
    if s == [] then []
    else if IsSpace(Js, s[0]) then [' '] + Collapse(s[Lead(Js, s)..])
    else [s[0]] + Collapse(s[1..])
  }

  /** Collapsing keeps every non-whitespace character, in order. */
  lemma {:induction false} CollapseKeepsText(s: string)
    ensures RemoveSpace(Js, Collapse(s)) == RemoveSpace(Js, s)
    decreases |s|
  {
    if s != [] {
      if IsSpace(Js, s[0]) {
        var k := Lead(Js, s);
        CollapseKeepsText(s[k..]);
        RemoveSpaceConcat(Js, [' '], Collapse(s[k..]));
        assert s == s[..k] + s[k..];
        RemoveSpaceConcat(Js, s[..k], s[k..]);
        AllSpaceRemoved(Js, s[..k]);
      } else {
        CollapseKeepsText(s[1..]);
        RemoveSpaceConcat(Js, [s[0]], Collapse(s[1..]));
        assert s == [s[0]] + s[1..];
        RemoveSpaceConcat(Js, [s[0]], s[1..]);
      }
    }
  }

  /** A collapsed text is left as it is. */
  lemma {:induction false} CollapseFixesCollapsed(s: string)
    requires Collapsed(s)
    ensures Collapse(s) == s
    decreases |s|
  {
    if s != [] {
      assert Collapsed(s[1..]) by {
        forall i | 0 <= i < |s[1..]| && IsSpace(Js, s[1..][i])
          ensures s[1..][i] == ' ' && (i + 1 < |s[1..]| ==> !IsSpace(Js, s[1..][i + 1]))
        {
          assert s[1..][i] == s[i + 1];
        }
      }
      CollapseFixesCollapsed(s[1..]);
      if IsSpace(Js, s[0]) {
        assert Lead(Js, s) == 1;
      }
      assert s == [s[0]] + s[1..];
    }
  }

  lemma CollapsedSlice(s: string, a: nat, b: nat)
    requires Collapsed(s) && a <= b <= |s|
    ensures Collapsed(s[a..b])
  {
    forall i | 0 <= i < |s[a..b]| && IsSpace(Js, s[a..b][i])
      ensures s[a..b][i] == ' ' && (i + 1 < |s[a..b]| ==> !IsSpace(Js, s[a..b][i + 1]))
    {
      assert s[a..b][i] == s[a + i];
      if i + 1 < |s[a..b]| {
        assert s[a..b][i + 1] == s[a + i + 1];
      }
    }
  }

  /** No character of `w` is whitespace. */
  predicate NoSpace(w: string) {
    forall i :: 0 <= i < |w| ==> !IsSpace(Js, w[i])
  }

  /** Length of the leading run of non-whitespace characters. */
  function Run(s: string): (k: nat)
    ensures k <= |s|
    ensures forall i :: 0 <= i < k ==> !IsSpace(Js, s[i])
    ensures k < |s| ==> IsSpace(Js, s[k])
  {
    if |s| > 0 && !IsSpace(Js, s[0]) then 1 + Run(s[1..]) else 0
  }

  /** The words of `s`: its maximal runs of non-whitespace characters, in
      order. This is what the display of a verse is built from, stated
      without reference to how `getVerseText` rewrites the string. */
  function Words(s: string): seq<string>
    decreases |s|
  {
    var t := s[Lead(Js, s)..];
    if t == [] then []
    else
      var k := Run(t);
      assert t[0] == s[Lead(Js, s)];
      [t[..k]] + Words(t[k..])
  }

  /** Every word is non-empty and free of whitespace. */
  lemma {:induction false} WordsShape(s: string)
    ensures forall i :: 0 <= i < |Words(s)| ==> Words(s)[i] != [] && NoSpace(Words(s)[i])
    decreases |s|
  {
    var t := s[Lead(Js, s)..];
    if t != [] {
      var k := Run(t);
      assert t[0] == s[Lead(Js, s)];
      assert forall i :: 0 <= i < k ==> t[..k][i] == t[i];
      WordsShape(t[k..]);
    }
  }

  /** A text has no words exactly when it is all whitespace. */
  lemma WordsNone(s: string)
    ensures Words(s) == [] <==> AllSpace(Js, s)
  {
    var a := Lead(Js, s);
    if a < |s| {
      assert !IsSpace(Js, s[a]);
    }
  }

  /** The words of several texts, one text after another. */
  function AllWords(texts: seq<string>): seq<string>
    decreases |texts|
  {
    if texts == [] then [] else Words(texts[0]) + AllWords(texts[1..])
  }

  /** The lead ends at the first non-whitespace character. */
  lemma LeadAt(s: string, n: nat)
    requires n <= |s| && (forall i :: 0 <= i < n ==> IsSpace(Js, s[i]))
    requires n < |s| ==> !IsSpace(Js, s[n])
    ensures Lead(Js, s) == n
  {
  }

  /** A run ends at the first whitespace character. */
  lemma RunAt(s: string, n: nat)
    requires n <= |s| && (forall i :: 0 <= i < n ==> !IsSpace(Js, s[i]))
    requires n < |s| ==> IsSpace(Js, s[n])
    ensures Run(s) == n
  {
  }

  /** A word after whitespace and before whitespace (or the end) is the
      first word. */
  lemma WordsCons(ws: string, w: string, x: string)
    requires AllSpace(Js, ws) && w != [] && NoSpace(w) && (x == [] || IsSpace(Js, x[0]))
    ensures Words(ws + w + x) == [w] + Words(x)
  {
    var s := ws + w + x;
    var t := w + x;
    assert forall i :: 0 <= i < |ws| ==> s[i] == ws[i];
    assert s[|ws|] == w[0];
    LeadAt(s, |ws|);
    assert s[|ws|..] == t;
    assert forall i :: 0 <= i < |w| ==> t[i] == w[i];
    assert x != [] ==> t[|w|] == x[0];
    RunAt(t, |w|);
    assert t[..|w|] == w && t[|w|..] == x;
  }

  /** Leading whitespace adds no word. */
  lemma SkipSpace(ws: string, y: string)
    requires AllSpace(Js, ws)
    ensures Words(ws + y) == Words(y)
  {
    var s := ws + y;
    var a := Lead(Js, y);
    var n := |ws| + a;
    assert forall i :: 0 <= i < n ==> IsSpace(Js, s[i]) by {
      forall i | 0 <= i < n ensures IsSpace(Js, s[i]) {
        if i < |ws| { assert s[i] == ws[i]; } else { assert s[i] == y[i - |ws|]; }
      }
    }
    assert n < |s| ==> s[n] == y[a];
    LeadAt(s, n);
    assert s[n..] == y[a..];
  }

  /** A text with a word in it is whitespace, its first word, and the rest,
      which is empty or starts with whitespace. */
  lemma Decompose(s: string) returns (ws: string, w: string, x: string)
    requires !AllSpace(Js, s)
    ensures s == ws + w + x && Words(s) == [w] + Words(x)
    ensures AllSpace(Js, ws) && w != [] && NoSpace(w) && (x == [] || IsSpace(Js, x[0]))
    ensures |x| < |s|
  {
    var a := Lead(Js, s);
    var t := s[a..];
    var k := Run(t);
    ws, w, x := s[..a], t[..k], t[k..];
    WordsNone(s);
    LeadIsSpace(Js, s);
    SliceThree(s, a, k);
    assert forall i :: 0 <= i < k ==> w[i] == t[i];
  }

  /** Two texts joined by a space have the words of the first, then those
      of the second: the space never glues two words together. */
  lemma {:induction false} WordsSep(a: string, b: string)
    ensures Words(a + [' '] + b) == Words(a) + Words(b)
    decreases |a|
  {
    if AllSpace(Js, a) {
      AllSpaceConcat(Js, a, [' ']);
      SkipSpace(a + [' '], b);
    } else {
      var ws, w, x := Decompose(a);
      var y := x + [' '] + b;
      assert a + [' '] + b == ws + w + y;
      assert y[0] == if x == [] then ' ' else x[0];
      WordsCons(ws, w, y);
      WordsSep(x, b);
      calc {
        Words(a + [' '] + b);
        Words(ws + w + y);
        [w] + Words(y);
        [w] + (Words(x) + Words(b));
        { ConcatAssoc([w], Words(x), Words(b)); }
        ([w] + Words(x)) + Words(b);
        Words(a) + Words(b);
      }
    }
  }

  /** The words of texts joined by spaces are the texts' words in order. */
  lemma {:induction false} WordsOfJoin(texts: seq<string>)
    ensures Words(Join(texts, ' ')) == AllWords(texts)
    decreases |texts|
  {
    if |texts| == 1 {
      assert AllWords(texts[1..]) == [];
    } else if |texts| > 1 {
      WordsSep(texts[0], Join(texts[1..], ' '));
      WordsOfJoin(texts[1..]);
    }
  }

  lemma {:induction false} AllWordsShape(texts: seq<string>)
    ensures forall i :: 0 <= i < |AllWords(texts)| ==> AllWords(texts)[i] != [] && NoSpace(AllWords(texts)[i])
    decreases |texts|
  {
    if texts != [] {
      WordsShape(texts[0]);
      AllWordsShape(texts[1..]);
      var a, b := Words(texts[0]), AllWords(texts[1..]);
      assert AllWords(texts) == a + b;
      forall i | 0 <= i < |a + b| ensures (a + b)[i] != [] && NoSpace((a + b)[i]) {
        if i < |a| {
          assert (a + b)[i] == a[i];
          assert a[i] != [] && NoSpace(a[i]);
        } else {
          assert (a + b)[i] == b[i - |a|];
          assert b[i - |a|] != [] && NoSpace(b[i - |a|]);
        }
      }
    }
  }

  /** Words joined by single spaces split back into the same words. */
  lemma {:induction false} WordsRoundTrip(words: seq<string>)
    requires forall i :: 0 <= i < |words| ==> words[i] != [] && NoSpace(words[i])
    ensures Words(Join(words, ' ')) == words
    decreases |words|
  {
    WordsOfJoin(words);
    AllWordsOfWords(words);
  }

  lemma {:induction false} AllWordsOfWords(words: seq<string>)
    requires forall i :: 0 <= i < |words| ==> words[i] != [] && NoSpace(words[i])
    ensures AllWords(words) == words
    decreases |words|
  {
    if words != [] {
      WordsCons("", words[0], "");
      assert "" + words[0] + "" == words[0];
      assert Words("") == [];
      AllWordsOfWords(words[1..]);
    }
  }

  /** Words joined by single spaces neither start nor end with whitespace. */
  lemma {:induction false} JoinWordsEnds(words: seq<string>)
    requires forall i :: 0 <= i < |words| ==> words[i] != [] && NoSpace(words[i])
    ensures words != [] ==> var j := Join(words, ' ');
              j != [] && !IsSpace(Js, j[0]) && !IsSpace(Js, j[|j| - 1])
    decreases |words|
  {
    if |words| > 1 {
      JoinWordsEnds(words[1..]);
      var j := Join(words, ' ');
      assert j[0] == words[0][0];
      assert j[|j| - 1] == Join(words[1..], ' ')[|Join(words[1..], ' ')| - 1];
    }
  }

  /** A one-space marker for a text whose end is whitespace. */
  function Pad(c: char): string {
    if IsSpace(Js, c) then " " else ""
  }

  /** `.replace(/\s+/g, " ")` word by word: between consecutive words
      exactly one space, and at either end one space when the text had
      whitespace there; a text without words collapses to at most one
      space. */
  lemma {:induction false} CollapseWords(s: string)
    ensures Words(s) == [] ==> Collapse(s) == (if s == [] then [] else [' '])
    ensures Words(s) != [] ==> Collapse(s) == Pad(s[0]) + Join(Words(s), ' ') + Pad(s[|s| - 1])
    decreases |s|
  {
    WordsNone(s);
    if Words(s) == [] {
      if s != [] {
        LeadAt(s, |s|);
      }
    } else {
      var ws, w, x := Decompose(s);
      CollapseHead(s, ws, w, x);
      CollapseWords(x);
      WordsNone(x);
      LastOfConcat(ws, w, x);
      if Words(x) == [] {
        CollapseLastWord(s, w, x);
      } else {
        CollapseNextWord(s, w, x);
      }
    }
  }

  /** The last element of a concatenation whose middle part is non-empty. */
  lemma LastOfConcat<T>(a: seq<T>, b: seq<T>, c: seq<T>)
    requires b != []
    ensures (a + b + c)[|a + b + c| - 1] == if c == [] then b[|b| - 1] else c[|c| - 1]
  {
  }

  lemma CollapseLastWord(s: string, w: string, x: string)
    requires Words(s) == [w] + Words(x) && Words(x) == []
    requires Collapse(s) == Pad(s[0]) + (w + Collapse(x))
    requires Collapse(x) == (if x == [] then [] else [' '])
    requires s != [] && Pad(s[|s| - 1]) == Collapse(x)
    ensures Collapse(s) == Pad(s[0]) + Join(Words(s), ' ') + Pad(s[|s| - 1])
  {
    assert Words(s) == [w];
    ConcatAssoc(Pad(s[0]), w, Collapse(x));
  }

  lemma CollapseNextWord(s: string, w: string, x: string)
    requires Words(s) == [w] + Words(x) && Words(x) != []
    requires Collapse(s) == Pad(s[0]) + (w + Collapse(x))
    requires Collapse(x) == [' '] + Join(Words(x), ' ') + Pad(s[|s| - 1])
    ensures Collapse(s) == Pad(s[0]) + Join(Words(s), ' ') + Pad(s[|s| - 1])
  {
    var j := Join(Words(x), ' ');
    var last := Pad(s[|s| - 1]);
    assert Join(Words(s), ' ') == w + [' '] + j by {
      assert ([w] + Words(x))[1..] == Words(x);
    }
    ConcatAssoc(w, [' '] + j, last);
    ConcatAssoc(w, [' '], j);
    ConcatAssoc(Pad(s[0]), w + [' '] + j, last);
  }

  /** Collapsing a text that starts with a word, after optional
      whitespace: one space for the whitespace, then the word itself. */
  lemma CollapseHead(s: string, ws: string, w: string, x: string)
    requires s == ws + w + x && AllSpace(Js, ws) && w != [] && NoSpace(w)
    ensures Collapse(s) == Pad(s[0]) + (w + Collapse(x))
  {
    CollapseWord(w, x);
    ConcatAssoc(ws, w, x);
    if ws == [] {
      assert s == w + x && s[0] == w[0];
    } else {
      CollapseAfterSpace(ws, w + x);
      assert s[0] == ws[0];
    }
  }

  /** A whitespace run before a non-whitespace character becomes one
      space. */
  lemma CollapseAfterSpace(ws: string, v: string)
    requires ws != [] && AllSpace(Js, ws) && v != [] && !IsSpace(Js, v[0])
    ensures Collapse(ws + v) == [' '] + Collapse(v)
  {
    var s := ws + v;
    assert forall i :: 0 <= i < |ws| ==> s[i] == ws[i];
    assert s[|ws|] == v[0];
    LeadAt(s, |ws|);
    DropFront(ws, v);
    assert IsSpace(Js, s[0]);
  }

  /** A word passes through collapsing unchanged. */
  lemma {:induction false} CollapseWord(w: string, x: string)
    requires NoSpace(w)
    ensures Collapse(w + x) == w + Collapse(x)
    decreases |w|
  {
    if w != [] {
      var v := w + x;
      assert v[0] == w[0] && !IsSpace(Js, v[0]);
      assert v[1..] == w[1..] + x by {
        assert w == [w[0]] + w[1..];
        ConcatAssoc([w[0]], w[1..], x);
        DropFront([w[0]], w[1..] + x);
      }
      assert NoSpace(w[1..]) by {
        forall i | 0 <= i < |w[1..]| ensures !IsSpace(Js, w[1..][i]) {
          assert w[1..][i] == w[i + 1];
        }
      }
      calc {
        Collapse(v);
        [w[0]] + Collapse(v[1..]);
        { CollapseWord(w[1..], x); }
        [w[0]] + (w[1..] + Collapse(x));
        { ConcatAssoc([w[0]], w[1..], Collapse(x)); assert w == [w[0]] + w[1..]; }
        w + Collapse(x);
      }
    } else {
      assert w + x == x && w + Collapse(x) == Collapse(x);
    }
  }

  /** Collapsing and trimming leaves the words joined by single spaces. */
  lemma NormalForm(s: string)
    ensures Trim(Js, Collapse(s)) == Join(Words(s), ' ')
  {
    CollapseWords(s);
    if Words(s) != [] {
      WordsShape(s);
      JoinWordsEnds(Words(s));
      TrimUnique(Js, Pad(s[0]), Join(Words(s), ' '), Pad(s[|s| - 1]));
    }
  }

  /** Collapse, then trim: the words of `s` separated by single spaces. */
  function Normalize(s: string): (r: string)
    ensures r == Join(Words(s), ' ')
    ensures Trimmed(Js, r) && Collapsed(r)
    ensures RemoveSpace(Js, r) == RemoveSpace(Js, s)
  {
    TrimOfCollapsed(s);
    NormalForm(s);
    Trim(Js, Collapse(s))
  }

  lemma TrimOfCollapsed(s: string)
    ensures Collapsed(Trim(Js, Collapse(s)))
    ensures RemoveSpace(Js, Trim(Js, Collapse(s))) == RemoveSpace(Js, s)
  {
    var c := Collapse(s);
    var x, y := TrimParts(c);
    assert c[|x|..|c| - |y|] == Trim(Js, c);
    CollapsedSlice(c, |x|, |c| - |y|);
    CollapseKeepsText(s);
    RemoveSpaceConcat(Js, x + Trim(Js, c), y);
    RemoveSpaceConcat(Js, x, Trim(Js, c));
    AllSpaceRemoved(Js, x);
    AllSpaceRemoved(Js, y);
  }

  /** `Trim` as a slice: the whitespace before and after it. */
  lemma TrimParts(s: string) returns (x: string, y: string)
    ensures AllSpace(Js, x) && AllSpace(Js, y)
    ensures s == x + Trim(Js, s) + y
  {
    x, y := TrimSplits(Js, s);
  }

  /** Normalising twice is normalising once. */
  lemma NormalizeIdempotent(s: string)
    ensures Normalize(Normalize(s)) == Normalize(s)
  {
    var n := Normalize(s);
    CollapseFixesCollapsed(n);
    TrimKeepsTrimmed(Js, n);
  }

  /** The texts run together, whitespace dropped. */
  function Glued(texts: seq<string>): string
    decreases |texts|
  {
    if texts == [] then [] else RemoveSpace(Js, texts[0]) + Glued(texts[1..])
  }

  lemma {:induction false} JoinKeepsText(texts: seq<string>)
    ensures RemoveSpace(Js, Join(texts, ' ')) == Glued(texts)
    decreases |texts|
  {
    if |texts| == 1 {
      assert Glued(texts[1..]) == [];
    } else if |texts| > 1 {
      JoinKeepsText(texts[1..]);
      RemoveSpaceConcat(Js, texts[0] + [' '], Join(texts[1..], ' '));
      RemoveSpaceConcat(Js, texts[0], [' ']);
    }
  }

  /** `getVerseText`: the item texts joined with spaces, collapsed and
      trimmed: every word of every item, in order, with exactly one plain
      space between consecutive words and none at either end. */
  function VerseText(content: seq<Item>): (r: string)
    ensures r == Join(AllWords(ItemTexts(content)), ' ')
    ensures Words(r) == AllWords(ItemTexts(content))
    ensures Trimmed(Js, r) && Collapsed(r)
    ensures RemoveSpace(Js, r) == Glued(ItemTexts(content))
  {
    JoinKeepsText(ItemTexts(content));
    WordsOfJoin(ItemTexts(content));
    AllWordsShape(ItemTexts(content));
    WordsRoundTrip(AllWords(ItemTexts(content)));
    Normalize(Join(ItemTexts(content), ' '))
  }

  /** The verse text is already normal. */
  lemma VerseTextStable(content: seq<Item>)
    ensures Normalize(VerseText(content)) == VerseText(content)
  {
    NormalizeIdempotent(Join(ItemTexts(content), ' '));
  }

  /** How `renderVerseContent` shows one item. */
  datatype Shown = Plain(s: string) | Break | Poem(indentRem: real, text: string) | Nothing

  /** Strings first, then a truthy `lineBreak`, then a non-zero `poem`. */
  function Render(item: Item): (r: Shown)
    ensures item.Str? <==> r.Plain?
    ensures r.Break? <==> item.Obj? && item.lineBreak
    ensures r.Poem? <==> item.Obj? && !item.lineBreak && item.poem != 0
    ensures r.Poem? ==> r.indentRem == item.poem as real * 1.5
  {
    match item
    case Str(s) => Plain(s)
    case Obj(t, lb, p) =>
      if lb then Break else if p != 0 then Poem(p as real * 1.5, t) else Nothing
  }

  /** What is shown as text is exactly what the item contributes to the
      verse text; a line break or an unclassified object shows no text
      although its `text`, if any, is still part of the verse text. */
  lemma ShownTextIsItemText(item: Item)
    ensures Render(item).Plain? ==> Render(item).s == ItemText(item)
    ensures Render(item).Poem? ==> Render(item).text == ItemText(item)
  {
  }
}

=== FILE: weather_stream.dfy ===
/** The weather-stream test page (bible-study-fe-2/src/pages/TestStream.tsx):
    the reducer that applies each server-sent event to the page state, the
    reset after the read loop, and the per-field status and display value.
    Splitting the byte stream into events is done by the `eventsource-parser`
    library and is not modelled: the events it emits are the input. */
module WeatherStream {
  import opened Wrappers
  import opened Text

  datatype Field = Location | Temperature | Conditions

  /** A field value as the JSON carries it. */
  datatype Value = Str(s: string) | Num(n: int)

  /** A `Partial<WeatherData>`: the fields present. */
  type Fields = map<Field, Value>

  /** One event handed to `onEvent`. `Invalid` is data `JSON.parse` rejects;
      `Unknown` parses but has none of the three handled types. */
  datatype Event =
    | Done
    | Comment(message: string)
    | FieldUpdate(field: Field, allFields: Fields)
    | Complete(data: Fields)
    | Invalid
    | Unknown

  datatype Page = Page(
    weatherData: Option<Fields>,
    loading: bool,
    isStreaming: bool,
    partialData: Fields,
    streamingField: Option<Field>,
    processingMessage: string)

  /** The state `fetchStream` sets before the request. */
  const Begin: Page := Page(None, true, false, map[], None, "")

  /** The final data, partial data and message agree. */
  predicate SameData(p: Page, q: Page) {
    p.weatherData == q.weatherData && p.partialData == q.partialData && p.processingMessage == q.processingMessage
  }

  /** The three flags agree. */
  predicate SameFlags(p: Page, q: Page) {
    p.loading == q.loading && p.isStreaming == q.isStreaming && p.streamingField == q.streamingField
  }

  /** `onEvent`. */
  function OnEvent(p: Page, e: Event): (r: Page)
    ensures e.Done? ==> SameData(r, p) && !r.loading && !r.isStreaming && r.streamingField.None?
    ensures e.Comment? ==>
              SameFlags(r, p) && r.processingMessage == e.message
              && r.weatherData == p.weatherData && r.partialData == p.partialData
    ensures e.FieldUpdate? ==>
              r.partialData == e.allFields && r.isStreaming && r.streamingField == Some(e.field)
              && r.loading == p.loading && r.weatherData == p.weatherData
              && r.processingMessage == p.processingMessage
    ensures e.Complete? ==>
              r.weatherData == Some(e.data) && r.partialData == e.data && r.processingMessage == ""
              && !r.loading && !r.isStreaming && r.streamingField.None?
    ensures e.Invalid? || e.Unknown? ==> r == p
    ensures !e.Complete? ==> r.weatherData == p.weatherData
  {
    match e
    case Done => p.(loading := false, isStreaming := false, streamingField := None)
    case Comment(m) => p.(processingMessage := m)
    case FieldUpdate(f, all) => p.(isStreaming := true, streamingField := Some(f), partialData := all)
    case Complete(d) =>
      p.(weatherData := Some(d), partialData := d, isStreaming := false,
         streamingField := None, loading := false, processingMessage := "")
    case Invalid => p
    case Unknown => p
  }

  function OnEvents(p: Page, es: seq<Event>): Page
    decreases |es|
  {
    if es == [] then p else OnEvents(OnEvent(p, es[0]), es[1..])
  }

  /** The `finally` block after the read loop. */
  function Settle(p: Page): (r: Page)
    ensures !r.loading && !r.isStreaming && r.streamingField.None?
    ensures SameData(r, p)
  {
    p.(loading := false, isStreaming := false, streamingField := None)
  }

  /** How the request of `fetchStream` turns out. `Rejected` is a `fetch`
      that throws (server down, blocked request); `Body` carries the events
      the parser emitted before the stream ended, or before a read threw. */
  datatype Outcome = Rejected | NoBody | Body(events: seq<Event>)

  /** `fetchStream`. The request is awaited outside the only `try`, so a
      rejected fetch escapes with the page still loading; a response without
      a body only stops loading; otherwise the events are applied and the
      `finally` resets the flags. */
  function FetchStream(outcome: Outcome): (r: Page)
    ensures outcome.Rejected? ==> r == Begin && r.loading
    ensures outcome.NoBody? ==> r == Begin.(loading := false)
    ensures !outcome.Rejected? <==> !r.loading
    ensures outcome.Body? ==> !r.isStreaming && r.streamingField.None?
  {
    match outcome
    case Rejected => Begin
    case NoBody => Begin.(loading := false)
    case Body(events) => Settle(OnEvents(Begin, events))
  }

  /** The data of the last `complete` event, or `d` when there is none. */
  function LastComplete(es: seq<Event>, d: Option<Fields>): Option<Fields>
    decreases |es|
  {
    if es == [] then d
    else if es[|es| - 1].Complete? then Some(es[|es| - 1].data)
    else LastComplete(es[..|es| - 1], d)
  }

  lemma OnEventsAppend(p: Page, es: seq<Event>, e: Event)
    ensures OnEvents(p, es + [e]) == OnEvent(OnEvents(p, es), e)
    decreases |es|
  {
    if es != [] {
      assert (es + [e])[1..] == es[1..] + [e];
      OnEventsAppend(OnEvent(p, es[0]), es[1..], e);
    }
  }

  /** Only `complete` events set the final data: after any events it is the
      last one's data, or what it was before. */
  lemma {:induction false} FinalDataFromLastComplete(p: Page, es: seq<Event>)
    ensures OnEvents(p, es).weatherData == LastComplete(es, p.weatherData)
    decreases |es|
  {
    if es != [] {
      var init := es[..|es| - 1];
      assert es == init + [es[|es| - 1]];
      OnEventsAppend(p, init, es[|es| - 1]);
      FinalDataFromLastComplete(p, init);
    }
  }

  /** A stream with no `complete` event leaves the page without final data. */
  lemma NoCompleteNoData(outcome: Outcome)
    requires outcome.Body? ==> forall i :: 0 <= i < |outcome.events| ==> !outcome.events[i].Complete?
    ensures FetchStream(outcome).weatherData.None?
  {
    if outcome.Body? {
      FinalDataFromLastComplete(Begin, outcome.events);
      NoCompleteKeeps(outcome.events, None);
    }
  }

  /** A stream that delivers a `complete` event shows the data of the last
      one once it ends. */
  lemma CompletedStreamShowsData(events: seq<Event>, i: nat)
    requires i < |events| && events[i].Complete?
    ensures FetchStream(Body(events)).weatherData.Some?
  {
    FinalDataFromLastComplete(Begin, events);
    SomeCompleteFound(events, i);
  }

  lemma {:induction false} SomeCompleteFound(es: seq<Event>, i: nat)
    requires i < |es| && es[i].Complete?
    ensures LastComplete(es, None).Some?
    decreases |es|
  {
    if !es[|es| - 1].Complete? {
      SomeCompleteFound(es[..|es| - 1], i);
    }
  }

  lemma {:induction false} NoCompleteKeeps(es: seq<Event>, d: Option<Fields>)
    requires forall i :: 0 <= i < |es| ==> !es[i].Complete?
    ensures LastComplete(es, d) == d
    decreases |es|
  {
    if es != [] {
      NoCompleteKeeps(es[..|es| - 1], d);
    }
  }

  /** `"complete"`, `"streaming"`, `"waiting"`. */
  datatype Status = IsComplete | IsStreaming | IsWaiting

  /** `getFieldStatus`. */
  function FieldStatus(p: Page, f: Field): (r: Status)
    ensures r == IsComplete <==> p.weatherData.Some? && f in p.weatherData.value
    ensures r == IsStreaming <==> !(p.weatherData.Some? && f in p.weatherData.value) && f in p.partialData
    ensures r == IsWaiting <==> !(p.weatherData.Some? && f in p.weatherData.value) && f !in p.partialData
  {
    if p.weatherData.Some? && f in p.weatherData.value then IsComplete
    else if f in p.partialData then IsStreaming
    else IsWaiting
  }

  /** A value as the template literal renders it. */
  function Show(v: Value): string {
    match v
    case Str(s) => s
    case Num(n) => IntToString(n)
  }

  const Celsius: string := "\U{B0}C"
  const LoadingText: string := "Loading..."

  /** How a field's value is shown: temperatures carry the unit. */
  function Render(f: Field, v: Value): string {
    if f == Temperature then Show(v) + Celsius else Show(v)
  }

  /** `getFieldValue`. */
  function FieldValue(p: Page, f: Field): string {
    if p.weatherData.Some? && f in p.weatherData.value then Render(f, p.weatherData.value[f])
    else if f in p.partialData then Render(f, p.partialData[f])
    else LoadingText
  }

  /** The value shown agrees with the status: the final value when
      complete, the partial one when streaming, the placeholder when
      waiting. */
  lemma ValueFollowsStatus(p: Page, f: Field)
    ensures FieldStatus(p, f) == IsComplete ==> FieldValue(p, f) == Render(f, p.weatherData.value[f])
    ensures FieldStatus(p, f) == IsStreaming ==> FieldValue(p, f) == Render(f, p.partialData[f])
    ensures FieldStatus(p, f) == IsWaiting ==> FieldValue(p, f) == LoadingText
  {
  }

  /** Only temperatures end in the unit; a string that could itself end in
      it is shown unchanged for the other fields. */
  lemma UnitOnlyOnTemperature(f: Field, v: Value)
    ensures f == Temperature ==> Render(f, v)[..|Show(v)|] == Show(v) && Render(f, v)[|Show(v)|..] == Celsius
    ensures f != Temperature ==> Render(f, v) == Show(v)
  {
  }

  /** After a `complete` event every field it carried shows as complete
      with its final value, whatever `field_update` events follow. */
  lemma CompleteWinsOverLaterUpdates(p: Page, d: Fields, later: seq<Event>, f: Field)
    requires f in d
    requires forall i :: 0 <= i < |later| ==> !later[i].Complete?
    ensures FieldStatus(OnEvents(OnEvent(p, Complete(d)), later), f) == IsComplete
    ensures FieldValue(OnEvents(OnEvent(p, Complete(d)), later), f) == Render(f, d[f])
  {
    FinalDataFromLastComplete(OnEvent(p, Complete(d)), later);
    NoCompleteKeeps(later, Some(d));
  }

  /** A `field_update` replaces the partial data instead of merging: a
      field absent from `all_fields` goes back to waiting. */
  lemma UpdateReplacesPartial(p: Page, f: Field, all: Fields, g: Field)
    requires p.weatherData.None? && g !in all
    ensures FieldStatus(OnEvent(p, FieldUpdate(f, all)), g) == IsWaiting
  {
  }
}

=== FILE: wrappers.dfy ===
/** Optional values, standing in for JavaScript's `null`/`undefined` and
    Python's `None` throughout the model. */
module Wrappers {

  datatype Option<+T> = None | Some(value: T) {

    /** The value, or `default` when there is none (JavaScript's `x || default`
        on an object-valued `x`). */
    function GetOr(default: T): T {
      match this
      case Some(v) => v
      case None => default
    }
  }
}
